=== FILE: README.md ===
# Hexapod locomotion and receiver model

A Dafny model of the control core of `hexapod_rpi`, the Raspberry Pi port of a six-legged robot controller. The model covers:

- the vector and interpolation helpers;
- the Bezier and binomial helpers;
- the configuration tables;
- the servo controller with its angle cache and board routing;
- the kinematics instance, which keeps the shared record of every leg's position and its calibration offsets;
- the offsets store;
- the five leg controllers (standing, walking, calibration, sleep, attacks);
- the main loop's receiver handling, smoothing and state machine;
- the two radio receivers: SBUS with its 11-bit channel packing, and CRSF;
- the stand-alone SBUS-to-servo script.

There is one Dafny module per source file.

Modelling conventions:

- **Numbers.** Python floats are exact rationals (`real`). Python's `int()` is `Helpers.Trunc`, which truncates toward zero. SBUS bytes are `bv8`, and the unpacking runs on 32-bit vectors.
- **Trigonometry.** Square roots, `acos`, `atan2`, degree cosines and sines, and the undefined `Vector3.rotate` are function-valued parameters. Each lemma that needs a fact about them assumes only that fact at the point it uses it.
- **State.** Every object is an immutable datatype, and every method returns its new value.
- **Shared positions.** `move_to_pos` records every target in the kinematics instance's position record, reachable or not. The model's leg controllers read their positions from that record. In `main.py` each controller is instead handed its own copy, taken by `get_all_positions` at setup, and no controller calls `get_current_position`. So in the source a controller's snapshots always see the setup pose. Standing.CopiedPositionsStayAtSetup states this divergence, and "Left out" lists it.
- **Errors.** A Python exception is an error outcome: a division by zero in the solver, a missing storage section, a short CRSF channel list. In each case the state the source has already changed is kept.
- **Time and I/O.** Clocks, serial reads, file reads and writes, and the radio parser's frames are inputs.
- **Main loop.** The main loop calls the standing and walking controllers with signatures they do not have. Its state machine therefore returns the calls it makes as a list of actions, and it takes the sleep controller's answer as an input. `Controller.TickAsWritten` is the pass as written, in which those calls raise and the loop's handler shuts the robot down.
- **Slam attack.** The blocking slam attack is modelled frame by frame and then as whole phases.

## Model

| member | source | states |
|---|---|---|
| Helpers.Lerp | hexapod_rpi/utils/helpers.py:11-36 | scalar interpolation gives `a` at factor 0, `b` at factor 1, and `a` whenever both ends agree |
| Helpers.Lerp2 | hexapod_rpi/utils/helpers.py:23-27 | a `Vector2` interpolation gives the start at factor 0 and the end at factor 1 |
| Helpers.Lerp3 | hexapod_rpi/utils/helpers.py:28-33 | a `Vector3` interpolation gives the start at factor 0 and the end at factor 1 |
| Helpers.LerpBetween | hexapod_rpi/utils/helpers.py:35-36 | with a factor in [0, 1] the result lies between the two ends, and its gap to `b` is the old gap scaled by `1 - f` |
| Helpers.MapFloat | hexapod_rpi/utils/helpers.py:53-67 | `in_min` maps to `out_min` and `in_max` to `out_max` (non-empty input range) |
| Helpers.MapFloatAffine | hexapod_rpi/utils/helpers.py:53-67 | the map is affine: the point a fraction `f` along the input range lands the same fraction along the output range |
| Helpers.Constrain | hexapod_rpi/utils/helpers.py:70-82 | the result lies in [lo, hi] when lo <= hi, is the value itself when already in range, and the nearer bound otherwise; with hi < lo it is lo |
| Helpers.Trunc | hexapod_rpi/utils/helpers.py:228 | Python's `int()` on a float truncates toward zero, for both signs |
| Helpers.ChooseFactorial | hexapod_rpi/utils/helpers.py:85-104 | the binomial coefficient times `k!` times `(n-k)!` is `n!` for `k <= n` |
| Helpers.ChooseAbove | hexapod_rpi/utils/helpers.py:85-104 | the coefficient is 0 when `k > n` |
| Helpers.Absorption | hexapod_rpi/utils/helpers.py:100-102 | the identity `k * C(n, k) == n * C(n-1, k-1)` that makes each floor division of the running product exact |
| Helpers.BinomialStep | hexapod_rpi/utils/helpers.py:100-102 | one multiply-then-floor-divide step turns `C(m-1, i-1)` into exactly `C(m, i)` |
| Helpers.BinomialCoefficient | hexapod_rpi/utils/helpers.py:85-104 | the loop of multiplications and exact floor divisions returns the binomial coefficient, equal to `n!/(k!(n-k)!)` for `k <= n` and 0 above |
| Helpers.BezierAtZero | hexapod_rpi/utils/helpers.py:107-144 | the curve at t = 0 is the first control point |
| Helpers.BezierAtOne | hexapod_rpi/utils/helpers.py:107-144 | the curve at t = 1 is control point `num_points - 1` |
| Helpers.BezierReadsPrefix | hexapod_rpi/utils/helpers.py:133-142 | only the first `num_points` control points affect the result |
| Helpers.BezierTwoPoints | hexapod_rpi/utils/helpers.py:133-142 | a two-point curve is the interpolation between its two points |
| Helpers.AngleToMicros | hexapod_rpi/utils/helpers.py:214-228 | for any angle the pulse width is an integer in [500, 2500], the truncation of the linear map of the clamped angle |
| Helpers.MicrosToAngle | hexapod_rpi/utils/helpers.py:231-245 | the angle lies in [0, 180], 0 at or below 500 us and 180 at or above 2500 us |
| Helpers.AngleRoundTrip | hexapod_rpi/utils/helpers.py:214-245 | angle to pulse width and back is at most the clamped angle and within 0.09 degrees of it |
| Vectors.Div2 | hexapod_rpi/utils/vectors.py:43-47 | division by 0 yields the zero vector; otherwise scaling back by the divisor recovers the vector |
| Vectors.Div3 | hexapod_rpi/utils/vectors.py:112-116 | division by 0 yields the zero vector; otherwise scaling back by the divisor recovers the vector |
| Vectors.Normalize2 | hexapod_rpi/utils/vectors.py:20-25 | a zero-magnitude vector normalises to the zero vector; otherwise the result times the magnitude is the vector |
| Vectors.Normalize3 | hexapod_rpi/utils/vectors.py:73-78 | a zero-magnitude vector normalises to the zero vector; otherwise the result times the magnitude is the vector |
| Vectors.AddSubCancel2 | hexapod_rpi/utils/vectors.py:31-37 | `(a + b) - b == a` for `Vector2` |
| Vectors.AddSubCancel3 | hexapod_rpi/utils/vectors.py:100-106 | `(a + b) - b == a` for `Vector3` |
| Vectors.ScaleDivCancel3 | hexapod_rpi/utils/vectors.py:108-116 | multiplication acts componentwise and division by the same non-zero scalar undoes it |
| Vectors.DotCommutes | hexapod_rpi/utils/vectors.py:88-90 | the dot product is commutative |
| Vectors.CrossOrthogonal | hexapod_rpi/utils/vectors.py:88-98 | both factors are orthogonal to their cross product |
| Vectors.DistanceLaws3 | hexapod_rpi/utils/vectors.py:80-86 | squared distance is symmetric, non-negative and 0 from a vector to itself |
| Vectors.DistanceLaws2 | hexapod_rpi/utils/vectors.py:27-29 | squared distance is symmetric, non-negative and 0 from a vector to itself |
| Vectors.Copy2 | hexapod_rpi/utils/vectors.py:56-59 | the copy has the same components |
| Vectors.Copy3 | hexapod_rpi/utils/vectors.py:129-131 | the copy has the same components |
| Kinematics.Init | hexapod_rpi/kinematics.py:18-52 | a new instance records every leg at the origin, holds 18 zero raw offsets and the base offset (90, 50, -10) for every leg |
| Kinematics.AcosArguments | hexapod_rpi/kinematics.py:99-118 | both law-of-cosines arguments are clamped into [-1, 1] before `acos`; a zero hypotenuse is the division by zero the source raises |
| Kinematics.AcosArgumentsUnclampedInRange | hexapod_rpi/kinematics.py:107-110 | a ratio already in [-1, 1] reaches `acos` unchanged |
| Kinematics.Quantise | hexapod_rpi/kinematics.py:125-132 | an angle after the pulse-width round trip lies in [0, 180], at most the clamped angle and within 0.09 degrees of it |
| Kinematics.MoveToPos | hexapod_rpi/kinematics.py:56-140 | the target and its truncated x, y are recorded before the reachability test; the move is refused exactly when the target is farther than LEG_LENGTH, and then no servo is written; a reached target writes three angles in [0, 180] to that leg's servos only |
| Kinematics.ReachabilityExamples | hexapod_rpi/kinematics.py:75-79 | (200, 0, -50) is within reach and (500, 0, 0) is not |
| Kinematics.UnreachableStillRecorded | hexapod_rpi/kinematics.py:67-79 | a refused target still becomes the leg's recorded position, and the servos are untouched |
| Kinematics.OffsetsFrom | hexapod_rpi/kinematics.py:147-152 | leg `i`'s offset vector is `(raw[3i] + 90, raw[3i+1] + 50, raw[3i+2] - 10)` |
| Kinematics.OffsetsRoundTrip | hexapod_rpi/kinematics.py:147-152 | the expansion loses nothing: the raw table is recovered from the six offset vectors |
| Kinematics.UpdateOffsetVariables | hexapod_rpi/kinematics.py:142-152 | every leg's offset vector is recomputed from the raw table, the raw table is recoverable from the result, and nothing else changes |
| Kinematics.SetRawOffsets | hexapod_rpi/kinematics.py:159-171 | a list whose length is not 18 changes nothing; an 18-value list is stored and expanded into the per-leg offsets |
| Kinematics.GetRawOffsets | hexapod_rpi/kinematics.py:173-180 | the result holds the 18 stored values; being a value, changing it cannot reach the stored table |
| Kinematics.RawOffsetsRoundTrip | hexapod_rpi/kinematics.py:159-180 | setting an 18-value table and reading it back, directly or from the offset vectors, gives the table set |
| Kinematics.GetCurrentPosition | hexapod_rpi/kinematics.py:182-194 | a leg in 0..5 gives its recorded position, any other index the zero vector |
| Kinematics.GetAllPositions | hexapod_rpi/kinematics.py:196-203 | six positions, each equal to the recorded one |
| Kinematics.SetCurrentPosition | hexapod_rpi/kinematics.py:205-214 | a leg in 0..5 has its position overwritten, any other index changes nothing |
| Kinematics.PositionRoundTrip | hexapod_rpi/kinematics.py:182-214 | setting a leg's position and reading it back gives the position set |
| Kinematics.MoveSequence | hexapod_rpi/kinematics.py:56-79 | after a run of `move_to_pos` calls with no division by zero, every leg's recorded position is the last target it was given, reachable or not |
| Kinematics.MoveSequenceFailsIff | hexapod_rpi/kinematics.py:56-79 | a run of `move_to_pos` calls fails exactly when one of its targets is within reach at zero hypotenuse |
| Kinematics.AllLegsTo | hexapod_rpi/states/standing.py:154-157 | the move list that commands every leg in order to one target |
| Kinematics.LastTargetAfterAllLegs | hexapod_rpi/states/standing.py:154-157 | whatever moves came first, commanding every leg to one target leaves that target as every leg's last one |
| Kinematics.LastTargetOfDistinct | hexapod_rpi/kinematics.py:67-72 | when each move names a different leg, a leg's last target is the one move that names it, or its old position if none does |
| ServoController.Init | hexapod_rpi/servo_controller.py:28-32 | a new controller is detached with no angle cached and nothing written |
| ServoController.BoardAndChannel | hexapod_rpi/servo_controller.py:150-167 | indices below 15 go to board 1 at the same channel, the rest to board 2 at index - 15 |
| ServoController.BoardAndChannelInjective | hexapod_rpi/servo_controller.py:162-167 | distinct servos get distinct (board, channel) pairs |
| ServoController.BoardAndChannelMatchesConfig | hexapod_rpi/servo_controller.py:162-167 | every index gets a channel in 0..15, and board 1 / board 2 are the 0x40 / 0x41 entries the channel table gives that servo's name |
| ServoController.LegServoIndices | hexapod_rpi/servo_controller.py:169-194 | a leg's three servo indices are `get_servo_index(leg, j)` for j = 0, 1, 2 |
| ServoController.ServoIndexBijective | hexapod_rpi/servo_controller.py:183-194 | `3 * leg + joint` lies in 0..17 and gives back its leg and joint by division and remainder |
| ServoController.WriteAngle | hexapod_rpi/servo_controller.py:89-114 | the angle is clamped to [0, 180] and cached; a hardware write happens exactly when the clamped angle differs from the cached one, to the servo's board and channel |
| ServoController.WriteAngleInRange | hexapod_rpi/servo_controller.py:98 | every angle ever written to the hardware lies in [0, 180] |
| ServoController.WriteAngleIdempotent | hexapod_rpi/servo_controller.py:100-102 | writing the same angle twice writes once |
| ServoController.WriteMicroseconds | hexapod_rpi/servo_controller.py:116-133 | 500 us writes 0 degrees, 2500 us writes 180, and pulse widths in between map linearly at 0.09 degrees per microsecond |
| ServoController.WriteLegServos | hexapod_rpi/servo_controller.py:135-148 | the leg's servos take the clamped angles in coxa, femur, tibia order; every other servo keeps its cached angle |
| ServoController.AttachServos | hexapod_rpi/servo_controller.py:46-67 | attaching when detached commands all 18 servos to 90 degrees and sets the flag; attaching when attached changes nothing |
| ServoController.WriteAllNeutral | hexapod_rpi/servo_controller.py:58-60 | the first `n` servos are commanded to 90 degrees and the rest keep their cache |
| ServoController.DetachServos | hexapod_rpi/servo_controller.py:69-87 | detaching only clears the flag |
| ServoController.Cleanup | hexapod_rpi/servo_controller.py:196-203 | cleanup leaves the servos detached and writes nothing |
| ServoController.AttachDetachIdempotent | hexapod_rpi/servo_controller.py:46-87 | attach, detach and cleanup are each idempotent |
| Config.LegLengthValue | hexapod_rpi/config.py:69-72 | LEG_LENGTH is 46 + 108 + 200 = 354 |
| Config.ServoIndexMapShape | hexapod_rpi/config.py:51-58 | 18 names, each a key of SERVO_CHANNELS, leg `l` at indices 3l..3l+2 in coxa, femur, tibia order |
| Config.ServoChannelLayout | hexapod_rpi/config.py:17-47 | indices 0..14 sit on 0x40 with channel equal to the index and 15..17 on 0x41 at channels 0..2 |
| Config.ServoIndexMapDistinct | hexapod_rpi/config.py:51-58 | no name appears twice in SERVO_INDEX_MAP |
| Config.MultiplierTables | hexapod_rpi/config.py:91-92 | STRIDE_MULTIPLIER and ROTATION_MULTIPLIER have six entries, each -1, 0 or 1 |
| Config.GaitsListShape | hexapod_rpi/config.py:167-176 | GAITS_LIST has TOTAL_GAITS entries and entry `i` is gait `i`, so the gaits are distinct |
| Storage.Zeros | hexapod_rpi/storage.py:56 | `[0] * n`: n zeros |
| Storage.DefaultConfig | hexapod_rpi/storage.py:47-67 | the default record holds 18 zero offsets and has calibration and settings sections |
| Storage.Normalise | hexapod_rpi/storage.py:119-123 | exactly 18 values: the prefix kept, zero-padded when short, cut when long |
| Storage.LoadOffsets | hexapod_rpi/storage.py:110-125 | always 18 values, the stored ones normalised or 18 zeros when none are stored; a short stored list is padded in place |
| Storage.SaveOffsets | hexapod_rpi/storage.py:93-108 | a list whose length is not 18 returns False and leaves the data unchanged; otherwise it is stored and the result is the file write's |
| Storage.SaveLoadRoundTrip | hexapod_rpi/storage.py:247-254 | saving 18 offsets and loading gives them back, as the module's own test asserts |
| Storage.LoadOffsetsStable | hexapod_rpi/storage.py:117-125 | loading twice gives the same list both times |
| Storage.SaveCalibration | hexapod_rpi/storage.py:127-138 | new calibration values override, old keys not mentioned stay; a record without the section raises |
| Storage.LoadCalibration | hexapod_rpi/storage.py:140-147 | the calibration section, or an empty one when absent |
| Storage.GetSetting | hexapod_rpi/storage.py:171-182 | the stored setting, or the default when the key or the whole section is missing |
| Storage.SetSetting | hexapod_rpi/storage.py:184-199 | the key is set, the section created when absent, and the rest of the record unchanged |
| Storage.SettingRoundTrip | hexapod_rpi/storage.py:171-199 | setting a key and reading it back gives the value set |
| Storage.SaveSettings | hexapod_rpi/storage.py:149-160 | every new setting reads back as given; a record without the section raises |
| Storage.LoadSettings | hexapod_rpi/storage.py:162-169 | the settings section, or an empty one when absent |
| Storage.ResetToDefaults | hexapod_rpi/storage.py:201-209 | the whole record becomes the default one, whose offsets load as 18 zeros |
| Walking.Init | hexapod_rpi/states/walking.py:19-76 | a new walking state is in the tripod gait with no previous gait, every phase at 0 and every leg in RESET |
| Walking.GaitTableShape | hexapod_rpi/states/walking.py:94-188 | exactly the gait numbers 0..5 have a table, every offset lies in [0, POINTS), tripod is [0, P/2, 0, P/2, 0, P/2] and hop all zeros |
| Walking.SetGait | hexapod_rpi/states/walking.py:78-188 | the old gait is remembered; the leg states reset to RESET only when the gait changes; a known gait rewrites every phase to its table on every call; an unknown one keeps phases and parameters |
| Walking.SetGaitForgetsProgress | hexapod_rpi/states/walking.py:94-188 | after setting a known gait the phases are the table's, whatever progress the legs had made |
| Walking.SetGaitTwice | hexapod_rpi/states/walking.py:85-91 | setting the same gait again changes neither phases, leg states nor parameters |
| Walking.RotatePoint | hexapod_rpi/states/walking.py:388-413 | z is kept, and a rotation whose cosine is 1 and sine 0 is the identity |
| Walking.RotatePointKeepsDistance | hexapod_rpi/states/walking.py:405-413 | with cos^2 + sin^2 = 1 the squared horizontal distance to the pivot is kept |
| Walking.MiddleLegsNotRotated | hexapod_rpi/states/walking.py:293-297 | legs 1 and 4 (rotation multiplier 0) are rotated by angle 0, which leaves the point unchanged |
| Walking.ClampThenScale | hexapod_rpi/states/walking.py:266-268 | the forward stride is clamped to half the maximum stride before the speed scaling, and left alone when already within it |
| Walking.StraightPropelling | hexapod_rpi/states/walking.py:285-298 | the two-point pushing curve starts at the leg's snapshot |
| Walking.TurnPropelling | hexapod_rpi/states/walking.py:304-312 | the three-point turning push curve starts at the snapshot |
| Walking.StraightLifting | hexapod_rpi/states/walking.py:328-355 | the four-point lifting curve starts at the snapshot and rises straight up by the lift height first |
| Walking.TurnLifting | hexapod_rpi/states/walking.py:361-378 | the five-point turning lift curve starts at the snapshot and lands at (distance from center, -turn stride, ground distance) |
| Walking.Blend | hexapod_rpi/states/walking.py:273-275 | the curves are weighted by the input magnitudes; no input gives the origin, pure translation the straight point and pure turning the turn point |
| Walking.GaitPoint | hexapod_rpi/states/walking.py:244-386 | a leg is PROPELLING iff its t is below the push fraction, else LIFTING; its start point is re-snapshotted only when it enters a new sub-state; nothing else changes; zero input gives the origin |
| Walking.PushStartsAtSnapshot | hexapod_rpi/states/walking.py:280-302 | a leg starting its push (t = 0) under pure translation is placed exactly at its snapshot |
| Walking.Advance | hexapod_rpi/states/walking.py:236-239 | every phase moves by the same change with at most one subtraction of POINTS, legs in step stay in step, and phases in [0, POINTS) stay there for a change below POINTS |
| Walking.AdvanceKeepsRange | hexapod_rpi/states/walking.py:206-207 | phases in [0, POINTS) stay there, so every leg's next t is in [0, 1) |
| Walking.AdvanceKeepsPhase | hexapod_rpi/states/walking.py:236-239 | the phase difference of any two legs is unchanged modulo POINTS |
| Walking.ProgressChange | hexapod_rpi/states/walking.py:228-231 | the change lies in [0, max(0, max_speed * global_speed_multiplier)] |
| Walking.TickChange | hexapod_rpi/states/walking.py:201-231 | the tick's change is non-negative and at most max_speed times the slider multiplier when that is non-negative |
| Walking.GaitPointReadsOwnLeg | hexapod_rpi/states/walking.py:244-386 | a leg's gait point, new sub-state and start point read no other leg's sub-state or start point, so driving one leg never changes another leg's target |
| Walking.StepLegs | hexapod_rpi/states/walking.py:218-223 | the legs are driven in order. Legs already driven are left alone. Without a solver failure every remaining leg ends at its gait point, computed from the state and positions at the start of the pass, with that point's sub-state and start point recorded. Only the leg states and start points of the walking state change |
| Walking.Update | hexapod_rpi/states/walking.py:190-239 | the speed multiplier is (slider + 10) * 0.01, and each leg's t is its phase before the tick over POINTS. Without a solver failure every leg is at its gait point for this tick's inputs, and all phases advance by the one tick change with wrap. A solver failure keeps the phases |
| Walking.UpdateKeepsRange | hexapod_rpi/states/walking.py:228-239 | with the slider at most 100 and the gait's max speed at most 200, phases in [0, POINTS) stay there after a tick |
| Walking.SpeedBound | hexapod_rpi/states/walking.py:228-231 | max speed 200 times the largest slider multiplier 1.1 stays below POINTS |
| Walking.UpdateKeepsTripodGroups | hexapod_rpi/states/walking.py:236-239 | legs 0, 2, 4 and legs 1, 3, 5 stay in lockstep through any tick |
| Walking.ProgressLostBetweenTicks | hexapod_rpi/main.py:165-167 | because the gait is set again before every tick, the phases the next tick sees are the table's, not the advanced ones |
| Walking.ResetState | hexapod_rpi/states/walking.py:424-439 | phases, t and amounts go to 0, every leg to RESET, and every start point to the leg's recorded position |
| Standing.Init | hexapod_rpi/states/standing.py:19-48 | a new controller is not initialised, both counters are 0, every slot is -1 and the height is DISTANCE_FROM_GROUND_BASE |
| Standing.ScanSlot | hexapod_rpi/states/standing.py:169-181 | the scan of one slot returns -1 exactly when no leg is eligible (not taken, at least 5 from the pose), and otherwise an eligible leg no eligible leg is higher than, strictly higher than every eligible leg before it |
| Standing.SelectHighest | hexapod_rpi/states/standing.py:161-181 | three slots, slot `j` filled by a scan that skips the legs in the earlier slots |
| Standing.ScanFromFirstLeg | hexapod_rpi/states/standing.py:168-181 | a scan picks an untaken leg at least 5 from the pose of maximal height, ties to the lowest index, and -1 exactly when every such leg is taken |
| Standing.SelectHighestSlot | hexapod_rpi/states/standing.py:166-181 | slot `j` holds a leg at least 5 from the pose and not in an earlier slot, of maximal z with ties to the lowest index, and is -1 exactly when every such leg is already chosen |
| Standing.SelectHighestDistinct | hexapod_rpi/states/standing.py:170-172 | no leg is chosen for two slots |
| Standing.SelectHighestEmptyTail | hexapod_rpi/states/standing.py:166-181 | once a slot is -1 every later one is too, so -1 slots appear only when fewer than three legs qualify |
| Standing.InBetween | hexapod_rpi/states/standing.py:98-110 | x and y are (start + end) / 1.5. z is the average plus 70 exactly when that average is within 50 of the end height, plus 80 more exactly under high lift |
| Standing.Initialise | hexapod_rpi/states/standing.py:74-115 | counters restart at 0; all legs move at once when asked or when coming from CALIBRATE, INITIALIZE, SLAM_ATTACK, SLEEP or ATTACH, high lift also after SLAM_ATTACK or SLEEP; otherwise the three highest legs are chosen; each leg's curve runs start, in-between, pose |
| Standing.CurveParameter | hexapod_rpi/states/standing.py:125-127 | t is progress / POINTS capped at 1, and it is 1 exactly when progress reaches POINTS |
| Standing.SlotMoves | hexapod_rpi/states/standing.py:140-146 | one move per filled slot to the point of that leg's curve at t, and no move when every slot is empty |
| Standing.TransitionMoves | hexapod_rpi/states/standing.py:129-146 | all-at-once moves every leg along its curve; otherwise at most the three slot legs move |
| Standing.CountLoop | hexapod_rpi/states/standing.py:135-152 | past POINTS the progress restarts and the loops jump to 2 (all at once) or grow by one with the legs reselected; otherwise only the progress is stored |
| Standing.Hold | hexapod_rpi/states/standing.py:154-159 | every leg is commanded to the pose (the curve at t = 1) and the tick reports done exactly when two loops are complete |
| Standing.Prepare | hexapod_rpi/states/standing.py:65-119 | the pose is (distance from center, 0, height + adjustment), every curve's end is updated to it on every call, and the first call initialises |
| Standing.Transition | hexapod_rpi/states/standing.py:121-159 | below two loops the progress grows by 20 and the legs move, or the progress restarts past POINTS with more loops; when the transition moves raise, the +20 already added is kept and nothing else changes; at two loops nothing but the hold happens; every leg ends at the pose |
| Standing.CopiedPositionsStayAtSetup | hexapod_rpi/main.py:109-143 | read through the copy taken at setup, a first standing tick starts every curve at the setup pose. Once a later move has sent a leg elsewhere, those starts differ from the recorded positions |
| Standing.Update | hexapod_rpi/states/standing.py:50-159 | the first tick snapshots the recorded positions and leaves progress 20; later ticks add 20 or restart past POINTS with more loops, and a tick cut short by a solver failure keeps what it already added; every tick ends with all legs at the pose and returns stand_loops >= 2 |
| Standing.ResetState | hexapod_rpi/states/standing.py:183-187 | only the initialised flag and the two counters are cleared |
| Standing.EveryTickCommandsAllLegs | hexapod_rpi/states/standing.py:154-157 | in three-at-a-time mode at most three legs follow curves, yet every tick commands all six legs, so "at most three legs move" does not hold |
| Calibration.Init | hexapod_rpi/states/calibration.py:31-49 | a new controller is not initialised, the legs are not lifted, and the last applied offsets are 18 zeros |
| Calibration.TargetValue | hexapod_rpi/states/calibration.py:38 | the calibration pose is (46 + 43, 0, 108 + 185) = (89, 0, 293) |
| Calibration.LiftZ | hexapod_rpi/states/calibration.py:78-82 | a low leg's next z is lerp(z, -18, 0.03): strictly higher and still below -18 |
| Calibration.LiftMoves | hexapod_rpi/states/calibration.py:74-88 | only legs with z < -20 are moved, each to the same x, y with the lifted z; every other leg keeps its position |
| Calibration.StepToward | hexapod_rpi/states/calibration.py:113-116 | one axis moves at most 5 toward the target and never past it; the gap shrinks by 5 or closes |
| Calibration.StepArrives | hexapod_rpi/states/calibration.py:113-119 | a foot within 5 of the pose on every axis is on the pose after one step |
| Calibration.ApplyRcOffsets | hexapod_rpi/states/calibration.py:98-104 | radio offsets are applied only when given, of length 18 and different from the last applied list, which they then replace |
| Calibration.RcOffsetsRepeatNoOp | hexapod_rpi/states/calibration.py:99-103 | offering the same list again changes nothing |
| Calibration.Lift | hexapod_rpi/states/calibration.py:70-94 | phase 1 lifts the low legs, marks the legs lifted exactly when no leg was low, and always returns False |
| Calibration.Approach | hexapod_rpi/states/calibration.py:96-127 | phase 2 applies the radio offsets, steps every foot toward the pose, and returns True iff every foot's pre-step distance to the pose is at most 5 |
| Calibration.Update | hexapod_rpi/states/calibration.py:53-129 | a tick runs phase 1 until the legs are lifted and phase 2 afterwards, with the per-phase results above |
| Calibration.SetupCopyNeverLifts | hexapod_rpi/states/calibration.py:69-92 | read through the setup copy, where every foot is at -60, a phase-1 tick finds every leg low and leaves the legs not lifted, so phase 2 is never reached |
| Calibration.LiftedOnlyWhenAllUp | hexapod_rpi/states/calibration.py:90-94 | legs_lifted becomes true only on a tick that found every leg at z >= -20, and that tick returns False |
| Calibration.LiftNeverOvershoots | hexapod_rpi/states/calibration.py:78-82 | a lifted leg climbs but stays below -18 |
| Calibration.AdjustOffset | hexapod_rpi/states/calibration.py:131-161 | a leg outside 0..5 or a joint outside 0..2 changes nothing; otherwise only offset 3 * leg + joint changes, to clamp(old + delta, -30, 30) |
| Calibration.ResetOffsets | hexapod_rpi/states/calibration.py:197-201 | all 18 offsets become 0, so every leg's offset vector is the base offset |
| Calibration.SaveOffsets | hexapod_rpi/states/calibration.py:167-183 | the current 18 offsets are stored in the configuration record |
| Calibration.LoadOffsets | hexapod_rpi/states/calibration.py:185-195 | the record and the 18 offsets are exactly what the storage load gives (the stored list padded or cut to 18, or 18 zeros); those offsets become the raw offsets and the positions are kept |
| Calibration.SaveThenLoadKeepsOffsets | hexapod_rpi/states/calibration.py:167-195 | saving and then loading leaves the offsets as they were |
| Calibration.ResetState | hexapod_rpi/states/calibration.py:257-260 | reset clears initialised and legs_lifted and keeps the last applied offsets |
| Sleep.Init | hexapod_rpi/states/sleep.py:31-37 | a new controller is in phase 1, not initialised and has not detached the servos |
| Sleep.EaseAxis | hexapod_rpi/states/sleep.py:67-81 | an axis within 1 of the pose snaps onto it; otherwise it moves 3% of the way, the gap shrinking to 97%; the gap never grows and the axis never passes the pose |
| Sleep.EasePointFixed | hexapod_rpi/states/sleep.py:67-81 | a foot on the pose (130, 0, -46) stays there |
| Sleep.EaseAxisConverges | hexapod_rpi/states/sleep.py:67-81 | easing reaches the pose exactly: a gap below Reach(n) is closed within n + 1 ticks |
| Sleep.EaseMoves | hexapod_rpi/states/sleep.py:67-83 | one move per leg in leg order, each to the eased position |
| Sleep.EaseTick | hexapod_rpi/states/sleep.py:63-93 | phase 1 moves every leg to its eased position, always returns False, and enters phase 2 exactly when the at-pose test holds for every leg |
| Sleep.Tick | hexapod_rpi/states/sleep.py:41-107 | the first tick initialises; with the servos already detached the tick returns True and moves nothing |
| Sleep.UpdateAsWritten | hexapod_rpi/states/sleep.py:85-93 | with the object-identity test of the source, an attached phase 1 tick never leaves phase 1 |
| Sleep.Update | hexapod_rpi/states/sleep.py:41-107 | detached servos give True at once; phase 1 eases every leg, returns False and moves to phase 2 exactly when every eased leg is on the pose; phase 2 detaches, enters phase 3 and returns True; phase 3 returns True and changes nothing |
| Sleep.ObjectComparisonNeverFinishes | hexapod_rpi/states/sleep.py:86 | with every foot on the pose, the value comparison moves on to phase 2 but the identity comparison as written stays in phase 1 |
| Sleep.WakeUp | hexapod_rpi/states/sleep.py:109-122 | reattaches and returns True exactly when this controller detached the servos; otherwise it changes nothing and returns False |
| Sleep.ResetState | hexapod_rpi/states/sleep.py:128-132 | back to phase 1 and not initialised, keeping the detached flag, so it is not sleeping |
| Sleep.EnterSleepMode | hexapod_rpi/states/sleep.py:137-159 | smooth gives a fresh controller; immediate detaches the servos and yields phase 3 with the detached flag, i.e. sleeping |
| Sleep.ImmediateSleepForgetsDetached | hexapod_rpi/states/sleep.py:48-57 | after an immediate sleep the first tick clears the detached flag while reporting asleep, so a later wake-up does not reattach |
| Sleep.DetachThenWake | hexapod_rpi/states/sleep.py:96-122 | phase 2 leaves the controller sleeping, and a wake-up then reattaches the servos |
| Attacks.Init | hexapod_rpi/states/attacks.py:19-41 | a new attack state holds six start points and has not started a slam |
| Attacks.SetCycleStartPoints | hexapod_rpi/states/attacks.py:45-52 | the snapshot is exactly the shared current position of every leg, and the slam flag is kept |
| Attacks.Progress | hexapod_rpi/states/attacks.py:82-83 | the parameter of frame i of n lies in [0, 1) |
| Attacks.ProgressScaled | hexapod_rpi/states/attacks.py:82-83 | scaling the parameter back by the frame count gives the frame index |
| Attacks.HalfwayFrame | hexapod_rpi/states/attacks.py:113-116 | a frame is at or past the middle (t >= 0.5) exactly when twice its index reaches the frame count |
| Attacks.LastFrameHolds | hexapod_rpi/states/attacks.py:100-101 | from 20 frames on, the last frame's parameter is at least the 0.95 landing fraction |
| Attacks.PlacementOffset | hexapod_rpi/states/attacks.py:140-159 | the stance moves the foot in x exactly for legs 0, 1, 4 and 5 (-70 for legs 1 and 4, +40 for legs 0 and 5) |
| Attacks.PlacementPoint | hexapod_rpi/states/attacks.py:161-173 | the foot is on the straight line from its snapshot point to the stance target, starting at the snapshot |
| Attacks.LeapMiddle | hexapod_rpi/states/attacks.py:196-201 | the middle control point lies halfway between start and end in x and y, 300 lower in z, 120 for legs 0 and 5 |
| Attacks.LeapCurve | hexapod_rpi/states/attacks.py:186-208 | the leap arc has three control points from the snapshot point to the landing point |
| Attacks.LeapPoint | hexapod_rpi/states/attacks.py:175-209 | the leap path starts on the snapshot point and ends on the landing point |
| Attacks.StageAt | hexapod_rpi/states/attacks.py:227-279 | below 0.70 is the raise, from 0.95 the hold, the strike in between; each stage's own parameter maps its interval onto [0, 1) |
| Attacks.RaiseCurve | hexapod_rpi/states/attacks.py:233-245 | the raise curve has three points and starts on the snapshot point |
| Attacks.StrikeCurve | hexapod_rpi/states/attacks.py:251-270 | the strike curve has four control points |
| Attacks.SlamPoint | hexapod_rpi/states/attacks.py:211-279 | the slam path starts on the snapshot point and, from the landing fraction on, is the held point |
| Attacks.SlamPathContinuous | hexapod_rpi/states/attacks.py:238-279 | the raise ends where the strike starts and the strike ends on the held point, so the path has no jump |
| Attacks.PhaseFrames | hexapod_rpi/states/attacks.py:79-97 | the frame counts are 0.4 and 1.2 times the speed, truncated toward zero for either sign. For a non-negative speed the placement count is at most the leap count |
| Attacks.DefaultPhaseFrames | hexapod_rpi/states/attacks.py:54-97 | the default speed 25 gives 10 placement and 30 leap frames |
| Attacks.PlacementMoves | hexapod_rpi/states/attacks.py:86-88 | one move per leg in leg order, each to its placement point |
| Attacks.PlacementFrame | hexapod_rpi/states/attacks.py:82-90 | without a division by zero every leg ends on its placement point; the offsets are unchanged |
| Attacks.LeapMoves | hexapod_rpi/states/attacks.py:103-111 | six moves to six different legs, in the order 0, 1, 4, 5, 2, 3. Each leg's target is its leap-frame position: the leap arc for 0, 1, 4 and 5, the slam path for 2 and 3 |
| Attacks.LeapFrame | hexapod_rpi/states/attacks.py:100-118 | every leg ends on its leap or slam point; the one-shot flag becomes set exactly from the trigger frame on; a crash changes no attack state |
| Attacks.TriggerFrame | hexapod_rpi/states/attacks.py:114 | the trigger frame is the first whose index doubled reaches the frame count |
| Attacks.TriggerAtHalfway | hexapod_rpi/states/attacks.py:113-116 | a frame has t >= 0.5 exactly when it is at or after the trigger frame |
| Attacks.PlacementPhase | hexapod_rpi/states/attacks.py:82-90 | after all placement frames every leg is on its placement point for the last frame's parameter |
| Attacks.LeapPhase | hexapod_rpi/states/attacks.py:100-118 | the flag ends set exactly when there are at least two frames, is set at the trigger frame and only once, and every leg ends on its last-frame leap or slam point |
| Attacks.SlamAttack | hexapod_rpi/states/attacks.py:54-127 | returns True exactly when no division by zero raised; the final snapshot is the final positions; the slam flag and its frame follow the leap frame count; with 20 or more leap frames legs 2 and 3 end on the held point |
| Attacks.StrikeHeight | hexapod_rpi/states/attacks.py:298-313 | over [0, 1) the height stays in [0, 200] and is positive except at t = 0 |
| Attacks.StrikeHeightSymmetric | hexapod_rpi/states/attacks.py:298-313 | the height is symmetric about the middle and peaks at 200 there |
| Attacks.QuickStrike | hexapod_rpi/states/attacks.py:281-318 | the strike snapshots the positions, moves no other leg, and leaves the striking foot 50 forward at height 20 |
| Controller.Init | hexapod_rpi/main.py:60-81 | the robot starts in INITIALIZE with the tripod gait, disconnected, without leg controllers, sticks at rest and the ground height at its base value |
| Controller.Setup | hexapod_rpi/main.py:91-143 | setup attaches the servos and sends all six legs to (DISTANCE_FROM_CENTER, 0, DISTANCE_FROM_GROUND_BASE). It fails exactly when the solver divides by zero on that pose, and then changes nothing in the controller. Otherwise every leg is recorded there, the copied positions are that pose, the current gait is set, and the state is STAND. Nothing else in the controller changes |
| Controller.Button | hexapod_rpi/main.py:170-186 | a pressed button enters its mode, and resets that mode's controller only when the mode was not already current and the controllers exist |
| Controller.UpdateReceiver | hexapod_rpi/main.py:145-191 | no receiver: nothing changes; failed read: disconnected with both stick targets zeroed; connected read: targets and gait taken, gait handed to the walking controller first, button 2 wins over button 1, each reset issued exactly when its mode is newly entered |
| Controller.BothButtons | hexapod_rpi/main.py:170-186 | both buttons together end in SLEEP with the calibration reset before the sleep reset |
| Controller.UpdateSmoothing | hexapod_rpi/main.py:193-206 | the gap between each stick and its target shrinks to 90% and the gap to the target height to 95%; nothing else changes |
| Controller.DisconnectDecays | hexapod_rpi/main.py:187-206 | after a failed read each stick keeps 90% of its deflection and the robot is disconnected |
| Controller.StandTick | hexapod_rpi/main.py:232-253 | STAND goes to CAR exactly when a stick axis exceeds 0.1, then resetting the walking controller; when connected the target height is the base plus 30 times the right stick's y |
| Controller.CarTick | hexapod_rpi/main.py:255-280 | CAR returns to STAND exactly when both axes are below 0.05, resetting the standing controller; otherwise it walks with (right x, left y) as translation and left x as rotation |
| Controller.SleepTick | hexapod_rpi/main.py:304-323 | SLEEP returns to STAND exactly when the sleep update reports asleep, the link is up and a stick axis exceeds 0.2, then waking and resetting the standing controller |
| Controller.UpdateState | hexapod_rpi/main.py:208-338 | every state change is one of the allowed ones; INITIALIZE goes to STAND; SLAM_ATTACK runs the attack at speed 25 and returns to STAND; without leg controllers nothing else happens |
| Controller.Tick | hexapod_rpi/main.py:145-230 | the resulting state is one the buttons or an allowed change can produce; the connected flag follows the read; after a failed read the sticks keep 90% |
| Controller.NeverEntersSlamAttack | hexapod_rpi/main.py:145-230 | no tick from another state enters SLAM_ATTACK, since the main loop only reads that state (line 225) and never assigns it |
| Controller.ShutdownActions | hexapod_rpi/main.py:381-401 | shutdown saves the configuration, then cleans up the servos, then cleans up the receiver exactly when there is one |
| Controller.UpdateStateAsWritten | hexapod_rpi/main.py:232-280 | as written the state logic shuts down exactly on a STAND tick, or on a CAR tick that does not go back to STAND, when the leg controllers exist (the handler of lines 375-379); otherwise it is the intended state logic |
| Controller.TickAsWritten | hexapod_rpi/main.py:340-379 | a loop pass as written agrees with the intended pass whenever it carries on; it shuts down only when the receiver step left the machine in STAND or CAR, with the receiver's calls followed by the shutdown calls |
| Controller.StandTickShutsDown | hexapod_rpi/main.py:232-253 | as written every STAND pass without a button press on that read shuts the controller down |
| Controller.CarWalkTickShutsDown | hexapod_rpi/main.py:255-280 | as written a CAR tick with the left stick off centre shuts down instead of walking |
| Controller.NeverEntersCarAsWritten | hexapod_rpi/main.py:232-280 | as written no pass takes a machine that is not in CAR into CAR |
| Controller.HysteresisBand | hexapod_rpi/main.py:247-261 | with the left stick between the two thresholds neither STAND nor CAR changes state |
| Controller.StandToCarSticks | hexapod_rpi/main.py:247-280 | a deflection that takes STAND to CAR keeps CAR walking on the next state tick with the same sticks |
| Sbus.ParseMatchesPacking | hexapod_rpi/receiver/elrs_receiver.py:158-178 | each of the sixteen hand-written shift-and-mask expressions extracts exactly the 11 bits at bit 11k of the little-endian payload |
| Sbus.Channels | hexapod_rpi/receiver/elrs_receiver.py:148-178 | sixteen channels, each in [0, 2047] and each the k-th 11-bit field of the payload |
| Sbus.ReadFrame | hexapod_rpi/receiver/elrs_receiver.py:117-124 | channels come back exactly for a frame of 25 bytes with start byte 0x0F and end byte 0x00 |
| Elrs.Init | hexapod_rpi/receiver/elrs_receiver.py:40-58 | a new receiver is disconnected, every channel at the 1500 centre, every control zero and gait 0 |
| Elrs.Rescale | hexapod_rpi/receiver/elrs_receiver.py:127-131 | the SBUS ends 172 and 1811 land on 1000 and 2000 and the centre 992 on 1500; any 11-bit value lands in [895, 2143] |
| Elrs.RescaleMonotone | hexapod_rpi/receiver/elrs_receiver.py:127-131 | rescaling, truncation included, never reverses the order of two channel values |
| Elrs.ApplyDeadzone | hexapod_rpi/receiver/elrs_receiver.py:197-205 | the reading is positive exactly above 1550 and negative exactly below 1450, reaches -1 and 1 at 1000 and 2000, and stays in [-1, 1] over that range |
| Elrs.DeadzoneOdd | hexapod_rpi/receiver/elrs_receiver.py:197-205 | mirroring a value about 1500 negates the reading |
| Elrs.DeadzoneMonotone | hexapod_rpi/receiver/elrs_receiver.py:197-205 | the reading never decreases as the value grows, so there is no jump at the dead-zone edges |
| Elrs.Slider | hexapod_rpi/receiver/elrs_receiver.py:213-221 | 1000 reads 0 and 2000 reads 1, and the range between stays in [0, 1] |
| Elrs.GaitFromSlider | hexapod_rpi/receiver/elrs_receiver.py:227-228 | the gait is the band of six the slider falls in, clamped to 0 below the range and 5 at the top |
| Elrs.ProcessChannels | hexapod_rpi/receiver/elrs_receiver.py:194-228 | each stick reads its configured channel through the dead zone, the buttons are pressed exactly above 1500, and the gait is always a valid index derived from slider 2 |
| Elrs.ControlsInRange | hexapod_rpi/receiver/elrs_receiver.py:194-221 | channel values within 1000..2000 give sticks within [-1, 1] and sliders within [0, 1] |
| Elrs.FrameValues | hexapod_rpi/receiver/elrs_receiver.py:124-131 | the eight kept values are the rescaled first eight payload channels, each within [895, 2143] |
| Elrs.UpdateSbus | hexapod_rpi/receiver/elrs_receiver.py:114-146 | new data is reported exactly for an accepted frame, which replaces the values, stamps the time and connects; otherwise nothing changes but the link, which drops once more than 1000 ms have passed since the last good frame |
| Elrs.Update | hexapod_rpi/receiver/elrs_receiver.py:100-192 | SBUS mode runs the SBUS update; the PWM stub never reports data and changes nothing |
| Elrs.UpdateKeepsConsistent | hexapod_rpi/receiver/elrs_receiver.py:114-228 | the controls always agree with the stored channel values: every update preserves that invariant |
| Elrs.GetControlData | hexapod_rpi/receiver/elrs_receiver.py:245-262 | the data handed to the main loop carries the link state, both sticks, both buttons and the gait |
| Elrs.Poll | hexapod_rpi/receiver/elrs_receiver.py:100-146 | the main loop gets data exactly when the update reports new data, and that data is connected |
| Elrs.FrameDrivesTargets | hexapod_rpi/main.py:151-191 | a hypothetical wiring, since `main.py` builds a CRSF receiver, not an ELRS one: if the ELRS receiver were plugged in, an accepted frame would set the main loop's stick targets to the frame's dead-zoned sticks and its gait to the slider band; any other read zeroes the targets |
| Crsf.Normalize | hexapod_rpi/receiver/crsf_receiver.py:224-238 | the stick position lies in [-1, 1], is positive exactly above the 992 centre and negative exactly below it, and saturates at 1811 and at 173 |
| Crsf.NormalizeInverse | hexapod_rpi/receiver/crsf_receiver.py:234-235 | inside 173..1811 the position maps back to the channel value: 819 steps per unit around 992 |
| Crsf.NormalizeMonotone | hexapod_rpi/receiver/crsf_receiver.py:224-238 | a larger channel value never gives a smaller position |
| Crsf.FirstWindow | hexapod_rpi/receiver/crsf_receiver.py:258-261 | the result is the first window from the start index that holds the value, or none exactly when no later window holds it |
| Crsf.GaitFromValue | hexapod_rpi/receiver/crsf_receiver.py:240-264 | the gait is always in 0..5 and is 0 when no window holds the value |
| Crsf.WindowsDisjoint | hexapod_rpi/receiver/crsf_receiver.py:46-53 | no channel value lies in two of the six gait windows |
| Crsf.GaitOfWindow | hexapod_rpi/receiver/crsf_receiver.py:240-264 | a value inside a window gives that window's gait, whatever the order of the table |
| Crsf.NominalGaits | hexapod_rpi/receiver/crsf_receiver.py:244-250 | the switch positions 443, 871, 1300, 1514, 1086 and 657 select gaits 0 to 5 |
| Crsf.FullControls | hexapod_rpi/receiver/crsf_receiver.py:200-222 | every control reads its channel: the speed multiplier in [0, 2] is the speed stick plus 1, both joystick y values read the pitch channel, the gait comes from the switch table and each mode is on exactly above 992 |
| Crsf.UpdateControlValues | hexapod_rpi/receiver/crsf_receiver.py:200-222 | a full list gives the full controls; a short list raises at the first missing index, keeping exactly the assignments made before it |
| Crsf.CentredSticks | hexapod_rpi/receiver/crsf_receiver.py:203-210 | sticks at the centre read 0, but the speed multiplier reads 1 |
| Crsf.Init | hexapod_rpi/receiver/crsf_receiver.py:55-82 | a new receiver is disconnected with no port, all sixteen channels centred, speed multiplier 1, gait 0 and zero counters |
| Crsf.Connect | hexapod_rpi/receiver/crsf_receiver.py:84-111 | reports whether the port opened; on success the receiver is connected and the timeout clock starts now |
| Crsf.Disconnect | hexapod_rpi/receiver/crsf_receiver.py:113-123 | the port is closed and the receiver disconnected; channels and controls stay |
| Crsf.ProcessChannels | hexapod_rpi/receiver/crsf_receiver.py:181-198 | the channels are stored, the frame counted and timed, the receiver connected; a short list adds one error |
| Crsf.FrameCallback | hexapod_rpi/receiver/crsf_receiver.py:163-179 | CRC and invalid frames add one error and change nothing else; valid non-channel frames change nothing |
| Crsf.ApplyFrames | hexapod_rpi/receiver/crsf_receiver.py:142-198 | the frame count grows by the number of valid RC frames; errors never decrease; with such a frame the receiver is connected and timed now, without one its link, time, channels and controls are unchanged |
| Crsf.ReadAndCheck | hexapod_rpi/receiver/crsf_receiver.py:140-161 | a serial failure adds one error and reports False; otherwise it reports True exactly when the last frame is at most one second old, and disconnects when it is not |
| Crsf.Update | hexapod_rpi/receiver/crsf_receiver.py:129-161 | a disconnected receiver or closed port changes nothing and reports False; a True report implies connected |
| Crsf.UpdateReconnecting | hexapod_rpi/receiver/crsf_receiver.py:129-191 | reads whenever the port is open, and agrees with the update as written whenever the receiver is connected |
| Crsf.TimeoutIsPermanent | hexapod_rpi/receiver/crsf_receiver.py:137-154 | once disconnected, any run of updates leaves the receiver exactly as it was |
| Crsf.ReconnectOnFrame | hexapod_rpi/receiver/crsf_receiver.py:137-191 | one valid RC frame brings a timed-out receiver back under the corrected update, but is ignored as written |
| Crsf.NeverConnectedNeverReports | hexapod_rpi/main.py:52-58 | a receiver that was built but never connected, as the main loop leaves it, never reports data |
| Crsf.GetControlData | hexapod_rpi/receiver/crsf_receiver.py:326-344 | the main loop's left stick is (yaw, speed multiplier), the right stick is (roll, pitch), the buttons are the calibration and sleep switches |
| Crsf.RestingSticksReadAsDeflected | hexapod_rpi/receiver/crsf_receiver.py:334-339 | with the sticks at rest the left stick reads (0, 1), past the 0.1 walking threshold of the main loop |
| ElrsServoTest.ReadFrame | hexapod_rpi/test_elrs_servo_control.py:71-96 | channels come back exactly for an accepted 25-byte frame, which also connects; a rejected frame flushes the input and keeps the state; a serial failure disconnects |
| ElrsServoTest.RollTarget | hexapod_rpi/test_elrs_servo_control.py:187-198 | the target angle is in [0, 180], 0 at or below 172, 180 at or above 1811, and linear in between |
| ElrsServoTest.RollTargetMonotone | hexapod_rpi/test_elrs_servo_control.py:190-198 | a larger roll value never asks for a smaller angle |
| ElrsServoTest.Smooth | hexapod_rpi/test_elrs_servo_control.py:200-201 | the new angle lies between the old angle and the target, and the gap shrinks to 70% |
| ElrsServoTest.ReadFrameWellFormed | hexapod_rpi/test_elrs_servo_control.py:76-129 | every frame the reader returns has sixteen channels |
| ElrsServoTest.ControlLoop | hexapod_rpi/test_elrs_servo_control.py:174-233 | after any run of reads the angle equals the frame-by-frame reference, starting from 90; every command sent to the servo is in [0, 180]; the last frame's command is the current angle, and the cleanup then re-centres the servo at 90 |

## Left out

- Inverse-kinematics angles: `atan2`, `acos` and `sqrt` have no exact rational model, so the joint angles are computed from the trigonometry parameters. Only the argument clamping, the refusal of unreachable targets and the pulse-width quantisation are proved.
- Hardware: the PCA9685 boards, the GPIO pins and the serial ports. They appear as recorded writes, the attached flag and read results.
- Delays and clocks: `time.sleep` and `Timer` delays have no effect on the state and are dropped. Where a clock value is read, it is a parameter.
- JSON files: reading and writing the storage file. The record is a value, and whether the write succeeded is an input.
- The `crsf_parser` library: frame decoding and CRC checking. Its callbacks arrive as a list of frames with a validation status.
- Printing: status printing, the debug and test scripts' menus, the frame-rate counter of the servo script, and the calibration printouts.
- `print_status` in the CRSF receiver: it reads the undefined `CH_GAIT_1` and `CH_GAIT_2` and would raise. It only prints, so it is not modelled.
- PWM receiver mode: its read is a stub that never reports data, and it is modelled as exactly that. An invalid mode string is excluded by the `Mode` type.
- Main loop calls: the main loop calls the standing and walking controllers with signatures they do not have, and raises. It calls the undefined `set_target_height` and calls the standing `update()` without its arguments (main.py:241, 244). It calls the walking `update(translation, rotation)` (main.py:280), which does not match walking.py:190. The calibration and sleep calls match their controllers. `Controller` records all of these calls as actions instead of executing them. The consequence as written is listed under "## Findings".
- Controller.StandTick, Controller.CarTick, Controller.HysteresisBand, Controller.StandToCarSticks: these state the loop the code evidently intends. As written, every STAND tick raises and the loop's handler shuts the robot down (main.py:375-379, 381-401), so the STAND→CAR rule is never reached and CAR never walks (Controller.StandTickShutsDown, Controller.NeverEntersCarAsWritten, Controller.CarWalkTickShutsDown).
- Attacks.QuickStrike: requires a leg below 6, so it leaves out the IndexError that a `target_leg` of 6 or more raises in the first frame (attacks.py:301). A negative leg, which Python would index from the end, is not modelled either. No caller passes such a leg: the default is 2 and the only call (attacks.py:366) passes 3.
- Position copies: in `main.py` every leg controller works on its own copy of the positions taken at setup. `move_to_pos` updates only the kinematics record. So the source's walking re-snapshots (walking.py:417, 422), standing start points (standing.py:95) and highest-leg choice (standing.py:175-180) always see the setup pose. The same copy is the only position source of three more controllers, with these consequences in the source:
  - calibration (calibration.py:75, 110): the copy stays at z = -60, below the -20 safe height, so phase 1 never marks the legs lifted and phase 2, with Calibration.Approach and the second half of Calibration.Update, is never reached (Calibration.SetupCopyNeverLifts);
  - sleep (sleep.py:70-86): every tick eases from the setup pose again, so phase 1 sends the same eased point each tick and never converges; Sleep.EaseAxisConverges holds only under the live-record reading;
  - attacks (attacks.py:45-52): every snapshot is the setup pose, so the leap starts from the setup pose, not from the end of the placement phase.

  The model reads the live kinematics record instead. Standing.CopiedPositionsStayAtSetup and Calibration.SetupCopyNeverLifts state where the two differ.
- Helpers.MapFloat: requires a non-empty input range, which excludes the source's ZeroDivisionError path. Every call in the core passes a non-empty range, so that path is never reached. The ranges are the slider's (0, 100), the receivers' constant SBUS and RC channel ranges, and the attack's constant phase bounds. The curve parameter uses (0, push fraction) and (push fraction, 1), and every gait's push fraction lies strictly between 0 and 1.
- Floating-point rounding: every float is exact. A comparison that is on a knife edge in the source is exact here.
- Kinematics.MoveToPos: the joint angles written to the servos are stated only through the quantisation bounds, not as the exact `acos`/`atan2` values.
- Walking.RotatePoint: states the identity and distance-preservation facts of a rotation, given cosine and sine values, not the floating-point result of `math.cos` and `math.sin`.
- Walking.StraightPropelling, Walking.TurnPropelling, Walking.StraightLifting, Walking.TurnLifting: fix the endpoints and the first control points of each curve, not every control point.
- Attacks.SlamAttack, Attacks.PlacementPoint, Attacks.LeapPoint, Attacks.SlamPoint: these model the attack the code evidently intends, with `rotate` as a parameter. `Vector3` defines no `rotate` (utils/vectors.py), so as written `slam_attack` raises AttributeError in its first placement frame (attacks.py:170), before any leg moves; the later calls (attacks.py:194, 234-276) are never reached. Nor does the main loop ever enter SLAM_ATTACK: main.py only reads that state (main.py:225) and never assigns it, and `Controller` likewise has no transition into it (Controller.NeverEntersSlamAttack).
- Attacks.LeapCurve, Attacks.RaiseCurve, Attacks.StrikeCurve: state the number of control points and their endpoints. The rotated interior points depend on the undefined `rotate`.
- Sbus.ParseChannels: by itself it states only that there are sixteen channels. Its meaning is carried by Sbus.ParseMatchesPacking.

## Findings

| source | as written | input that shows it | evidently intended | confidence | as-written member | corrected member |
|---|---|---|---|---|---|---|
| hexapod_rpi/states/sleep.py:86 | the phase-1 completion test `current_points[i] != target` compares `Vector3` objects by identity, and `Vector3` defines no `__eq__` | every foot already exactly on (130, 0, -46): the test still sees six "different" objects | phase 2 starts once every foot has reached the sleep pose | not executed | Sleep.UpdateAsWritten, Sleep.ObjectComparisonNeverFinishes | Sleep.Update |
| hexapod_rpi/receiver/crsf_receiver.py:137-138 | `update` returns False without reading whenever `connected` is False, and only a parsed frame sets it back to True | a one-second gap in frames: the timeout clears `connected`, and every later frame is left unread | reading goes on while the port is open, so the next frame reconnects (the "signal acquired" branch at lines 189-191) | not executed | Crsf.Update, Crsf.TimeoutIsPermanent | Crsf.UpdateReconnecting, Crsf.ReconnectOnFrame |
| hexapod_rpi/main.py:232-253 | the STAND logic calls the undefined `set_target_height` when connected and always calls the standing `update()` without the five arguments it declares (standing.py:50-51), so it raises; the loop's handler (main.py:375-379) then saves, cleans up and exits | any STAND tick after setup with no button pressed on that read | the standing controller updates at the current height and a stick beyond 0.1 takes the robot to CAR | not executed | Controller.UpdateStateAsWritten, Controller.StandTickShutsDown | Controller.StandTick |
| hexapod_rpi/main.py:255-280 | the CAR logic calls the walking `update(translation, rotation)`, but walking.py:190 declares four arguments, so it raises and the loop shuts down | a CAR tick with the left stick at (0.5, 0) | the walking controller advances the gait from both sticks | not executed | Controller.UpdateStateAsWritten, Controller.CarWalkTickShutsDown | Controller.CarTick |

Two further consequences of the code as written are stated as lemmas rather than findings:

- `main.py` builds the CRSF receiver but never calls `connect()`, so the receiver never reports data (Crsf.NeverConnectedNeverReports).
- The CRSF left stick's y value is the speed multiplier, which is 1.0 at rest. The main loop reads it as a fully deflected stick (Crsf.RestingSticksReadAsDeflected).

=== FILE: attacks.dfy ===
/** The attack animations, frame by frame: the slam attack (a foot-placement
    phase, then a leap of legs 0, 1, 4 and 5 while legs 2 and 3 raise and
    strike) and the single-leg quick strike.

    `Vector3.rotate` is called by the source but defined nowhere in it, so it
    is a parameter here (`rotate(point, angleDeg, pivot)`). The animations
    read their start points from the shared position store. Pacing sleeps
    and the "SLAM!" message are not modelled; the message's one-shot flag is. */
module Attacks {
  import opened Vectors
  import opened Helpers
  import Config
  import K = Kinematics

  const Legs: nat := 6
  /** Slam-path stage boundaries, as fractions of the leap phase. */
  const SlamPercentage: real := 0.70
  const LandPercentage: real := 0.95
  /** Frames of the quick strike. */
  const StrikeFrames: nat := 20

  /** The undefined `Vector3.rotate(angle_deg, pivot)`. */
  type Rotate = (Vec3, real, Vec2) -> Vec3

  datatype AttackState = AttackState(cycleStartPoints: seq<Vec3>, slamStarted: bool)
  {
    ghost predicate Valid() { |cycleStartPoints| == Legs }
  }

  function Init(): (s: AttackState)
    ensures s.Valid() && !s.slamStarted
  {
    AttackState(seq(Legs, _ => Zero3), false)
  }

  /** Snapshot the shared positions as the start of the next animation. */
  function SetCycleStartPoints(s: AttackState, k: K.HexapodKinematics): (r: AttackState)
    requires k.Valid()
    ensures r.Valid() && r.slamStarted == s.slamStarted
    ensures forall l :: 0 <= l < Legs ==> r.cycleStartPoints[l] == K.GetCurrentPosition(k, l)
  {
    s.(cycleStartPoints := k.currentPoints)
  }

  /** The animation parameter of frame `i` of `frames`. */
  function Progress(i: nat, frames: nat): (t: real)
    requires i < frames
    ensures 0.0 <= t < 1.0
  {
    i as real / frames as real
  }

  /** Scaling the parameter back by the frame count gives the frame index. */
  lemma ProgressScaled(i: nat, frames: nat)
    requires i < frames
    ensures Progress(i, frames) * frames as real == i as real
  {
  }

  /** Frame `i` is at or past the middle exactly when twice its index reaches
      the frame count. */
  lemma HalfwayFrame(i: nat, frames: nat)
    requires i < frames
    ensures Progress(i, frames) >= 0.5 <==> 2 * i >= frames
  {
    var t, f, n := Progress(i, frames), frames as real, i as real;
    ProgressScaled(i, frames);
    assert t * f == n;
    if t >= 0.5 {
      ProductNonNegative(t - 0.5, f);
      assert (t - 0.5) * f == n - 0.5 * f;
      assert 2.0 * n >= f;
    } else {
      ProductPositive(0.5 - t, f);
      assert (0.5 - t) * f == 0.5 * f - n;
      assert 2.0 * n < f;
    }
  }

  /** From 20 frames on, the last frame is in the held part of the slam path. */
  lemma LastFrameHolds(frames: nat)
    requires frames >= 20
    ensures Progress(frames - 1, frames) >= LandPercentage
  {
    var t, f := Progress(frames - 1, frames), frames as real;
    ProgressScaled(frames - 1, frames);
    ProductNonNegative(t - LandPercentage + 1.0 / f, f);
    assert (t - LandPercentage + 1.0 / f) * f == t * f - LandPercentage * f + 1.0;
  }

  lemma ProductPositive(x: real, y: real)
    requires x > 0.0 && y > 0.0
    ensures x * y > 0.0
  {
  }

  /* ----------------------------------------------------------------------- */
  /* Foot placement                                                            */
  /* ----------------------------------------------------------------------- */

  /** The per-leg stance offsets. The y offset is computed by the source but
      never read. */
  function PlacementOffset(leg: nat): (r: Vec3)
    ensures r != Zero3 <==> leg == 0 || leg == 1 || leg == 4 || leg == 5
  {
    if leg == 1 then Vec3(-70.0, -50.0, -60.0)
    else if leg == 4 then Vec3(-70.0, -60.0, -50.0)
    else if leg == 0 || leg == 5 then Vec3(40.0, 0.0, 0.0)
    else Zero3
  }

  /** Where the stance puts the foot: shifted in x by the offset, 50 to the
      side in the leg's stride direction, 50 below plus the z offset, then
      rotated by 55 degrees times the leg's rotation multiplier about (x, 0). */
  function PlacementTarget(start: Vec3, leg: nat, rotate: Rotate): Vec3
    requires leg < Legs
  {
    var off := PlacementOffset(leg);
    var x := start.x + off.x;
    rotate(Vec3(x, -50.0 * Config.StrideMultiplier[leg], -50.0 + off.z), 55.0 * Config.RotationMultiplier[leg], Vec2(x, 0.0))
  }

  /** The two-point curve from the start point to the stance target. */
  function PlacementPoint(starts: seq<Vec3>, leg: nat, t: real, rotate: Rotate): (r: Vec3)
    requires |starts| == Legs && leg < Legs
    ensures r == Lerp3(starts[leg], PlacementTarget(starts[leg], leg, rotate), t)
    ensures t == 0.0 ==> r == starts[leg]
  {
    var cp := [starts[leg], PlacementTarget(starts[leg], leg, rotate)];
    BezierTwoPoints(cp, t);
    Bezier(cp, 2, t)
  }

  /* ----------------------------------------------------------------------- */
  /* Leap                                                                      */
  /* ----------------------------------------------------------------------- */

  /** The leap's landing point: 20 back, 160 along the stride direction, at
      height -80, rotated as in the stance. */
  function LeapEnd(start: Vec3, leg: nat, rotate: Rotate): Vec3
    requires leg < Legs
  {
    rotate(Vec3(start.x - 20.0, start.y + 160.0 * Config.StrideMultiplier[leg], -80.0),
      55.0 * Config.RotationMultiplier[leg], Vec2(start.x, 0.0))
  }

  /** The arc's middle control point: the midpoint of start and end, 300
      lower, and 180 back up for the outer legs 0 and 5. */
  function LeapMiddle(start: Vec3, end: Vec3, leg: nat): (r: Vec3)
    ensures 2.0 * r.x == start.x + end.x && 2.0 * r.y == start.y + end.y
    ensures (leg == 0 || leg == 5) ==> 2.0 * r.z == start.z + end.z - 240.0
    ensures !(leg == 0 || leg == 5) ==> 2.0 * r.z == start.z + end.z - 600.0
  {
    var middle := Add3(Scale3(Add3(start, end), 0.5), Vec3(0.0, 0.0, -300.0));
    if leg == 0 || leg == 5 then middle.(z := middle.z + 180.0) else middle
  }

  function LeapCurve(start: Vec3, leg: nat, rotate: Rotate): (cp: seq<Vec3>)
    requires leg < Legs
    ensures |cp| == 3 && cp[0] == start && cp[2] == LeapEnd(start, leg, rotate)
  {
    var end := LeapEnd(start, leg, rotate);
    [start, LeapMiddle(start, end, leg), end]
  }

  /** The three-point leap arc from the start point to the landing point. */
  function LeapPoint(starts: seq<Vec3>, leg: nat, t: real, rotate: Rotate): (r: Vec3)
    requires |starts| == Legs && leg < Legs
    ensures t == 0.0 ==> r == starts[leg]
    ensures t == 1.0 ==> r == LeapEnd(starts[leg], leg, rotate)
  {
    var cp := LeapCurve(starts[leg], leg, rotate);
    BezierAtZero(cp, 3);
    BezierAtOne(cp, 3);
    Bezier(cp, 3, t)
  }

  /* ----------------------------------------------------------------------- */
  /* Slam                                                                      */
  /* ----------------------------------------------------------------------- */

  datatype SlamStage = Raise | Strike | Hold

  /** The stage of the slam path at `t` and the stage's own parameter:
      [0, 0.70) is remapped onto [0, 1) for the raise, [0.70, 0.95) onto
      [0, 1) for the strike, and from 0.95 on the foot is held. */
  function StageAt(t: real): (r: (SlamStage, real))
    ensures r.0 == Raise <==> t < SlamPercentage
    ensures r.0 == Hold <==> t >= LandPercentage
    ensures r.0 == Raise ==> r.1 * SlamPercentage == t && (0.0 <= t ==> 0.0 <= r.1 < 1.0)
    ensures r.0 == Strike ==> SlamPercentage + r.1 * (LandPercentage - SlamPercentage) == t && 0.0 <= r.1 < 1.0
  {
    if t < SlamPercentage then (Raise, MapFloat(t, 0.0, SlamPercentage, 0.0, 1.0))
    else if t < LandPercentage then (Strike, MapFloat(t, SlamPercentage, LandPercentage, 0.0, 1.0))
    else (Hold, 1.0)
  }

  /** A fixed slam-path point rotated about the origin by `angle` times the
      leg's rotation multiplier. */
  function Turned(p: Vec3, angle: real, leg: nat, rotate: Rotate): Vec3
    requires leg < Legs
  {
    rotate(p, angle * Config.RotationMultiplier[leg], Zero2)
  }

  /** Raise: from the start point via (200, 0, 200) up to (0, 0, 300). */
  function RaiseCurve(start: Vec3, leg: nat, rotate: Rotate): (cp: seq<Vec3>)
    requires leg < Legs
    ensures |cp| == 3 && cp[0] == start
  {
    [start, Turned(Vec3(200.0, 0.0, 200.0), -40.0, leg, rotate), Turned(Vec3(0.0, 0.0, 300.0), -35.0, leg, rotate)]
  }

  /** Strike: from (0, 0, 300) out and down to (250, 0, 0). */
  function StrikeCurve(leg: nat, rotate: Rotate): (cp: seq<Vec3>)
    requires leg < Legs
    ensures |cp| == 4
  {
    [Turned(Vec3(0.0, 0.0, 300.0), -35.0, leg, rotate), Turned(Vec3(300.0, 0.0, 300.0), -35.0, leg, rotate),
     Turned(Vec3(325.0, 0.0, 50.0), -35.0, leg, rotate), Turned(Vec3(250.0, 0.0, 0.0), -35.0, leg, rotate)]
  }

  function HoldPoint(leg: nat, rotate: Rotate): Vec3
    requires leg < Legs
  {
    Turned(Vec3(250.0, 0.0, 0.0), -35.0, leg, rotate)
  }

  /** The slam path of a front leg. */
  function SlamPoint(starts: seq<Vec3>, leg: nat, t: real, rotate: Rotate): (r: Vec3)
    requires |starts| == Legs && leg < Legs
    ensures t == 0.0 ==> r == starts[leg]
    ensures t >= LandPercentage ==> r == HoldPoint(leg, rotate)
  {
    var (stage, local) := StageAt(t);
    match stage
    case Raise =>
      var cp := RaiseCurve(starts[leg], leg, rotate);
      BezierAtZero(cp, 3);
      Bezier(cp, 3, local)
    case Strike => Bezier(StrikeCurve(leg, rotate), 4, local)
    case Hold => HoldPoint(leg, rotate)
  }

  /** The three pieces join up: the raise ends where the strike starts, and
      the strike ends at the held point. */
  lemma SlamPathContinuous(start: Vec3, leg: nat, rotate: Rotate)
    requires leg < Legs
    ensures Bezier(RaiseCurve(start, leg, rotate), 3, 1.0) == Bezier(StrikeCurve(leg, rotate), 4, 0.0)
    ensures Bezier(StrikeCurve(leg, rotate), 4, 1.0) == HoldPoint(leg, rotate)
  {
    BezierAtOne(RaiseCurve(start, leg, rotate), 3);
    BezierAtZero(StrikeCurve(leg, rotate), 4);
    BezierAtOne(StrikeCurve(leg, rotate), 4);
  }

  /* ----------------------------------------------------------------------- */
  /* Slam attack frames                                                        */
  /* ----------------------------------------------------------------------- */

  /** Frame counts of the two phases for an attack speed. */
  function PhaseFrames(speed: real): (r: (int, int))
    ensures speed >= 0.0 ==> 0 <= r.0 <= r.1
    ensures speed >= 0.0 ==> r.0 as real <= speed * 0.4 < r.0 as real + 1.0
    ensures speed >= 0.0 ==> r.1 as real <= speed * 1.2 < r.1 as real + 1.0
    ensures speed < 0.0 ==> r.1 <= r.0 <= 0
    ensures speed < 0.0 ==> r.0 as real - 1.0 < speed * 0.4 <= r.0 as real
    ensures speed < 0.0 ==> r.1 as real - 1.0 < speed * 1.2 <= r.1 as real
  {
    (Trunc(speed * 0.4), Trunc(speed * 1.2))
  }

  /** The default speed of 25 gives 10 placement frames and 30 leap frames. */
  lemma DefaultPhaseFrames()
    ensures PhaseFrames(25.0) == (10, 30)
  {
  }

  /** Every leg to its placement point, in leg order. */
  function PlacementMoves(starts: seq<Vec3>, t: real, rotate: Rotate): (r: seq<(nat, Vec3)>)
    requires |starts| == Legs
    ensures |r| == Legs && K.LegsInRange(r)
    ensures forall l :: 0 <= l < Legs ==> r[l] == (l, PlacementPoint(starts, l, t, rotate))
  {
    seq(Legs, l requires 0 <= l < Legs => (l, PlacementPoint(starts, l, t, rotate)))
  }

  /** One foot-placement frame. The flag is whether a solver division by zero
      ended the animation. */
  function PlacementFrame(s: AttackState, k: K.HexapodKinematics, i: nat, frames: nat, rotate: Rotate, ik: K.Ik)
    : (r: (K.HexapodKinematics, bool))
    requires s.Valid() && k.Valid() && i < frames
    ensures r.0.Valid() && r.0.rawOffsets == k.rawOffsets
    ensures !r.1 ==> forall l :: 0 <= l < Legs ==>
      r.0.currentPoints[l] == PlacementPoint(s.cycleStartPoints, l, Progress(i, frames), rotate)
  {
    var moves := PlacementMoves(s.cycleStartPoints, Progress(i, frames), rotate);
    var (k1, crashed) := K.MoveSequence(k, moves, ik);
    assert !crashed ==> forall l :: 0 <= l < Legs ==> k1.currentPoints[l] == moves[l].1 by {
      forall l | 0 <= l < Legs
        ensures K.LastTarget(moves, l, k.currentPoints[l]) == moves[l].1
      {
        K.LastTargetOfDistinct(moves, l, k.currentPoints[l]);
      }
    }
    (k1, crashed)
  }

  /** The order the leap frame moves the legs in. */
  const LeapOrder: seq<nat> := [0, 1, 4, 5, 2, 3]

  /** The leap frame's moves: legs 0, 1, 4 and 5 on the leap arc, then legs 2
      and 3 on the slam path. */
  function LeapMoves(starts: seq<Vec3>, t: real, rotate: Rotate): (r: seq<(nat, Vec3)>)
    requires |starts| == Legs
    ensures |r| == Legs && K.LegsInRange(r)
    ensures forall m :: 0 <= m < Legs ==> r[m].0 == LeapOrder[m]
    ensures forall m :: 0 <= m < Legs ==> r[m].1 == LeapTarget(starts, r[m].0, t, rotate)
    ensures forall m, n :: 0 <= m < n < |r| ==> r[m].0 != r[n].0
  {
    [(0, LeapPoint(starts, 0, t, rotate)), (1, LeapPoint(starts, 1, t, rotate)),
     (4, LeapPoint(starts, 4, t, rotate)), (5, LeapPoint(starts, 5, t, rotate)),
     (2, SlamPoint(starts, 2, t, rotate)), (3, SlamPoint(starts, 3, t, rotate))]
  }

  /** Where a leg is after a leap frame at `t`. */
  function LeapTarget(starts: seq<Vec3>, leg: nat, t: real, rotate: Rotate): Vec3
    requires |starts| == Legs && leg < Legs
  {
    if leg == 2 || leg == 3 then SlamPoint(starts, leg, t, rotate) else LeapPoint(starts, leg, t, rotate)
  }

  /** Where every leg is after a leap frame at `t`, in leg order. */
  function LeapPositions(starts: seq<Vec3>, t: real, rotate: Rotate): seq<Vec3>
    requires |starts| == Legs
  {
    seq(Legs, l requires 0 <= l < Legs => LeapTarget(starts, l, t, rotate))
  }

  /** One leap-and-raise frame. The one-shot flag is set on a frame at or past
      the middle; a frame cut short by a division by zero changes no state. */
  method LeapFrame(s: AttackState, k: K.HexapodKinematics, i: nat, frames: nat, rotate: Rotate, ik: K.Ik)
    returns (s': AttackState, k': K.HexapodKinematics, crashed: bool)
    requires s.Valid() && k.Valid() && i < frames
    ensures s'.Valid() && k'.Valid() && k'.rawOffsets == k.rawOffsets
    ensures s'.cycleStartPoints == s.cycleStartPoints
    ensures crashed ==> s' == s
    ensures !crashed ==> s'.slamStarted == (s.slamStarted || i >= TriggerFrame(frames))
    ensures !crashed ==> k'.currentPoints == LeapPositions(s.cycleStartPoints, Progress(i, frames), rotate)
  {
    var t := Progress(i, frames);
    TriggerAtHalfway(i, frames);
    var moves := LeapMoves(s.cycleStartPoints, t, rotate);
    var r := K.MoveSequence(k, moves, ik);
    k', crashed := r.0, r.1;
    assert !crashed ==> forall l :: 0 <= l < Legs ==> k'.currentPoints[l] == LeapTarget(s.cycleStartPoints, l, t, rotate) by {
      forall l | 0 <= l < Legs
        ensures K.LastTarget(moves, l, k.currentPoints[l]) == LeapTarget(s.cycleStartPoints, l, t, rotate)
      {
        K.LastTargetOfDistinct(moves, l, k.currentPoints[l]);
        var m := if l < 2 then l else if l < 4 then l + 2 else l - 2;
        assert moves[m].0 == l;
      }
    }
    assert !crashed ==> k'.currentPoints == LeapPositions(s.cycleStartPoints, t, rotate);
    s' := if !crashed && t >= 0.5 && !s.slamStarted then s.(slamStarted := true) else s;
  }


  /** The frame at which the one-shot flag is set: the first with t >= 0.5. */
  function TriggerFrame(frames: nat): (i: nat)
    ensures 2 * i >= frames && (i == 0 || 2 * (i - 1) < frames)
  {
    (frames + 1) / 2
  }

  /** Frame `i` is past the middle exactly from the trigger frame on. */
  lemma TriggerAtHalfway(i: nat, frames: nat)
    requires i < frames
    ensures Progress(i, frames) >= 0.5 <==> i >= TriggerFrame(frames)
  {
    HalfwayFrame(i, frames);
  }

  /** The foot-placement frames from the snapshot in `s`; the flag is whether
      a division by zero ended them. */
  method PlacementPhase(s: AttackState, k: K.HexapodKinematics, frames: nat, rotate: Rotate, ik: K.Ik)
    returns (k': K.HexapodKinematics, crashed: bool)
    requires s.Valid() && k.Valid()
    ensures k'.Valid() && k'.rawOffsets == k.rawOffsets
    ensures !crashed && frames > 0 ==> forall l :: 0 <= l < Legs ==>
      k'.currentPoints[l] == PlacementPoint(s.cycleStartPoints, l, Progress(frames - 1, frames), rotate)
  {
    k', crashed := k, false;
    var i: nat := 0;
    while i < frames
      invariant i <= frames
      invariant k'.Valid() && k'.rawOffsets == k.rawOffsets
      invariant i > 0 ==> forall l :: 0 <= l < Legs ==>
        k'.currentPoints[l] == PlacementPoint(s.cycleStartPoints, l, Progress(i - 1, frames), rotate)
    {
      var (k1, c) := PlacementFrame(s, k', i, frames, rotate, ik);
      k' := k1;
      if c {
        crashed := true;
        return;
      }
      i := i + 1;
    }
  }

  /** The leap loop after `i` of `frames` frames from `s` and `k`: the flag
      and `slamFrame` record the trigger frame once it is past, and the legs
      are where frame `i - 1` put them. */
  ghost predicate LeapSoFar(s: AttackState, k: K.HexapodKinematics, s': AttackState, k': K.HexapodKinematics,
                            slamFrame: int, i: nat, frames: nat, rotate: Rotate)
  {
    s.Valid() && i <= frames
    && s'.Valid() && k'.Valid() && k'.rawOffsets == k.rawOffsets
    && s'.cycleStartPoints == s.cycleStartPoints
    && (s'.slamStarted <==> i > TriggerFrame(frames))
    && slamFrame == (if i > TriggerFrame(frames) then TriggerFrame(frames) else -1)
    && (i > 0 ==> k'.currentPoints == LeapPositions(s.cycleStartPoints, Progress(i - 1, frames), rotate))
  }

  /** The leap-and-raise frames from the snapshot in `s`. The one-shot flag
      is set exactly once, on the first frame with t >= 0.5, which exists
      from two frames on; `slamFrame` is that frame, or -1. */
  method LeapPhase(s: AttackState, k: K.HexapodKinematics, frames: nat, rotate: Rotate, ik: K.Ik)
    returns (s': AttackState, k': K.HexapodKinematics, crashed: bool, slamFrame: int)
    requires s.Valid() && k.Valid() && !s.slamStarted
    ensures s'.Valid() && k'.Valid() && k'.rawOffsets == k.rawOffsets
    ensures s'.cycleStartPoints == s.cycleStartPoints
    ensures !crashed ==> (s'.slamStarted <==> frames >= 2)
    ensures !crashed ==> slamFrame == if frames >= 2 then TriggerFrame(frames) else -1
    ensures !crashed && frames > 0 ==>
      k'.currentPoints == LeapPositions(s.cycleStartPoints, Progress(frames - 1, frames), rotate)
  {
    s', k', crashed, slamFrame := s, k, false, -1;
    var i: nat := 0;
    while i < frames
      invariant i <= frames
      invariant LeapSoFar(s, k, s', k', slamFrame, i, frames, rotate)
    {
      var before := s'.slamStarted;
      var s1, k1, c := LeapFrame(s', k', i, frames, rotate, ik);
      k' := k1;
      if c {
        crashed := true;
        return;
      }
      s' := s1;
      if !before && s'.slamStarted {
        slamFrame := i;
      }
      i := i + 1;
    }
  }

  /** The whole slam attack: snapshot, placement frames, snapshot, leap
      frames, snapshot. Returns the new state and store, the source's return
      value (`true` unless a division by zero raised), whether one raised, and
      the frame at which the one-shot flag was set (-1 if it never was). With
      20 or more leap frames the striking legs end on the held point. */
  method SlamAttack(s: AttackState, k: K.HexapodKinematics, speed: real, rotate: Rotate, ik: K.Ik)
    returns (s': AttackState, k': K.HexapodKinematics, done: bool, crashed: bool, slamFrame: int)
    requires s.Valid() && k.Valid()
    ensures s'.Valid() && k'.Valid() && k'.rawOffsets == k.rawOffsets
    ensures done <==> !crashed
    ensures !crashed ==> s'.cycleStartPoints == k'.currentPoints
    ensures !crashed ==> (s'.slamStarted <==> PhaseFrames(speed).1 >= 2)
    ensures !crashed ==> slamFrame == if PhaseFrames(speed).1 >= 2 then TriggerFrame(PhaseFrames(speed).1) else -1
    ensures !crashed && PhaseFrames(speed).1 >= 20 ==>
      k'.currentPoints[2] == HoldPoint(2, rotate) && k'.currentPoints[3] == HoldPoint(3, rotate)
  {
    var (f1, f2) := PhaseFrames(speed);
    var n1: nat := if f1 > 0 then f1 else 0;
    var n2: nat := if f2 > 0 then f2 else 0;
    s' := SetCycleStartPoints(s, k).(slamStarted := false);
    done, slamFrame := false, -1;
    k', crashed := PlacementPhase(s', k, n1, rotate, ik);
    if crashed {
      return;
    }
    s' := SetCycleStartPoints(s', k');
    s', k', crashed, slamFrame := LeapPhase(s', k', n2, rotate, ik);
    if crashed {
      return;
    }
    if n2 >= 20 {
      LastFrameHolds(n2);
    }
    s' := SetCycleStartPoints(s', k');
    done := true;
  }

  /* ----------------------------------------------------------------------- */
  /* Quick strike                                                              */
  /* ----------------------------------------------------------------------- */

  /** The strike height: up at 400 per unit of t to 200 at the middle, then
      back down at the same rate. */
  function StrikeHeight(t: real): (h: real)
    ensures 0.0 <= t < 1.0 ==> 0.0 <= h <= 200.0
    ensures 0.0 <= t < 1.0 ==> 0.0 < h || t == 0.0
  {
    if t < 0.5 then t * 2.0 * 200.0 else (1.0 - (t - 0.5) * 2.0) * 200.0
  }

  /** The height profile is symmetric about the middle of the strike and
      peaks there. */
  lemma StrikeHeightSymmetric(d: real)
    requires 0.0 < d <= 0.5
    ensures StrikeHeight(0.5 - d) == StrikeHeight(0.5 + d)
    ensures StrikeHeight(0.5 - d) < StrikeHeight(0.5) == 200.0
  {
  }

  /** The foot during the strike: above its start point while rising, 50
      forward while coming down. */
  function StrikePoint(start: Vec3, t: real): (r: Vec3)
    ensures r.y == start.y && r.z == StrikeHeight(t)
    ensures r.x == if t < 0.5 then start.x else start.x + 50.0
  {
    if t < 0.5 then Vec3(start.x, start.y, StrikeHeight(t))
    else Vec3(start.x + 50.0, start.y, StrikeHeight(t))
  }

  /** The quick strike with leg `leg` over 20 frames; the flag is whether a
      division by zero ended it. The foot finishes 50 forward at height 20,
      and no other leg moves. */
  method QuickStrike(s: AttackState, k: K.HexapodKinematics, leg: nat, ik: K.Ik)
    returns (s': AttackState, k': K.HexapodKinematics, crashed: bool)
    requires s.Valid() && k.Valid() && leg < Legs
    ensures s'.Valid() && k'.Valid() && s'.cycleStartPoints == k.currentPoints
    ensures forall l :: 0 <= l < Legs && l != leg ==> k'.currentPoints[l] == k.currentPoints[l]
    ensures !crashed ==> k'.currentPoints[leg] == Vec3(k.currentPoints[leg].x + 50.0, k.currentPoints[leg].y, 20.0)
  {
    s' := SetCycleStartPoints(s, k);
    k' := k;
    crashed := false;
    var start := s'.cycleStartPoints[leg];
    var i: nat := 0;
    while i < StrikeFrames
      invariant i <= StrikeFrames
      invariant k'.Valid()
      invariant forall l :: 0 <= l < Legs && l != leg ==> k'.currentPoints[l] == k.currentPoints[l]
      invariant i > 0 ==> k'.currentPoints[leg] == StrikePoint(start, Progress(i - 1, StrikeFrames))
    {
      var (k1, outcome) := K.MoveToPos(k', leg, StrikePoint(start, Progress(i, StrikeFrames)), ik);
      k' := k1;
      if outcome == K.DivisionByZero {
        crashed := true;
        return;
      }
      i := i + 1;
    }
    assert Progress(StrikeFrames - 1, StrikeFrames) == 0.95;
  }
}

=== FILE: calibration.dfy ===
/** The calibration controller: first lift every low leg toward a safe height,
    then step every foot 5 mm per axis per tick toward the calibration pose,
    applying offset lists from the radio as they change. Also the offset
    editing and the hand-off to the configuration record. */
module Calibration {
  import opened Wrappers
  import opened Vectors
  import opened Helpers
  import opened Config
  import K = Kinematics
  import Storage

  const Legs: nat := 6

  /** The pose: coxa + 43 out, femur + 185 up, i.e. (89, 0, 293). */
  const Target: Vec3 := Vec3(CoxaLength + 43.0, 0.0, FemurLength + 185.0)
  /** Legs lower than this are lifted first. */
  const InBetweenZ: real := -20.0
  /** Largest move per axis per tick in the second phase. */
  const StepSize: real := 5.0

  datatype CalibrationState = CalibrationState(previousOffsets: seq<real>, initialized: bool, legsLifted: bool)

  datatype CalResult = CalResult(state: CalibrationState, kin: K.HexapodKinematics, inPosition: bool, crashed: bool)

  function Init(): (c: CalibrationState)
    ensures !c.initialized && !c.legsLifted
    ensures c.previousOffsets == Storage.Zeros(K.OffsetCount)
  {
    CalibrationState(Storage.Zeros(K.OffsetCount), false, false)
  }

  lemma TargetValue()
    ensures Target == Vec3(89.0, 0.0, 293.0)
  {
  }

  /* ----------------------------------------------------------------------- */
  /* Phase 1: lifting                                                          */
  /* ----------------------------------------------------------------------- */

  /** A low leg's next height: 3% of the way to two above the safe height. It
      rises strictly and never passes -18. */
  function LiftZ(z: real): (r: real)
    ensures z < InBetweenZ ==> z < r < InBetweenZ + 2.0
  {
    Lerp(z, InBetweenZ + 2.0, 0.03)
  }

  /** Where phase 1 sends a leg: a low leg rises, the others stay. */
  function Lifted(p: Vec3): Vec3
  {
    if p.z < InBetweenZ then Vec3(p.x, p.y, LiftZ(p.z)) else p
  }

  /** The lift moves of legs 0 .. n-1 in leg order: one for each leg below the
      safe height, none for the others. */
  function LiftMoves(pts: seq<Vec3>, n: nat): (r: seq<(nat, Vec3)>)
    requires |pts| == Legs && n <= Legs
    ensures K.LegsInRange(r) && |r| <= n
    ensures forall m :: 0 <= m < |r| ==> pts[r[m].0].z < InBetweenZ && r[m].1 == Lifted(pts[r[m].0])
    ensures forall l :: 0 <= l < Legs ==> K.LastTarget(r, l, pts[l]) == if l < n then Lifted(pts[l]) else pts[l]
  {
    if n == 0 then []
    else
      var prefix := LiftMoves(pts, n - 1);
      if pts[n - 1].z < InBetweenZ then
        var r := prefix + [(n - 1, Lifted(pts[n - 1]))];
        assert r[..|r| - 1] == prefix;
        r
      else prefix
  }

  predicate AllUp(pts: seq<Vec3>)
  {
    forall i :: 0 <= i < |pts| ==> pts[i].z >= InBetweenZ
  }

  /* ----------------------------------------------------------------------- */
  /* Phase 2: stepping to the pose                                             */
  /* ----------------------------------------------------------------------- */

  /** One axis: at most 5 toward the target, never past it. */
  function StepToward(c: real, t: real): (r: real)
    ensures c <= t ==> c <= r <= t
    ensures c >= t ==> t <= r <= c
    ensures Abs(t - r) == if Abs(t - c) > StepSize then Abs(t - c) - StepSize else 0.0
  {
    if c < t then (if c + StepSize < t then c + StepSize else t)
    else (if c - StepSize > t then c - StepSize else t)
  }

  function Step3(c: Vec3, t: Vec3): Vec3
  {
    Vec3(StepToward(c.x, t.x), StepToward(c.y, t.y), StepToward(c.z, t.z))
  }

  /** A foot at most 5 from the pose per axis is on it after one step. */
  lemma StepArrives(c: Vec3, t: Vec3)
    requires Abs(t.x - c.x) <= StepSize && Abs(t.y - c.y) <= StepSize && Abs(t.z - c.z) <= StepSize
    ensures Step3(c, t) == t
  {
  }

  /** Within 5 of the pose, compared squared. */
  predicate NearTarget(p: Vec3)
  {
    DistSq3(p, Target) <= StepSize * StepSize
  }

  /** Apply a radio offset list when it has 18 values and differs from the one
      applied last; anything else changes nothing. */
  function ApplyRcOffsets(c: CalibrationState, k: K.HexapodKinematics, rc: Option<seq<real>>)
    : (r: (CalibrationState, K.HexapodKinematics))
    requires k.Valid()
    ensures r.1.Valid() && r.1.currentPoints == k.currentPoints && r.1.servos == k.servos
    ensures r.0.initialized == c.initialized && r.0.legsLifted == c.legsLifted
    ensures (rc.Some? && |rc.value| == K.OffsetCount && rc.value != c.previousOffsets) ==>
      r.0.previousOffsets == rc.value && r.1 == K.SetRawOffsets(k, rc.value)
    ensures !(rc.Some? && |rc.value| == K.OffsetCount && rc.value != c.previousOffsets) ==> r == (c, k)
  {
    if rc.Some? && |rc.value| == K.OffsetCount && rc.value != c.previousOffsets then
      (c.(previousOffsets := rc.value), K.SetRawOffsets(k, rc.value))
    else (c, k)
  }

  /** Offering the same list again is a no-op. */
  lemma RcOffsetsRepeatNoOp(c: CalibrationState, k: K.HexapodKinematics, rc: Option<seq<real>>)
    requires k.Valid()
    ensures var (c1, k1) := ApplyRcOffsets(c, k, rc);
      ApplyRcOffsets(c1, k1, rc) == (c1, k1)
  {
  }

  /* ----------------------------------------------------------------------- */
  /* One tick                                                                  */
  /* ----------------------------------------------------------------------- */

  /** Phase 1: lift the low legs, mark the legs lifted when none was low,
      report not in position. */
  function Lift(c: CalibrationState, k: K.HexapodKinematics, ik: K.Ik): (r: CalResult)
    requires k.Valid()
    ensures r.kin.Valid() && !r.inPosition
    ensures r.state == c.(legsLifted := AllUp(k.currentPoints))
    ensures !r.crashed ==> forall l :: 0 <= l < Legs ==> r.kin.currentPoints[l] == Lifted(k.currentPoints[l])
  {
    var pts := k.currentPoints;
    var moves := LiftMoves(pts, Legs);
    var (k1, crashed) := K.MoveSequence(k, moves, ik);
    CalResult(c.(legsLifted := AllUp(pts)), k1, false, crashed)
  }

  /** Phase 2: apply the radio offsets, step every foot toward the pose, and
      report in position when every foot started within 5 of it. */
  function Approach(c: CalibrationState, k: K.HexapodKinematics, rc: Option<seq<real>>, ik: K.Ik): (r: CalResult)
    requires k.Valid()
    ensures r.kin.Valid() && r.state == ApplyRcOffsets(c, k, rc).0
    ensures !r.crashed ==> (r.inPosition <==> forall l :: 0 <= l < Legs ==> NearTarget(k.currentPoints[l]))
    ensures !r.crashed ==> forall l :: 0 <= l < Legs ==> r.kin.currentPoints[l] == Step3(k.currentPoints[l], Target)
  {
    var pts := k.currentPoints;
    var (c2, k1) := ApplyRcOffsets(c, k, rc);
    var moves := seq(Legs, l requires 0 <= l < Legs => (l, Step3(pts[l], Target)));
    var (k2, crashed) := K.MoveSequence(k1, moves, ik);
    assert !crashed ==> forall l :: 0 <= l < Legs ==> k2.currentPoints[l] == Step3(pts[l], Target) by {
      forall l | 0 <= l < Legs
        ensures K.LastTarget(moves, l, pts[l]) == Step3(pts[l], Target)
      {
        assert moves[l].0 == l;
        K.LastTargetOfDistinct(moves, l, pts[l]);
      }
    }
    CalResult(c2, k2, !crashed && forall l :: 0 <= l < Legs ==> NearTarget(pts[l]), crashed)
  }

  /** One tick: phase 1 until the legs are lifted, phase 2 afterwards. */
  function Update(c: CalibrationState, k: K.HexapodKinematics, rc: Option<seq<real>>, ik: K.Ik): (r: CalResult)
    requires k.Valid()
    ensures r.kin.Valid() && r.state.initialized
    ensures !c.initialized || !c.legsLifted ==>
      !r.inPosition && r.state.previousOffsets == c.previousOffsets
      && (r.state.legsLifted <==> AllUp(k.currentPoints))
      && (!r.crashed ==> forall l :: 0 <= l < Legs ==> r.kin.currentPoints[l] == Lifted(k.currentPoints[l]))
    ensures c.initialized && c.legsLifted ==>
      r.state.legsLifted
      && (!r.crashed ==> (r.inPosition <==> forall l :: 0 <= l < Legs ==> NearTarget(k.currentPoints[l])))
      && (!r.crashed ==> forall l :: 0 <= l < Legs ==> r.kin.currentPoints[l] == Step3(k.currentPoints[l], Target))
  {
    var c1 := if !c.initialized then c.(initialized := true, legsLifted := false) else c;
    if !c1.legsLifted then Lift(c1, k, ik) else Approach(c1, k, rc, ik)
  }

  /** The legs are marked lifted only on a tick that found no leg low, and that
      tick still reports not in position; the next tick starts stepping. */
  lemma LiftedOnlyWhenAllUp(c: CalibrationState, k: K.HexapodKinematics, rc: Option<seq<real>>, ik: K.Ik)
    requires k.Valid() && !c.legsLifted
    ensures var r := Update(c, k, rc, ik);
      !r.inPosition && (r.state.legsLifted ==> forall l :: 0 <= l < Legs ==> k.currentPoints[l].z >= InBetweenZ)
  {
  }

  /** Each controller keeps its own copy of the positions taken at setup,
      where every foot is at the base ground distance, -60, below the safe
      height. A phase-1 tick that reads that copy finds every leg low, so it
      leaves the legs not lifted and the next tick is phase 1 again: read
      through the copy, calibration never reaches phase 2. */
  lemma SetupCopyNeverLifts(c: CalibrationState, k: K.HexapodKinematics, copy: seq<Vec3>,
                            rc: Option<seq<real>>, ik: K.Ik)
    requires k.Valid() && (!c.initialized || !c.legsLifted)
    requires |copy| == Legs && forall l :: 0 <= l < Legs ==> copy[l].z == DistanceFromGroundBase
    ensures var r := Update(c, k.(currentPoints := copy), rc, ik);
      r.state.initialized && !r.state.legsLifted && !r.inPosition
  {
    assert copy[0].z < InBetweenZ;
  }

  /** A lifted leg climbs but stays below -18, so a leg low at the start of
      phase 1 needs several ticks. */
  lemma LiftNeverOvershoots(z: real)
    requires z < InBetweenZ
    ensures z < LiftZ(z) < -18.0
  {
  }

  /* ----------------------------------------------------------------------- */
  /* Offsets                                                                   */
  /* ----------------------------------------------------------------------- */

  /** Add `delta` to one servo's offset and clamp it to [-30, 30]; a leg outside
      0..5 or a joint outside 0..2 changes nothing. */
  function AdjustOffset(k: K.HexapodKinematics, leg: int, joint: int, delta: real): (r: K.HexapodKinematics)
    requires k.Valid()
    ensures r.Valid() && r.currentPoints == k.currentPoints && r.servos == k.servos
    ensures !(0 <= leg <= 5 && 0 <= joint <= 2) ==> r == k
    ensures 0 <= leg <= 5 && 0 <= joint <= 2 ==>
      r.rawOffsets[3 * leg + joint] == Constrain(k.rawOffsets[3 * leg + joint] + delta, -30.0, 30.0)
      && -30.0 <= r.rawOffsets[3 * leg + joint] <= 30.0
      && forall i :: 0 <= i < K.OffsetCount && i != 3 * leg + joint ==> r.rawOffsets[i] == k.rawOffsets[i]
  {
    if leg < 0 || leg > 5 then k
    else if joint < 0 || joint > 2 then k
    else
      var offsets := K.GetRawOffsets(k);
      var index := leg * 3 + joint;
      var v := offsets[index] + delta;
      var clamped := if -30.0 > (if 30.0 < v then 30.0 else v) then -30.0 else (if 30.0 < v then 30.0 else v);
      K.SetRawOffsets(k, offsets[index := clamped])
  }

  /** Every offset back to zero. */
  function ResetOffsets(k: K.HexapodKinematics): (r: K.HexapodKinematics)
    requires k.Valid()
    ensures r.Valid() && r.currentPoints == k.currentPoints
    ensures forall i :: 0 <= i < K.OffsetCount ==> r.rawOffsets[i] == 0.0
    ensures forall l :: 0 <= l < Legs ==> r.offsets[l] == K.BaseOffset
  {
    K.SetRawOffsets(k, Storage.Zeros(K.OffsetCount))
  }

  /** Store the current offsets in the configuration record. */
  function SaveOffsets(k: K.HexapodKinematics, d: Storage.ConfigData, written: bool): (r: (Storage.ConfigData, bool))
    requires k.Valid()
    ensures r.0.offsets == Some(k.rawOffsets) && r.1 == written
  {
    Storage.SaveOffsets(d, K.GetRawOffsets(k), written)
  }

  /** Take the offsets from the configuration record. */
  function LoadOffsets(k: K.HexapodKinematics, d: Storage.ConfigData)
    : (r: (K.HexapodKinematics, Storage.ConfigData, seq<real>))
    requires k.Valid()
    ensures r.0.Valid() && |r.2| == K.OffsetCount && r.0.rawOffsets == r.2
    ensures (r.1, r.2) == Storage.LoadOffsets(d)
    ensures r.0.currentPoints == k.currentPoints
  {
    var (d1, offsets) := Storage.LoadOffsets(d);
    (K.SetRawOffsets(k, offsets), d1, offsets)
  }

  /** Saving and then loading leaves the offsets as they were. */
  lemma SaveThenLoadKeepsOffsets(k: K.HexapodKinematics, d: Storage.ConfigData, written: bool)
    requires k.Valid()
    ensures LoadOffsets(k, SaveOffsets(k, d, written).0).0.rawOffsets == k.rawOffsets
  {
    Storage.SaveLoadRoundTrip(d, k.rawOffsets, written);
  }

  /** Ready for a new session: the next tick starts by lifting again. */
  function ResetState(c: CalibrationState): (r: CalibrationState)
    ensures !r.initialized && !r.legsLifted && r.previousOffsets == c.previousOffsets
  {
    c.(initialized := false, legsLifted := false)
  }
}

=== FILE: config.dfy ===
/** Hardware constants, geometry, movement tables and the small enumerations
    shared by every controller. */
module Config {

  /* PCA9685 boards ------------------------------------------------------- */

  const Pca9685Address1: int := 0x40
  const Pca9685Address2: int := 0x41

  /** Servo name to (board address, channel). Legs 1-5 sit on the first board,
      leg 6 on the second. */
  const ServoChannels: map<string, (int, int)> := map[
    "coxa1" := (Pca9685Address1, 0), "femur1" := (Pca9685Address1, 1), "tibia1" := (Pca9685Address1, 2),
    "coxa2" := (Pca9685Address1, 3), "femur2" := (Pca9685Address1, 4), "tibia2" := (Pca9685Address1, 5),
    "coxa3" := (Pca9685Address1, 6), "femur3" := (Pca9685Address1, 7), "tibia3" := (Pca9685Address1, 8),
    "coxa4" := (Pca9685Address1, 9), "femur4" := (Pca9685Address1, 10), "tibia4" := (Pca9685Address1, 11),
    "coxa5" := (Pca9685Address1, 12), "femur5" := (Pca9685Address1, 13), "tibia5" := (Pca9685Address1, 14),
    "coxa6" := (Pca9685Address2, 0), "femur6" := (Pca9685Address2, 1), "tibia6" := (Pca9685Address2, 2)
  ]

  /** Global servo index to servo name: coxa, femur, tibia for each leg in turn. */
  const ServoIndexMap: seq<string> := [
    "coxa1", "femur1", "tibia1",
    "coxa2", "femur2", "tibia2",
    "coxa3", "femur3", "tibia3",
    "coxa4", "femur4", "tibia4",
    "coxa5", "femur5", "tibia5",
    "coxa6", "femur6", "tibia6"
  ]

  const ServoMinPulse: int := 500
  const ServoMaxPulse: int := 2500

  /* Leg geometry ----------------------------------------------------------- */

  const CoxaLength: real := 46.0
  const FemurLength: real := 108.0
  const TibiaLength: real := 200.0
  const LegLength: real := CoxaLength + FemurLength + TibiaLength

  /** Base servo offset angles (x, y, z). */
  const BaseOffsetX: real := 90.0
  const BaseOffsetY: real := 50.0
  const BaseOffsetZ: real := -10.0

  const DistanceFromCenter: real := 173.0
  const DistanceFromGroundBase: real := -60.0

  const LiftHeight: real := 130.0
  const LandHeight: real := 70.0
  const StrideOvershoot: real := 10.0

  /* Movement --------------------------------------------------------------- */

  /** Number of points in one movement cycle. */
  const Points: real := 1000.0
  const StrideMultiplier: seq<real> := [1.0, 1.0, 1.0, -1.0, -1.0, -1.0]
  const RotationMultiplier: seq<real> := [-1.0, 0.0, 1.0, -1.0, 0.0, 1.0]

  /* Radio ------------------------------------------------------------------ */

  const RcChannelJoy1X: nat := 3
  const RcChannelJoy1Y: nat := 2
  const RcChannelJoy2X: nat := 0
  const RcChannelJoy2Y: nat := 1
  const RcChannelSlider1: nat := 4
  const RcChannelSlider2: nat := 5
  const RcChannelButton1: nat := 6
  const RcChannelButton2: nat := 7

  const RcMin: real := 1000.0
  const RcMid: real := 1500.0
  const RcMax: real := 2000.0
  const RcDeadzone: real := 50.0
  const RcTimeoutMs: real := 1000.0

  /* Enumerations ----------------------------------------------------------- */

  datatype State = Initialize | Stand | Car | Crab | Calibrate | SlamAttack | Sleep | Attach

  datatype LegState = Propelling | Lifting | Standing | Reset

  /** Gaits are plain integers in the source. */
  const Tri: int := 0
  const Ripple: int := 1
  const Wave: int := 2
  const Quad: int := 3
  const Bi: int := 4
  const Hop: int := 5
  const TotalGaits: int := 6
  const GaitsList: seq<int> := [Tri, Ripple, Wave, Quad, Bi, Hop]

  /** The three lengths add up to 354 mm. */
  lemma LegLengthValue()
    ensures LegLength == 354.0
    ensures LegLength * LegLength == 125316.0
  {
  }

  /** Eighteen names, every one a key of the channel table, leg `l` at indices
      `3l .. 3l+2` in coxa, femur, tibia order. */
  lemma ServoIndexMapShape()
    ensures |ServoIndexMap| == 18
    ensures forall i :: 0 <= i < 18 ==> ServoIndexMap[i] in ServoChannels
    ensures forall l :: 0 <= l < 6 ==>
      ServoIndexMap[3 * l][..4] == "coxa" && ServoIndexMap[3 * l + 1][..5] == "femur"
      && ServoIndexMap[3 * l + 2][..5] == "tibia"
  {
  }

  /** Indices 0..14 sit on the first board with channel equal to the index,
      15..17 on the second board at channels 0..2. */
  lemma ServoChannelLayout()
    ensures forall i :: 0 <= i < 15 ==> ServoChannels[ServoIndexMap[i]] == (Pca9685Address1, i)
    ensures forall i :: 15 <= i < 18 ==> ServoChannels[ServoIndexMap[i]] == (Pca9685Address2, i - 15)
  {
  }

  /** No two servo indices name the same servo: their board channels differ. */
  lemma ServoIndexMapDistinct(i: nat, j: nat)
    requires i < j < 18
    ensures ServoIndexMap[i] != ServoIndexMap[j]
  {
    ServoChannelLayout();
    assert ServoChannels[ServoIndexMap[i]] != ServoChannels[ServoIndexMap[j]];
  }

  /** Every per-leg multiplier is -1, 0 or 1. */
  lemma MultiplierTables()
    ensures |StrideMultiplier| == 6 && |RotationMultiplier| == 6
    ensures forall i :: 0 <= i < 6 ==> StrideMultiplier[i] in {-1.0, 0.0, 1.0}
    ensures forall i :: 0 <= i < 6 ==> RotationMultiplier[i] in {-1.0, 0.0, 1.0}
  {
  }

  /** Gait numbers are distinct and there are exactly as many as TOTAL_GAITS. */
  lemma GaitsListShape()
    ensures |GaitsList| == TotalGaits
    ensures forall i :: 0 <= i < |GaitsList| ==> GaitsList[i] == i
  {
  }
}

=== FILE: controller.dfy ===
/** The top-level controller of the main loop: receiver input, smoothing of
    the sticks and the ground height, and the state machine over INITIALIZE,
    STAND, CAR, CALIBRATE, SLEEP and SLAM_ATTACK.

    The main loop calls into the standing and walking controllers with
    signatures they do not have, so the calls into every leg controller are
    modelled abstractly: a tick returns the calls it makes, in order, as a
    list of `Action`s, and the one result the rules read (the sleep
    controller's) is an input. */
module Controller {
  import opened Wrappers
  import opened Vectors
  import opened Helpers
  import Config
  import ServoController
  import K = Kinematics

  /** What the receiver reports on a successful read. */
  datatype ControlData = ControlData(
    connected: bool, joy1: Vec2, joy2: Vec2, gait: int, button1: bool, button2: bool)

  /** A call into a leg controller. */
  datatype Action =
    | SetGait(gait: int)
    | ResetCalibration
    | ResetSleep
    | ResetWalking
    | ResetStanding
    | SetTargetHeight(height: real)
    | UpdateStanding
    | UpdateWalking(translation: Vec2, rotation: real)
    | UpdateCalibration
    | UpdateSleep
    | WakeUp
    | RunSlamAttack(speed: real)
    | SaveConfig
    | CleanupServos
    | CleanupReceiver

  /** `hasReceiver` is whether the receiver opened; `hasStates` whether the
      leg controllers exist (they are created by the setup step). */
  datatype Control = Control(
    state: Config.State,
    gait: int,
    connected: bool,
    hasReceiver: bool,
    hasStates: bool,
    joy1Current: Vec2,
    joy1Target: Vec2,
    joy2Current: Vec2,
    joy2Target: Vec2,
    distanceFromGround: real,
    targetDistanceFromGround: real)

  const JoystickSmoothing: real := 0.1
  const HeightSmoothing: real := 0.05
  /** Leave STAND above this stick deflection, return from CAR below the
      lower one, wake from SLEEP above the third. */
  const WalkThreshold: real := 0.1
  const StandThreshold: real := 0.05
  const WakeThreshold: real := 0.2
  const AttackSpeed: real := 25.0
  /** Ground height swing of the right stick, in millimetres. */
  const HeightRange: real := 30.0

  function Init(hasReceiver: bool): (c: Control)
    ensures c.state == Config.Initialize && c.gait == Config.Tri && !c.connected && !c.hasStates
    ensures c.joy1Current == Zero2 && c.joy1Target == Zero2 && c.joy2Current == Zero2 && c.joy2Target == Zero2
    ensures c.distanceFromGround == Config.DistanceFromGroundBase == c.targetDistanceFromGround
  {
    Control(Config.Initialize, Config.Tri, false, hasReceiver, false, Zero2, Zero2, Zero2, Zero2,
      Config.DistanceFromGroundBase, Config.DistanceFromGroundBase)
  }

  /** Where setup sends every foot before the leg controllers are made. */
  const InitialPose: Vec3 := Vec3(Config.DistanceFromCenter, 0.0, Config.DistanceFromGroundBase)

  /** What setup leaves behind: the controller, the kinematics, the positions
      copied for the leg controllers, the calls made into them, and whether a
      solver division by zero ended setup before they were made. */
  datatype SetupResult = SetupResult(
    control: Control, kin: K.HexapodKinematics, positions: seq<Vec3>, actions: seq<Action>, crashed: bool)

  /** Setup attaches the servos, sends the six legs in order to the initial
      pose, copies the recorded positions for the leg controllers it creates,
      sets the current gait on the walking controller and enters STAND. */
  function Setup(c: Control, k: K.HexapodKinematics, ik: K.Ik): (r: SetupResult)
    requires k.Valid()
    ensures r.kin.Valid() && r.kin.servos.attached
    ensures r.kin.rawOffsets == k.rawOffsets && r.kin.offsets == k.offsets
    ensures r.crashed <==> K.Hypotenuse(InitialPose, ik.sqrt) == 0.0
    ensures !r.crashed ==> |r.positions| == K.Legs && forall l :: 0 <= l < K.Legs ==>
      r.kin.currentPoints[l] == InitialPose && r.positions[l] == InitialPose
    ensures !r.crashed ==> r.control.state == Config.Stand && r.control.hasStates && r.actions == [SetGait(c.gait)]
    ensures r.crashed ==> r.control == c && r.actions == []
    ensures r.control == c.(state := r.control.state, hasStates := r.control.hasStates)
  {
    var k1 := k.(servos := ServoController.AttachServos(k.servos));
    var moves := K.AllLegsTo(InitialPose);
    var (k2, crashed) := K.MoveSequence(k1, moves, ik);
    K.MoveSequenceFailsIff(k1, moves, ik);
    assert K.Reachable(InitialPose) by { Config.LegLengthValue(); }
    assert K.Fails(moves[0].1, ik) <==> K.Hypotenuse(InitialPose, ik.sqrt) == 0.0;
    if crashed then SetupResult(c, k2, [], [], true)
    else
      assert forall l :: 0 <= l < K.Legs ==> k2.currentPoints[l] == InitialPose by {
        forall l | 0 <= l < K.Legs
          ensures K.LastTarget(moves, l, k1.currentPoints[l]) == InitialPose
        {
          assert moves == [] + K.AllLegsTo(InitialPose)[..K.Legs];
          K.LastTargetAfterAllLegs([], InitialPose, K.Legs, l, k1.currentPoints[l]);
        }
      }
      SetupResult(c.(state := Config.Stand, hasStates := true), k2, K.GetAllPositions(k2), [SetGait(c.gait)], false)
  }

  /* ----------------------------------------------------------------------- */
  /* Receiver                                                                  */
  /* ----------------------------------------------------------------------- */

  /** A mode button: enter `target`, resetting its controller, unless already
      there. */
  function Button(c: Control, pressed: bool, target: Config.State, reset: Action): (r: (Control, seq<Action>))
    ensures pressed ==> r.0 == c.(state := target)
    ensures !pressed ==> r.0 == c
    ensures r.1 == if pressed && c.state != target && c.hasStates then [reset] else []
  {
    if pressed && c.state != target then (c.(state := target), if c.hasStates then [reset] else [])
    else (c, [])
  }

  /** Read the receiver: `None` is a failed read. A failed read disconnects
      and zeroes both stick targets; a read reporting no link only clears the
      connected flag; a connected read takes the stick targets and the gait,
      sets the gait on the walking controller every time, then handles
      button 1 (CALIBRATE) and after it button 2 (SLEEP). */
  function UpdateReceiver(c: Control, read: Option<ControlData>): (r: (Control, seq<Action>))
    ensures !c.hasReceiver ==> r == (c, [])
    ensures c.hasReceiver && read.None? ==>
      r == (c.(connected := false, joy1Target := Zero2, joy2Target := Zero2), [])
    ensures c.hasReceiver && read.Some? && !read.value.connected ==> r == (c.(connected := false), [])
    ensures r.0.joy1Current == c.joy1Current && r.0.joy2Current == c.joy2Current
    ensures r.0.distanceFromGround == c.distanceFromGround && r.0.hasStates == c.hasStates
    ensures r.0.state == c.state || r.0.state == Config.Calibrate || r.0.state == Config.Sleep
    ensures c.hasReceiver && read.Some? && read.value.connected ==>
      var d := read.value;
      r.0.connected && r.0.joy1Target == d.joy1 && r.0.joy2Target == d.joy2 && r.0.gait == d.gait
      && r.0.state == (if d.button2 then Config.Sleep else if d.button1 then Config.Calibrate else c.state)
      && (c.hasStates ==> |r.1| > 0 && r.1[0] == SetGait(d.gait))
      && (ResetCalibration in r.1 <==> d.button1 && c.state != Config.Calibrate && c.hasStates)
      && (ResetSleep in r.1 <==> d.button2 && (d.button1 || c.state != Config.Sleep) && c.hasStates)
  {
    if !c.hasReceiver then (c, [])
    else match read
      case None => (c.(connected := false, joy1Target := Zero2, joy2Target := Zero2), [])
      case Some(d) =>
        if !d.connected then (c.(connected := false), [])
        else
          var c1 := c.(connected := true, joy1Target := d.joy1, joy2Target := d.joy2, gait := d.gait);
          var a1 := if c.hasStates then [SetGait(d.gait)] else [];
          var (c2, a2) := Button(c1, d.button1, Config.Calibrate, ResetCalibration);
          var (c3, a3) := Button(c2, d.button2, Config.Sleep, ResetSleep);
          assert ResetSleep !in a1 + a2 && ResetCalibration !in a1 + a3;
          (c3, a1 + a2 + a3)
  }

  /** Pressing both buttons ends in SLEEP with both controllers reset,
      calibration first. */
  lemma BothButtons(c: Control, d: ControlData)
    requires c.hasReceiver && c.hasStates && d.connected && d.button1 && d.button2
    requires c.state != Config.Calibrate
    ensures var r := UpdateReceiver(c, Some(d));
      r.0.state == Config.Sleep && r.1 == [SetGait(d.gait), ResetCalibration, ResetSleep]
  {
  }

  /* ----------------------------------------------------------------------- */
  /* Smoothing                                                                 */
  /* ----------------------------------------------------------------------- */

  /** The sticks move 10% of the way to their targets, the ground height 5%. */
  function UpdateSmoothing(c: Control): (r: Control)
    ensures r == c.(joy1Current := r.joy1Current, joy2Current := r.joy2Current, distanceFromGround := r.distanceFromGround)
    ensures r.joy1Current.x - c.joy1Target.x == (1.0 - JoystickSmoothing) * (c.joy1Current.x - c.joy1Target.x)
    ensures r.joy1Current.y - c.joy1Target.y == (1.0 - JoystickSmoothing) * (c.joy1Current.y - c.joy1Target.y)
    ensures r.joy2Current.x - c.joy2Target.x == (1.0 - JoystickSmoothing) * (c.joy2Current.x - c.joy2Target.x)
    ensures r.joy2Current.y - c.joy2Target.y == (1.0 - JoystickSmoothing) * (c.joy2Current.y - c.joy2Target.y)
    ensures r.distanceFromGround - c.targetDistanceFromGround
      == (1.0 - HeightSmoothing) * (c.distanceFromGround - c.targetDistanceFromGround)
  {
    c.(joy1Current := Lerp2(c.joy1Current, c.joy1Target, JoystickSmoothing),
       joy2Current := Lerp2(c.joy2Current, c.joy2Target, JoystickSmoothing),
       distanceFromGround := Lerp(c.distanceFromGround, c.targetDistanceFromGround, HeightSmoothing))
  }

  /** After a failed read the sticks decay toward zero: each tick keeps 90%
      of the deflection. */
  lemma DisconnectDecays(c: Control)
    requires c.hasReceiver
    ensures var r := UpdateSmoothing(UpdateReceiver(c, None).0);
      r.joy1Current == Scale2(c.joy1Current, 0.9) && r.joy2Current == Scale2(c.joy2Current, 0.9)
      && !r.connected
  {
  }

  /* ----------------------------------------------------------------------- */
  /* State machine                                                             */
  /* ----------------------------------------------------------------------- */

  /** The state changes a state tick can make. */
  predicate Allowed(from: Config.State, to: Config.State)
  {
    from == to
    || (from == Config.Initialize && to == Config.Stand)
    || (from == Config.Stand && to == Config.Car)
    || (from == Config.Car && to == Config.Stand)
    || (from == Config.Sleep && to == Config.Stand)
    || (from == Config.SlamAttack && to == Config.Stand)
  }

  predicate Deflected(joy: Vec2, threshold: real)
  {
    Abs(joy.x) > threshold || Abs(joy.y) > threshold
  }

  function StandTick(c: Control): (r: (Control, seq<Action>))
    requires c.state == Config.Stand && c.hasStates
    ensures r.0.state == (if Deflected(c.joy1Current, WalkThreshold) then Config.Car else Config.Stand)
    ensures c.hasReceiver && c.connected ==>
      r.0.targetDistanceFromGround == Config.DistanceFromGroundBase + c.joy2Current.y * HeightRange
    ensures !(c.hasReceiver && c.connected) ==> r.0.targetDistanceFromGround == c.targetDistanceFromGround
    ensures UpdateStanding in r.1 && (ResetWalking in r.1 <==> Deflected(c.joy1Current, WalkThreshold))
  {
    var height := Config.DistanceFromGroundBase + c.joy2Current.y * HeightRange;
    var (c1, a1) := if c.hasReceiver && c.connected then (c.(targetDistanceFromGround := height), [SetTargetHeight(height)])
                    else (c, []);
    var a := a1 + [UpdateStanding];
    if Deflected(c.joy1Current, WalkThreshold) then (c1.(state := Config.Car), a + [ResetWalking])
    else (c1, a)
  }

  function CarTick(c: Control): (r: (Control, seq<Action>))
    requires c.state == Config.Car && c.hasStates
    ensures r.0.state == Config.Stand <==> Abs(c.joy1Current.x) < StandThreshold && Abs(c.joy1Current.y) < StandThreshold
    ensures r.0.state == Config.Stand ==> r == (c.(state := Config.Stand), [ResetStanding])
    ensures r.0.state != Config.Stand ==>
      r == (c, [UpdateWalking(Vec2(c.joy2Current.x, c.joy1Current.y), c.joy1Current.x)])
  {
    if Abs(c.joy1Current.x) < StandThreshold && Abs(c.joy1Current.y) < StandThreshold then
      (c.(state := Config.Stand), [ResetStanding])
    else (c, [UpdateWalking(Vec2(c.joy2Current.x, c.joy1Current.y), c.joy1Current.x)])
  }

  /** `sleeping` is what this tick's sleep update returned. */
  function SleepTick(c: Control, sleeping: bool): (r: (Control, seq<Action>))
    requires c.state == Config.Sleep && c.hasStates
    ensures r.0.state == Config.Stand <==>
      sleeping && c.hasReceiver && c.connected && Deflected(c.joy1Current, WakeThreshold)
    ensures r.0.state == Config.Stand ==> r == (c.(state := Config.Stand), [UpdateSleep, WakeUp, ResetStanding])
    ensures r.0.state != Config.Stand ==> r == (c, [UpdateSleep])
  {
    if sleeping && c.hasReceiver && c.connected && Deflected(c.joy1Current, WakeThreshold) then
      (c.(state := Config.Stand), [UpdateSleep, WakeUp, ResetStanding])
    else (c, [UpdateSleep])
  }

  /** Run the current state's logic. Without the leg controllers every state
      but INITIALIZE does nothing. */
  function UpdateState(c: Control, sleeping: bool): (r: (Control, seq<Action>))
    ensures Allowed(c.state, r.0.state)
    ensures r.0.joy1Current == c.joy1Current && r.0.joy2Current == c.joy2Current && r.0.connected == c.connected
    ensures c.state == Config.Initialize ==> r == (c.(state := Config.Stand), [])
    ensures c.hasStates && c.state == Config.SlamAttack ==>
      r == (c.(state := Config.Stand), [RunSlamAttack(AttackSpeed), ResetStanding])
    ensures c.hasStates && c.state == Config.Calibrate ==> r == (c, [UpdateCalibration])
    ensures !c.hasStates && c.state != Config.Initialize ==> r == (c, [])
    ensures c.state == Config.Crab || c.state == Config.Attach ==> r == (c, [])
  {
    if c.state == Config.Initialize then (c.(state := Config.Stand), [])
    else if !c.hasStates then (c, [])
    else if c.state == Config.Stand then StandTick(c)
    else if c.state == Config.Car then CarTick(c)
    else if c.state == Config.Calibrate then (c, [UpdateCalibration])
    else if c.state == Config.Sleep then SleepTick(c, sleeping)
    else if c.state == Config.SlamAttack then (c.(state := Config.Stand), [RunSlamAttack(AttackSpeed), ResetStanding])
    else (c, [])
  }

  /** One pass of the main loop: receiver, smoothing, state logic. The state
      that results is one the buttons or an allowed change could produce; a
      connected read leaves the machine connected and any other read with a
      receiver disconnected; after a failed read the sticks keep 90% of their
      deflection. */
  function Tick(c: Control, read: Option<ControlData>, sleeping: bool): (r: (Control, seq<Action>))
    ensures Allowed(c.state, r.0.state) || Allowed(Config.Calibrate, r.0.state) || Allowed(Config.Sleep, r.0.state)
    ensures c.hasReceiver ==> (r.0.connected <==> read.Some? && read.value.connected)
    ensures !c.hasReceiver ==> r.0.connected == c.connected
    ensures c.hasReceiver && read.None? ==>
      r.0.joy1Current == Scale2(c.joy1Current, 0.9) && r.0.joy2Current == Scale2(c.joy2Current, 0.9)
  {
    var (c1, a1) := UpdateReceiver(c, read);
    var (c2, a2) := UpdateState(UpdateSmoothing(c1), sleeping);
    (c2, a1 + a2)
  }

  /* ----------------------------------------------------------------------- */
  /* The loop as written                                                       */
  /* ----------------------------------------------------------------------- */

  /** A pass of the main loop as the code is written: it either carries on, or
      an exception ended it and the loop's handler shut the controller down. */
  datatype Outcome = Running(control: Control, actions: seq<Action>) | ShutDown(actions: seq<Action>)

  /** The calls the shutdown path makes before it exits: save the
      configuration, clean up the servos, and clean up the receiver if there
      is one. */
  function ShutdownActions(c: Control): (r: seq<Action>)
    ensures |r| >= 2 && r[0] == SaveConfig && r[1] == CleanupServos
    ensures CleanupReceiver in r <==> c.hasReceiver
  {
    [SaveConfig, CleanupServos] + (if c.hasReceiver then [CleanupReceiver] else [])
  }

  /** The state logic as written. The STAND logic always raises: when
      connected it first calls the undefined `set_target_height`, and in any
      case it calls the standing update without the arguments it requires.
      The CAR logic raises whenever it does not go back to STAND, because the
      walking update is called with two of its four arguments. Any other
      state runs as `UpdateState` models it. */
  function UpdateStateAsWritten(c: Control, sleeping: bool): (r: Outcome)
    ensures r.ShutDown? <==>
      c.hasStates && (c.state == Config.Stand || (c.state == Config.Car && UpdateState(c, sleeping).0.state == Config.Car))
    ensures r.ShutDown? ==> r.actions == ShutdownActions(c)
    ensures r.Running? ==> (r.control, r.actions) == UpdateState(c, sleeping)
  {
    if c.hasStates && c.state == Config.Stand then ShutDown(ShutdownActions(c))
    else if c.hasStates && c.state == Config.Car
      && !(Abs(c.joy1Current.x) < StandThreshold && Abs(c.joy1Current.y) < StandThreshold)
    then ShutDown(ShutdownActions(c))
    else Running(UpdateState(c, sleeping).0, UpdateState(c, sleeping).1)
  }

  /** One pass of the main loop as written: receiver and smoothing as in
      `Tick`, then the state logic as written. Whenever it carries on it
      agrees with `Tick`. */
  function TickAsWritten(c: Control, read: Option<ControlData>, sleeping: bool): (r: Outcome)
    ensures r.Running? ==> (r.control, r.actions) == Tick(c, read, sleeping)
    ensures r.ShutDown? ==>
      c.hasStates && (UpdateReceiver(c, read).0.state == Config.Stand || UpdateReceiver(c, read).0.state == Config.Car)
    ensures r.ShutDown? ==>
      r.actions == UpdateReceiver(c, read).1 + ShutdownActions(UpdateSmoothing(UpdateReceiver(c, read).0))
  {
    var (c1, a1) := UpdateReceiver(c, read);
    match UpdateStateAsWritten(UpdateSmoothing(c1), sleeping)
    case Running(c2, a2) => Running(c2, a1 + a2)
    case ShutDown(a2) => ShutDown(a1 + a2)
  }

  /** As written, every STAND tick of a controller with its leg controllers
      shuts it down, unless a button on that read moved it to another mode:
      the rule that would take STAND to CAR is never reached. */
  lemma StandTickShutsDown(c: Control, read: Option<ControlData>, sleeping: bool)
    requires c.hasStates && c.state == Config.Stand
    requires read.None? || !read.value.connected || (!read.value.button1 && !read.value.button2)
    ensures TickAsWritten(c, read, sleeping).ShutDown?
  {
  }

  /** As written, a CAR tick with the left stick off centre shuts the
      controller down instead of walking. */
  lemma CarWalkTickShutsDown(c: Control, sleeping: bool)
    requires c.hasStates && c.state == Config.Car
    requires Abs(c.joy1Current.x) >= StandThreshold || Abs(c.joy1Current.y) >= StandThreshold
    ensures UpdateStateAsWritten(c, sleeping) == ShutDown(ShutdownActions(c))
  {
  }

  /** As written, a machine that is not in CAR never gets there: the only rule
      into CAR is the STAND one, and a STAND tick shuts down first. */
  lemma NeverEntersCarAsWritten(c: Control, read: Option<ControlData>, sleeping: bool)
    requires c.state != Config.Car
    ensures var r := TickAsWritten(c, read, sleeping);
      r.Running? ==> r.control.state != Config.Car
  {
  }

  /** No tick enters SLAM_ATTACK: neither a button nor a state rule assigns
      it, so the attack runs only in a machine that starts there. */
  lemma NeverEntersSlamAttack(c: Control, read: Option<ControlData>, sleeping: bool)
    requires c.state != Config.SlamAttack
    ensures Tick(c, read, sleeping).0.state != Config.SlamAttack
  {
  }

  /** Between the two thresholds neither STAND nor CAR changes state: a stick
      held inside the band does not make the robot switch back and forth. */
  lemma HysteresisBand(c: Control, sleeping: bool)
    requires c.hasStates && (c.state == Config.Stand || c.state == Config.Car)
    requires Abs(c.joy1Current.x) <= WalkThreshold && Abs(c.joy1Current.y) <= WalkThreshold
    requires Abs(c.joy1Current.x) >= StandThreshold || Abs(c.joy1Current.y) >= StandThreshold
    ensures UpdateState(c, sleeping).0.state == c.state
  {
  }

  /** A stick deflection that takes STAND to CAR keeps CAR walking on the
      next state tick. */
  lemma StandToCarSticks(c: Control, sleeping: bool)
    requires c.hasStates && c.state == Config.Stand
    requires UpdateState(c, sleeping).0.state == Config.Car
    ensures var c1 := UpdateState(c, sleeping).0;
      UpdateState(c1, sleeping).0.state == Config.Car
      && UpdateState(c1, sleeping).1 == [UpdateWalking(Vec2(c.joy2Current.x, c.joy1Current.y), c.joy1Current.x)]
  {
    var c1 := UpdateState(c, sleeping).0;
    assert c1.joy1Current == c.joy1Current && c1.state == Config.Car;
    assert Deflected(c.joy1Current, WalkThreshold);
  }
}

=== FILE: crsf.dfy ===
/** The CRSF receiver: RC channel frames (values 172..1811, centre 992) are
    turned into stick, speed, height, gait and switch values. Frame decoding
    is an external parser library; its output is an input here, as a list of
    frame events with their validation status. The clock is an input too,
    in seconds.

    `update` returns early whenever the receiver is not connected, yet only a
    received frame sets it connected again, so one timeout disconnects it for
    good. `Update` keeps that behaviour; `UpdateReconnecting` reads whenever
    the serial port is open, as the "signal acquired" branch of the frame
    handler evidently expects. */
module Crsf {
  import opened Wrappers
  import opened Vectors
  import opened Helpers
  import Controller

  const Min: int := 172
  const Mid: int := 992
  const Max: int := 1811
  const ChannelCount: nat := 16

  const ChYaw: nat := 12
  const ChSpeed: nat := 13
  const ChPitch: nat := 14
  const ChRoll: nat := 15
  const ChHeight: nat := 6
  const ChSleep: nat := 7
  const ChGait: nat := 9
  const ChCalibration: nat := 11

  const TimeoutSeconds: real := 1.0

  /* ----------------------------------------------------------------------- */
  /* Channel values                                                            */
  /* ----------------------------------------------------------------------- */

  /** A channel value as a stick position in [-1, 1]: centre 0, top 1, and
      the bottom clamped to -1 (the range below the centre is one step longer
      than the range above it). */
  function Normalize(v: int): (r: real)
    ensures -1.0 <= r <= 1.0
    ensures r > 0.0 <==> v > Mid
    ensures r < 0.0 <==> v < Mid
    ensures v >= Max ==> r == 1.0
    ensures v <= Min + 1 ==> r == -1.0
  {
    Constrain((v - Mid) as real / (Max - Mid) as real, -1.0, 1.0)
  }

  /** Inside the unclamped range, normalising is invertible: 819 steps per
      unit either side of the centre. */
  lemma NormalizeInverse(v: int)
    requires Min + 1 <= v <= Max
    ensures Normalize(v) * 819.0 + 992.0 == v as real
  {
  }

  /** Normalising keeps the order of channel values. */
  lemma NormalizeMonotone(a: int, b: int)
    requires a <= b
    ensures Normalize(a) <= Normalize(b)
  {
    var na := (a - Mid) as real / (Max - Mid) as real;
    var nb := (b - Mid) as real / (Max - Mid) as real;
    assert na <= nb;
  }

  /** One position of the six-way gait switch: channel values `lo..hi`
      select `gait`. */
  datatype Window = Window(lo: int, hi: int, gait: int)

  const GaitThresholds: seq<Window> := [
    Window(343, 543, 0), Window(771, 971, 1), Window(1200, 1400, 2),
    Window(1414, 1614, 3), Window(986, 1186, 4), Window(557, 757, 5)]

  predicate InWindow(w: Window, v: int)
  {
    w.lo <= v <= w.hi
  }

  /** The first window from index `from` on that holds `v`. */
  function FirstWindow(table: seq<Window>, v: int, from: nat): (r: Option<nat>)
    requires from <= |table|
    ensures r.Some? ==>
      from <= r.value < |table| && InWindow(table[r.value], v)
      && forall j :: from <= j < r.value ==> !InWindow(table[j], v)
    ensures r.None? <==> forall j :: from <= j < |table| ==> !InWindow(table[j], v)
    decreases |table| - from
  {
    if from == |table| then None
    else if InWindow(table[from], v) then Some(from)
    else FirstWindow(table, v, from + 1)
  }

  /** The gait of the first window holding the value, gait 0 when none does. */
  function GaitFromValue(v: int): (g: int)
    ensures 0 <= g < 6
    ensures (forall i :: 0 <= i < 6 ==> !InWindow(GaitThresholds[i], v)) ==> g == 0
  {
    match FirstWindow(GaitThresholds, v, 0)
    case Some(i) => GaitThresholds[i].gait
    case None => 0
  }

  /** No value lies in two windows. */
  lemma WindowsDisjoint()
    ensures forall i, j, v :: 0 <= i < j < 6 && InWindow(GaitThresholds[i], v) ==> !InWindow(GaitThresholds[j], v)
  {
  }

  /** So the switch reports the gait of THE window holding the value, whatever
      the order of the table. */
  lemma GaitOfWindow(i: nat, v: int)
    requires i < 6 && InWindow(GaitThresholds[i], v)
    ensures GaitFromValue(v) == GaitThresholds[i].gait
  {
    WindowsDisjoint();
  }

  /** The switch's nominal positions select gaits 0 to 5. */
  lemma NominalGaits()
    ensures GaitFromValue(443) == 0 && GaitFromValue(871) == 1 && GaitFromValue(1300) == 2
    ensures GaitFromValue(1514) == 3 && GaitFromValue(1086) == 4 && GaitFromValue(657) == 5
  {
    GaitOfWindow(0, 443);
    GaitOfWindow(1, 871);
    GaitOfWindow(2, 1300);
    GaitOfWindow(3, 1514);
    GaitOfWindow(4, 1086);
    GaitOfWindow(5, 657);
  }

  /* ----------------------------------------------------------------------- */
  /* Controls                                                                  */
  /* ----------------------------------------------------------------------- */

  datatype Controls = Controls(
    joystick1x: real, joystick1y: real, joystick2x: real, joystick2y: real,
    height: real, speed: real, gait: int, calibration: bool, sleep: bool)

  const InitControls: Controls := Controls(0.0, 0.0, 0.0, 0.0, 0.0, 1.0, 0, false, false)

  /** The controls a full channel list gives. */
  function FullControls(ch: seq<int>): (c: Controls)
    requires |ch| >= ChannelCount
    ensures c.joystick1x == Normalize(ch[ChYaw]) && c.joystick2x == Normalize(ch[ChRoll])
    ensures c.joystick1y == Normalize(ch[ChPitch]) && c.joystick2y == c.joystick1y
    ensures 0.0 <= c.speed <= 2.0 && c.speed - 1.0 == Normalize(ch[ChSpeed])
    ensures -1.0 <= c.height <= 1.0 && c.height == Normalize(ch[ChHeight])
    ensures 0 <= c.gait < 6 && c.gait == GaitFromValue(ch[ChGait])
    ensures c.calibration <==> ch[ChCalibration] > Mid
    ensures c.sleep <==> ch[ChSleep] > Mid
  {
    Controls(
      Normalize(ch[ChYaw]), Normalize(ch[ChPitch]), Normalize(ch[ChRoll]), Normalize(ch[ChPitch]),
      Normalize(ch[ChHeight]), Normalize(ch[ChSpeed]) + 1.0, GaitFromValue(ch[ChGait]),
      ch[ChCalibration] > Mid, ch[ChSleep] > Mid)
  }

  /** Recompute the controls from a channel list, in the source's order
      (yaw, pitch, roll, pitch, speed, height, gait, switches). A list too
      short for an index raises there: the assignments made before it stay,
      and the boolean reports the raise. */
  function UpdateControlValues(c: Controls, ch: seq<int>): (r: (Controls, bool))
    ensures r.1 <==> |ch| < ChannelCount
    ensures !r.1 ==> r.0 == FullControls(ch)
    ensures |ch| <= ChYaw ==> r.0 == c
    ensures ChYaw < |ch| < ChRoll ==> r.0 == c.(joystick1x := Normalize(ch[ChYaw]))
    ensures |ch| == ChRoll ==> r.0 == c.(joystick1x := Normalize(ch[ChYaw]), joystick1y := Normalize(ch[ChPitch]))
  {
    if |ch| >= ChannelCount then (FullControls(ch), false)
    else if |ch| <= ChYaw then (c, true)
    else if |ch| <= ChPitch then (c.(joystick1x := Normalize(ch[ChYaw])), true)
    else (c.(joystick1x := Normalize(ch[ChYaw]), joystick1y := Normalize(ch[ChPitch])), true)
  }

  /** Sticks at rest give a zero stick reading, but a speed multiplier of 1,
      which is what the left stick's y reports to the main loop. */
  lemma CentredSticks(ch: seq<int>)
    requires |ch| >= ChannelCount
    requires ch[ChYaw] == Mid && ch[ChSpeed] == Mid && ch[ChPitch] == Mid && ch[ChRoll] == Mid
    ensures var c := FullControls(ch);
      c.joystick1x == 0.0 && c.joystick1y == 0.0 && c.joystick2x == 0.0 && c.speed == 1.0
  {
  }

  /* ----------------------------------------------------------------------- */
  /* The receiver                                                              */
  /* ----------------------------------------------------------------------- */

  datatype Receiver = Receiver(
    channels: seq<int>, controls: Controls, connected: bool, portOpen: bool,
    lastFrameTime: real, frameCount: nat, errorCount: nat)

  /** A new receiver, with no port open. */
  function Init(): (r: Receiver)
    ensures !r.connected && !r.portOpen && r.frameCount == 0 && r.errorCount == 0
    ensures |r.channels| == ChannelCount && forall i :: 0 <= i < ChannelCount ==> r.channels[i] == Mid
    ensures r.controls.speed == 1.0 && r.controls.gait == 0
  {
    Receiver(seq(ChannelCount, _ => Mid), InitControls, false, false, 0.0, 0, 0)
  }

  /** Open the port (`ok` says whether it worked) and start the timeout
      clock. */
  function Connect(r: Receiver, ok: bool, now: real): (res: (Receiver, bool))
    ensures res.1 == ok
    ensures ok ==> res.0 == r.(portOpen := true, connected := true, lastFrameTime := now)
    ensures !ok ==> res.0 == r.(connected := false)
  {
    if ok then (r.(portOpen := true, connected := true, lastFrameTime := now), true)
    else (r.(connected := false), false)
  }

  function Disconnect(r: Receiver): (res: Receiver)
    ensures !res.connected && !res.portOpen
    ensures res.channels == r.channels && res.controls == r.controls
  {
    r.(portOpen := false, connected := false)
  }

  /** The validation status the parser gives a frame. */
  datatype Status = Valid | Crc | Invalid

  /** A frame from the parser: its status, whether it is an RC channels
      packet, and its channel list. */
  datatype Frame = Frame(status: Status, isRcChannels: bool, channels: seq<int>)

  /** A valid RC channels packet: store the channels, count the frame, note
      its time, mark the receiver connected and recompute the controls; a
      channel list too short for the controls adds an error. */
  function ProcessChannels(r: Receiver, ch: seq<int>, now: real): (res: Receiver)
    ensures res.channels == ch && res.connected && res.lastFrameTime == now
    ensures res.frameCount == r.frameCount + 1 && res.portOpen == r.portOpen
    ensures res.errorCount == r.errorCount + (if |ch| < ChannelCount then 1 else 0)
    ensures |ch| >= ChannelCount ==> res.controls == FullControls(ch)
  {
    var (c, raised) := UpdateControlValues(r.controls, ch);
    r.(channels := ch, frameCount := r.frameCount + 1, lastFrameTime := now, connected := true,
       controls := c, errorCount := if raised then r.errorCount + 1 else r.errorCount)
  }

  /** The parser's callback. A CRC or invalid frame only adds an error; a
      valid frame of another packet type changes nothing. */
  function FrameCallback(r: Receiver, f: Frame, now: real): (res: Receiver)
    ensures f.status != Valid ==> res == r.(errorCount := r.errorCount + 1)
    ensures f.status == Valid && !f.isRcChannels ==> res == r
    ensures f.status == Valid && f.isRcChannels ==> res == ProcessChannels(r, f.channels, now)
  {
    match f.status
    case Crc => r.(errorCount := r.errorCount + 1)
    case Invalid => r.(errorCount := r.errorCount + 1)
    case Valid => if f.isRcChannels then ProcessChannels(r, f.channels, now) else r
  }

  /** Frames that count as received: valid RC channels packets. */
  function RcFrames(fs: seq<Frame>): nat
  {
    if |fs| == 0 then 0
    else RcFrames(fs[..|fs| - 1]) + (if fs[|fs| - 1].status == Valid && fs[|fs| - 1].isRcChannels then 1 else 0)
  }

  /** Run the callback on each frame in turn. The frame count grows by the
      number of RC frames, errors never go away, and the port is untouched. */
  function ApplyFrames(r: Receiver, fs: seq<Frame>, now: real): (res: Receiver)
    ensures res.frameCount == r.frameCount + RcFrames(fs)
    ensures res.errorCount >= r.errorCount && res.portOpen == r.portOpen
    ensures RcFrames(fs) == 0 ==>
      res.connected == r.connected && res.lastFrameTime == r.lastFrameTime
      && res.channels == r.channels && res.controls == r.controls
    ensures RcFrames(fs) > 0 ==> res.connected && res.lastFrameTime == now
    decreases |fs|
  {
    if |fs| == 0 then r
    else FrameCallback(ApplyFrames(r, fs[..|fs| - 1], now), fs[|fs| - 1], now)
  }

  /** The read-and-check step shared by both updates: parse what arrived
      (`readError` is a serial failure before parsing, counted as an error),
      then report whether a frame was seen within the last second. */
  function ReadAndCheck(r: Receiver, fs: seq<Frame>, readError: bool, now: real): (res: (Receiver, bool))
    ensures readError ==> res == (r.(errorCount := r.errorCount + 1), false)
    ensures !readError ==> res.0.frameCount == r.frameCount + RcFrames(fs)
    ensures res.1 <==> !readError && now - ApplyFrames(r, fs, now).lastFrameTime <= TimeoutSeconds
    ensures res.1 ==> res.0.connected == ApplyFrames(r, fs, now).connected
    ensures !readError && !res.1 ==> !res.0.connected
    ensures res.0.portOpen == r.portOpen
  {
    if readError then (r.(errorCount := r.errorCount + 1), false)
    else
      var r1 := ApplyFrames(r, fs, now);
      if now - r1.lastFrameTime > TimeoutSeconds then (r1.(connected := false), false)
      else (r1, true)
  }

  /** `update` as written: nothing is read unless the receiver is connected
      and the port open. */
  function Update(r: Receiver, fs: seq<Frame>, readError: bool, now: real): (res: (Receiver, bool))
    ensures !r.connected || !r.portOpen ==> res == (r, false)
    ensures r.connected && r.portOpen ==> res == ReadAndCheck(r, fs, readError, now)
    ensures res.1 ==> res.0.connected
  {
    if !r.connected || !r.portOpen then (r, false)
    else ReadAndCheck(r, fs, readError, now)
  }

  /** The update with the connection check dropped: a disconnected receiver
      whose port is open keeps reading and comes back with the next frame. */
  function UpdateReconnecting(r: Receiver, fs: seq<Frame>, readError: bool, now: real): (res: (Receiver, bool))
    ensures !r.portOpen ==> res == (r, false)
    ensures r.portOpen ==> res == ReadAndCheck(r, fs, readError, now)
    ensures r.connected ==> res == Update(r, fs, readError, now)
  {
    if !r.portOpen then (r, false)
    else ReadAndCheck(r, fs, readError, now)
  }

  /** As written, a receiver that has timed out ignores every later frame:
      it never reports data and never reconnects. */
  lemma {:induction false} TimeoutIsPermanent(r: Receiver, frames: seq<seq<Frame>>, now: real)
    requires !r.connected
    ensures Updates(r, frames, now) == r
    decreases |frames|
  {
    if |frames| > 0 {
      TimeoutIsPermanent(r, frames[..|frames| - 1], now);
    }
  }

  /** Successive updates, one list of frames each, all without read errors. */
  function Updates(r: Receiver, frames: seq<seq<Frame>>, now: real): Receiver
    decreases |frames|
  {
    if |frames| == 0 then r
    else Update(Updates(r, frames[..|frames| - 1], now), frames[|frames| - 1], false, now).0
  }

  /** With the check dropped, one valid RC frame on an open port brings a
      timed-out receiver back and the update reports data; as written the
      same frame is ignored. */
  lemma ReconnectOnFrame(r: Receiver, ch: seq<int>, now: real)
    requires r.portOpen && !r.connected
    ensures var res := UpdateReconnecting(r, [Frame(Valid, true, ch)], false, now);
      res.1 && res.0.connected && res.0.channels == ch
    ensures Update(r, [Frame(Valid, true, ch)], false, now) == (r, false)
  {
    var fs := [Frame(Valid, true, ch)];
    assert fs[..0] == [];
    assert RcFrames(fs) == 1;
  }

  /** A receiver that was built but never connected, as the main loop uses
      it, never reports data. */
  lemma NeverConnectedNeverReports(fs: seq<Frame>, readError: bool, now: real)
    ensures Update(Init(), fs, readError, now) == (Init(), false)
  {
  }

  /* ----------------------------------------------------------------------- */
  /* What the main loop reads                                                  */
  /* ----------------------------------------------------------------------- */

  /** The control data: the left stick's y is the speed multiplier and the
      right stick's y is the pitch channel; the height rides along but the
      main loop does not read it. */
  function GetControlData(r: Receiver): (d: (Controller.ControlData, real))
    ensures d.0.connected == r.connected && d.0.gait == r.controls.gait
    ensures d.0.joy1 == Vec2(r.controls.joystick1x, r.controls.speed)
    ensures d.0.joy2 == Vec2(r.controls.joystick2x, r.controls.joystick1y)
    ensures d.0.button1 == r.controls.calibration && d.0.button2 == r.controls.sleep
    ensures d.1 == r.controls.height
  {
    (Controller.ControlData(
       r.connected, Vec2(r.controls.joystick1x, r.controls.speed),
       Vec2(r.controls.joystick2x, r.controls.joystick1y),
       r.controls.gait, r.controls.calibration, r.controls.sleep),
     r.controls.height)
  }

  /** With the sticks at rest, the data reports the left stick pushed fully
      forward on the y axis (1.0), well past the main loop's walking
      threshold. */
  lemma RestingSticksReadAsDeflected(r: Receiver)
    requires |r.channels| >= ChannelCount && r.controls == FullControls(r.channels)
    requires r.channels[ChYaw] == Mid && r.channels[ChSpeed] == Mid && r.channels[ChPitch] == Mid && r.channels[ChRoll] == Mid
    ensures GetControlData(r).0.joy1 == Vec2(0.0, 1.0)
    ensures Controller.Deflected(GetControlData(r).0.joy1, Controller.WalkThreshold)
  {
    CentredSticks(r.channels);
  }
}

=== FILE: elrs.dfy ===
/** The ELRS receiver in SBUS mode: accept a frame, keep the first eight
    channels rescaled from the SBUS range 172..1811 to 1000..2000 us, and
    derive the sticks (with a dead zone), the two sliders, the two buttons
    and the gait from them. Serial reads and the clock are inputs: a read is
    `None` when fewer than 25 bytes are waiting, and `now` is the time in
    milliseconds. */
module Elrs {
  import opened Wrappers
  import opened Vectors
  import opened Helpers
  import opened Config
  import Sbus
  import Controller

  /** Channels kept from each frame. */
  const Kept: nat := 8
  /** The SBUS stick range. */
  const SbusLow: real := 172.0
  const SbusHigh: real := 1811.0

  datatype Mode = SbusMode | PwmMode

  /** The processed control values. */
  datatype Controls = Controls(
    joy1x: real, joy1y: real, joy2x: real, joy2y: real,
    slider1: real, slider2: real, button1: bool, button2: bool, gait: int)

  datatype Receiver = Receiver(
    mode: Mode, connected: bool, lastReceivedTime: int, channelValues: seq<int>, controls: Controls)
  {
    ghost predicate Valid()
    {
      |channelValues| == Kept
    }
  }

  /** A new receiver: every channel centred, every control zero, gait 0. */
  function Init(mode: Mode): (r: Receiver)
    ensures r.Valid() && !r.connected && r.lastReceivedTime == 0
    ensures forall i :: 0 <= i < Kept ==> r.channelValues[i] == RcMid as int
    ensures r.controls == Controls(0.0, 0.0, 0.0, 0.0, 0.0, 0.0, false, false, 0)
  {
    Receiver(mode, false, 0, seq(Kept, _ => 1500), Controls(0.0, 0.0, 0.0, 0.0, 0.0, 0.0, false, false, 0))
  }

  /* ----------------------------------------------------------------------- */
  /* Channel arithmetic                                                        */
  /* ----------------------------------------------------------------------- */

  /** An SBUS value in microseconds, truncated to an integer. The stick
      endpoints land on the pulse endpoints and the SBUS centre 992 on the
      pulse centre 1500. */
  function Rescale(ch: int): (r: int)
    ensures ch == 172 ==> r == 1000
    ensures ch == 1811 ==> r == 2000
    ensures ch == 992 ==> r == 1500
    ensures 172 <= ch <= 1811 ==> 1000 <= r <= 2000
    ensures 0 <= ch <= Sbus.ChannelMax ==> 895 <= r <= 2143
  {
    Trunc(MapFloat(ch as real, SbusLow, SbusHigh, RcMin, RcMax))
  }

  /** Rescaling never reverses the order of two channel values. */
  lemma RescaleMonotone(a: int, b: int)
    requires 0 <= a <= b
    ensures Rescale(a) <= Rescale(b)
  {
    var fa := MapFloat(a as real, SbusLow, SbusHigh, RcMin, RcMax);
    var fb := MapFloat(b as real, SbusLow, SbusHigh, RcMin, RcMax);
    assert fa <= fb;
  }

  /** A stick value in [-1, 1] around the 1500 centre: zero inside the dead
      zone 1450..1550, then linear up to the ends of the 1000..2000 range. */
  function ApplyDeadzone(v: int): (r: real)
    ensures r > 0.0 <==> v > 1550
    ensures r < 0.0 <==> v < 1450
    ensures v == 2000 ==> r == 1.0
    ensures v == 1000 ==> r == -1.0
    ensures 1000 <= v <= 2000 ==> -1.0 <= r <= 1.0
  {
    if Abs(v as real - RcMid) < RcDeadzone then 0.0
    else if v as real > RcMid then MapFloat(v as real, RcMid + RcDeadzone, RcMax, 0.0, 1.0)
    else MapFloat(v as real, RcMin, RcMid - RcDeadzone, -1.0, 0.0)
  }

  /** The dead zone is symmetric: mirroring a value about the centre negates
      the stick reading. */
  lemma DeadzoneOdd(d: int)
    ensures ApplyDeadzone(1500 - d) == -ApplyDeadzone(1500 + d)
  {
  }

  /** The stick reading grows with the channel value, with no jump at the
      dead-zone edges. */
  lemma DeadzoneMonotone(a: int, b: int)
    requires a <= b
    ensures ApplyDeadzone(a) <= ApplyDeadzone(b)
  {
  }

  /** A slider value, 1000 -> 0 and 2000 -> 1 (not clamped). */
  function Slider(v: int): (r: real)
    ensures v == 1000 ==> r == 0.0
    ensures v == 2000 ==> r == 1.0
    ensures 1000 <= v <= 2000 ==> 0.0 <= r <= 1.0
  {
    MapFloat(v as real, RcMin, RcMax, 0.0, 1.0)
  }

  /** The gait for a slider position: six equal bands over [0, 1], anything
      below the range gait 0 and anything above it gait 5. */
  function GaitFromSlider(s: real): (g: int)
    ensures 0 <= g < TotalGaits
    ensures s < 0.0 ==> g == 0
    ensures s * 6.0 >= 5.0 ==> g == 5
    ensures 0.0 <= s * 6.0 < 5.0 ==> g as real <= s * 6.0 < g as real + 1.0
  {
    Trunc(Constrain(s * TotalGaits as real, 0.0, (TotalGaits - 1) as real))
  }

  /** All controls from the eight channel values. */
  function ProcessChannels(values: seq<int>): (c: Controls)
    requires |values| == Kept
    ensures c.joy1x == ApplyDeadzone(values[RcChannelJoy1X])
    ensures c.joy1y == ApplyDeadzone(values[RcChannelJoy1Y])
    ensures c.joy2x == ApplyDeadzone(values[RcChannelJoy2X])
    ensures c.joy2y == ApplyDeadzone(values[RcChannelJoy2Y])
    ensures c.slider1 == Slider(values[RcChannelSlider1]) && c.slider2 == Slider(values[RcChannelSlider2])
    ensures c.button1 <==> values[RcChannelButton1] > 1500
    ensures c.button2 <==> values[RcChannelButton2] > 1500
    ensures 0 <= c.gait < TotalGaits && c.gait == GaitFromSlider(c.slider2)
  {
    var s2 := Slider(values[RcChannelSlider2]);
    Controls(
      ApplyDeadzone(values[RcChannelJoy1X]), ApplyDeadzone(values[RcChannelJoy1Y]),
      ApplyDeadzone(values[RcChannelJoy2X]), ApplyDeadzone(values[RcChannelJoy2Y]),
      Slider(values[RcChannelSlider1]), s2,
      values[RcChannelButton1] as real > RcMid, values[RcChannelButton2] as real > RcMid,
      GaitFromSlider(s2))
  }

  /** Sticks and sliders within the pulse range give sticks within [-1, 1]
      and sliders within [0, 1]. */
  lemma ControlsInRange(values: seq<int>)
    requires |values| == Kept
    requires forall i :: 0 <= i < Kept ==> 1000 <= values[i] <= 2000
    ensures var c := ProcessChannels(values);
      -1.0 <= c.joy1x <= 1.0 && -1.0 <= c.joy1y <= 1.0
      && -1.0 <= c.joy2x <= 1.0 && -1.0 <= c.joy2y <= 1.0
      && 0.0 <= c.slider1 <= 1.0 && 0.0 <= c.slider2 <= 1.0
  {
  }

  /* ----------------------------------------------------------------------- */
  /* Reading frames                                                            */
  /* ----------------------------------------------------------------------- */

  /** The first eight channels of an accepted frame, rescaled. */
  function FrameValues(data: seq<bv8>): (v: seq<int>)
    requires Sbus.Accepted(data)
    ensures |v| == Kept
    ensures forall i :: 0 <= i < Kept ==> v[i] == Rescale(Sbus.ChannelBits(data, i) as int)
    ensures forall i :: 0 <= i < Kept ==> 895 <= v[i] <= 2143
  {
    var ch := Sbus.Channels(data);
    seq(Kept, i requires 0 <= i < Kept => Rescale(ch[i]))
  }

  /** The controls agree with the stored channel values. */
  ghost predicate Consistent(r: Receiver)
  {
    r.Valid() && r.controls == ProcessChannels(r.channelValues)
  }

  /** One SBUS update. An accepted frame replaces the channel values and
      controls, marks the receiver connected and reports new data; anything
      else (nothing waiting, a short read, a bad marker byte) reports no data
      and drops the connection once more than a second has passed since the
      last good frame. */
  function UpdateSbus(r: Receiver, read: Option<seq<bv8>>, now: int): (res: (Receiver, bool))
    requires r.Valid()
    ensures res.0.Valid() && res.0.mode == r.mode
    ensures res.1 <==> read.Some? && Sbus.Accepted(read.value)
    ensures res.1 ==>
      res.0.connected && res.0.lastReceivedTime == now
      && res.0.channelValues == FrameValues(read.value) && Consistent(res.0)
    ensures !res.1 ==>
      res.0.channelValues == r.channelValues && res.0.controls == r.controls
      && res.0.lastReceivedTime == r.lastReceivedTime
      && res.0.connected == (r.connected && now - r.lastReceivedTime <= RcTimeoutMs as int)
  {
    if read.Some? && Sbus.Accepted(read.value) then
      var values := FrameValues(read.value);
      (r.(channelValues := values, lastReceivedTime := now, connected := true,
          controls := ProcessChannels(values)), true)
    else
      (r.(connected := if now - r.lastReceivedTime > RcTimeoutMs as int then false else r.connected), false)
  }

  /** The update for either mode; PWM reading is a stub that never reports
      data and leaves the receiver as it is. */
  function Update(r: Receiver, read: Option<seq<bv8>>, now: int): (res: (Receiver, bool))
    requires r.Valid()
    ensures res.0.Valid()
    ensures r.mode == PwmMode ==> res == (r, false)
    ensures r.mode == SbusMode ==> res == UpdateSbus(r, read, now)
  {
    match r.mode
    case SbusMode => UpdateSbus(r, read, now)
    case PwmMode => (r, false)
  }

  /** Every update keeps the controls in step with the channel values. */
  lemma UpdateKeepsConsistent(r: Receiver, read: Option<seq<bv8>>, now: int)
    requires Consistent(r)
    ensures Consistent(Update(r, read, now).0)
  {
  }

  /** The control data handed to the main loop. */
  function GetControlData(r: Receiver): (d: Controller.ControlData)
    ensures d.connected == r.connected && d.gait == r.controls.gait
    ensures d.joy1 == Vec2(r.controls.joy1x, r.controls.joy1y)
    ensures d.joy2 == Vec2(r.controls.joy2x, r.controls.joy2y)
    ensures d.button1 == r.controls.button1 && d.button2 == r.controls.button2
  {
    Controller.ControlData(
      r.connected, Vec2(r.controls.joy1x, r.controls.joy1y), Vec2(r.controls.joy2x, r.controls.joy2y),
      r.controls.gait, r.controls.button1, r.controls.button2)
  }

  /** What the main loop sees from one update: the control data when the
      update reported new data, nothing otherwise. */
  function Poll(r: Receiver, read: Option<seq<bv8>>, now: int): (res: (Receiver, Option<Controller.ControlData>))
    requires r.Valid()
    ensures res.0 == Update(r, read, now).0
    ensures res.1.Some? <==> Update(r, read, now).1
    ensures res.1.Some? ==> res.1.value == GetControlData(res.0) && res.1.value.connected
  {
    var u := Update(r, read, now);
    (u.0, if u.1 then Some(GetControlData(u.0)) else None)
  }

  /** End to end: an accepted frame sets the main loop's joystick targets to
      the dead-zoned sticks of that frame and its gait to the frame's slider
      band; a frame that is not accepted zeroes both targets. */
  lemma FrameDrivesTargets(c: Controller.Control, r: Receiver, read: Option<seq<bv8>>, now: int)
    requires r.Valid() && r.mode == SbusMode && c.hasReceiver
    ensures var c1 := Controller.UpdateReceiver(c, Poll(r, read, now).1).0;
      if read.Some? && Sbus.Accepted(read.value) then
        var v := FrameValues(read.value);
        c1.connected && c1.joy1Target == Vec2(ApplyDeadzone(v[RcChannelJoy1X]), ApplyDeadzone(v[RcChannelJoy1Y]))
        && c1.joy2Target == Vec2(ApplyDeadzone(v[RcChannelJoy2X]), ApplyDeadzone(v[RcChannelJoy2Y]))
        && c1.gait == GaitFromSlider(Slider(v[RcChannelSlider2]))
      else !c1.connected && c1.joy1Target == Zero2 && c1.joy2Target == Zero2
  {
  }
}

=== FILE: elrs_servo_test.dfy ===
/** The stand-alone SBUS-to-servo script: read frames, take the roll channel,
    map it onto a servo angle in [0, 180], smooth it and command the servo.
    Its `map_value` and `constrain` are the same formulas as the shared
    helpers, and its frame parser is the same unpacking as the SBUS module,
    so both are reused. */
module ElrsServoTest {
  import opened Wrappers
  import opened Helpers
  import Sbus

  const RollChannel: nat := 0
  const SbusMin: real := 172.0
  const SbusMax: real := 1811.0
  const ServoMin: real := 0.0
  const ServoMax: real := 180.0
  const SmoothFactor: real := 0.3
  const StartAngle: real := 90.0

  /** What the port offers for one read: too few bytes waiting, 25 bytes
      read, or a serial failure. */
  datatype Read = NotEnough | Bytes(data: seq<bv8>) | Failed

  /** The parser's state: only the connected flag. */
  datatype Parser = Parser(connected: bool)

  /** One `read_frame`: the channels of an accepted frame (and connected),
      a flush of the input buffer for a rejected one, and on a serial
      failure no channels and not connected. */
  function ReadFrame(p: Parser, rd: Read): (r: (Parser, Option<seq<int>>, bool))
    ensures r.1.Some? <==> rd.Bytes? && Sbus.Accepted(rd.data)
    ensures r.1.Some? ==> r.0.connected && r.1 == Sbus.ReadFrame(rd.data)
    ensures r.2 <==> rd.Bytes? && !Sbus.Accepted(rd.data)
    ensures rd.Failed? ==> !r.0.connected
    ensures rd.NotEnough? || (rd.Bytes? && !Sbus.Accepted(rd.data)) ==> r.0 == p
  {
    match rd
    case NotEnough => (p, None, false)
    case Failed => (Parser(false), None, false)
    case Bytes(data) =>
      if Sbus.Accepted(data) then (Parser(true), Some(Sbus.Channels(data)), false)
      else (p, None, true)
  }

  /** The servo angle the roll value asks for: 172 -> 0 and 1811 -> 180,
      clamped to the servo's range. */
  function RollTarget(roll: int): (a: real)
    ensures ServoMin <= a <= ServoMax
    ensures roll <= 172 ==> a == ServoMin
    ensures roll >= 1811 ==> a == ServoMax
    ensures 172 <= roll <= 1811 ==> a * (SbusMax - SbusMin) == (roll as real - SbusMin) * ServoMax
  {
    Constrain(MapFloat(roll as real, SbusMin, SbusMax, ServoMin, ServoMax), ServoMin, ServoMax)
  }

  /** A higher roll value never asks for a smaller angle. */
  lemma RollTargetMonotone(a: int, b: int)
    requires a <= b
    ensures RollTarget(a) <= RollTarget(b)
  {
    var ma := MapFloat(a as real, SbusMin, SbusMax, ServoMin, ServoMax);
    var mb := MapFloat(b as real, SbusMin, SbusMax, ServoMin, ServoMax);
    assert ma <= mb;
  }

  /** Exponential smoothing: 30% of the way to the target. The new angle lies
      between the old one and the target, and the gap shrinks to 70%. */
  function Smooth(current: real, target: real): (r: real)
    ensures current <= target ==> current <= r <= target
    ensures target <= current ==> target <= r <= current
    ensures r - target == (current - target) * (1.0 - SmoothFactor)
  {
    current * (1.0 - SmoothFactor) + target * SmoothFactor
  }

  /** What `read_frame` returns: a full channel list or nothing. */
  predicate WellFormed(results: seq<Option<seq<int>>>)
  {
    forall i :: 0 <= i < |results| ==> results[i].Some? ==> |results[i].value| == Sbus.ChannelCount
  }

  /** Every result `ReadFrame` produces is well formed. */
  lemma ReadFrameWellFormed(p: Parser, rd: Read)
    ensures WellFormed([ReadFrame(p, rd).1])
  {
  }

  /** The angle after a run of `read_frame` results, frame by frame. */
  function AngleAfter(results: seq<Option<seq<int>>>): real
    requires WellFormed(results)
    decreases |results|
  {
    if |results| == 0 then StartAngle
    else
      var prev := AngleAfter(results[..|results| - 1]);
      var last := results[|results| - 1];
      if last.Some? then Smooth(prev, RollTarget(last.value[RollChannel])) else prev
  }

  /** The control loop over a run of `read_frame` results: every frame moves
      the smoothed angle toward the roll target and commands the servo with
      it. When the run ends (interrupted or failing) the cleanup re-centres
      the servo at 90. Every command lies within the servo's range. */
  method ControlLoop(results: seq<Option<seq<int>>>) returns (angle: real, frames: nat, commands: seq<real>)
    requires WellFormed(results)
    ensures angle == AngleAfter(results)
    ensures ServoMin <= angle <= ServoMax
    ensures |commands| == frames + 1 && frames <= |results|
    ensures forall i :: 0 <= i < |commands| ==> ServoMin <= commands[i] <= ServoMax
    ensures frames > 0 ==> commands[frames - 1] == angle
    ensures commands[frames] == StartAngle
  {
    angle := StartAngle;
    frames := 0;
    commands := [];
    var i := 0;
    while i < |results|
      invariant 0 <= i <= |results|
      invariant angle == AngleAfter(results[..i])
      invariant ServoMin <= angle <= ServoMax
      invariant |commands| == frames <= i
      invariant forall j :: 0 <= j < |commands| ==> ServoMin <= commands[j] <= ServoMax
      invariant frames > 0 ==> commands[frames - 1] == angle
    {
      assert results[..i + 1][..i] == results[..i];
      if results[i].Some? {
        frames := frames + 1;
        var target := RollTarget(results[i].value[RollChannel]);
        angle := Smooth(angle, target);
        commands := commands + [angle];
      }
      i := i + 1;
    }
    assert results[..|results|] == results;
    commands := commands + [StartAngle];
  }
}

=== FILE: helpers.dfy ===
/** Numeric helpers of the locomotion code: interpolation, range mapping,
    clamping, Python's integer truncation, binomial coefficients, Bernstein-form
    Bezier evaluation and the servo angle/pulse-width conversions. */
module Helpers {
  import opened Vectors

  /* ----------------------------------------------------------------------- */
  /* Interpolation, mapping, clamping                                          */
  /* ----------------------------------------------------------------------- */

  /** Scalar linear interpolation `a * (1 - f) + b * f`. */
  function Lerp(a: real, b: real, f: real): (r: real)
    ensures f == 0.0 ==> r == a
    ensures f == 1.0 ==> r == b
    ensures a == b ==> r == a
  {
    a * (1.0 - f) + b * f
  }

  /** Vector interpolation is scalar interpolation on every component. */
  function Lerp2(a: Vec2, b: Vec2, f: real): (r: Vec2)
    ensures f == 0.0 ==> r == a
    ensures f == 1.0 ==> r == b
  {
    Vec2(Lerp(a.x, b.x, f), Lerp(a.y, b.y, f))
  }

  function Lerp3(a: Vec3, b: Vec3, f: real): (r: Vec3)
    ensures f == 0.0 ==> r == a
    ensures f == 1.0 ==> r == b
  {
    Vec3(Lerp(a.x, b.x, f), Lerp(a.y, b.y, f), Lerp(a.z, b.z, f))
  }

  /** A step of interpolation with a factor in [0, 1] lands between the two
      ends and never moves away from the target. */
  lemma LerpBetween(a: real, b: real, f: real)
    requires 0.0 <= f <= 1.0
    ensures a <= b ==> a <= Lerp(a, b, f) <= b
    ensures b <= a ==> b <= Lerp(a, b, f) <= a
    ensures Lerp(a, b, f) - b == (a - b) * (1.0 - f)
  {
    assert Lerp(a, b, f) - b == (a - b) * (1.0 - f);
    assert Lerp(a, b, f) - a == (b - a) * f;
    if a <= b {
      ProductNonNegative(b - a, 1.0 - f);
      ProductNonNegative(b - a, f);
    } else {
      ProductNonNegative(a - b, 1.0 - f);
      ProductNonNegative(a - b, f);
    }
  }

  lemma ProductNonNegative(x: real, y: real)
    requires x >= 0.0 && y >= 0.0
    ensures x * y >= 0.0
  {
  }

  /** Arduino-style range mapping; the input range must not be empty (the
      source divides by its width). */
  function MapFloat(x: real, inMin: real, inMax: real, outMin: real, outMax: real): (r: real)
    requires inMin != inMax
    ensures x == inMin ==> r == outMin
    ensures x == inMax ==> r == outMax
  {
    assert x == inMin ==> (x - inMin) * (outMax - outMin) == 0.0;
    assert x == inMax ==> (x - inMin) * (outMax - outMin) / (inMax - inMin) == outMax - outMin;
    (x - inMin) * (outMax - outMin) / (inMax - inMin) + outMin
  }

  /** Mapping is affine: it sends the point a fraction `f` along the input
      range to the point the same fraction along the output range. */
  lemma MapFloatAffine(f: real, inMin: real, inMax: real, outMin: real, outMax: real)
    requires inMin != inMax
    ensures MapFloat(Lerp(inMin, inMax, f), inMin, inMax, outMin, outMax) == Lerp(outMin, outMax, f)
  {
    var w := inMax - inMin;
    var x := Lerp(inMin, inMax, f);
    assert x - inMin == f * w;
    assert (f * w) * (outMax - outMin) / w == f * (outMax - outMin);
  }

  /** `max(lo, min(hi, v))`. */
  function Constrain(v: real, lo: real, hi: real): (r: real)
    ensures lo <= hi ==> lo <= r <= hi
    ensures lo <= v <= hi ==> r == v
    ensures lo <= hi && v < lo ==> r == lo
    ensures lo <= hi && v > hi ==> r == hi
    ensures hi < lo ==> r == lo
  {
    var m := if hi < v then hi else v;
    if lo > m then lo else m
  }

  /** The absolute value. */
  function Abs(v: real): (r: real)
    ensures r >= 0.0
    ensures r == v || r == -v
  {
    if v < 0.0 then -v else v
  }

  /** Python's `int()` on a float: truncation toward zero. */
  function Trunc(v: real): (r: int)
    ensures v >= 0.0 ==> 0 <= r && r as real <= v < r as real + 1.0
    ensures v < 0.0 ==> r <= 0 && r as real - 1.0 < v <= r as real
  {
    if v >= 0.0 then v.Floor else -((-v).Floor)
  }

  /* ----------------------------------------------------------------------- */
  /* Binomial coefficients                                                     */
  /* ----------------------------------------------------------------------- */

  /** Pascal's triangle, zero above the diagonal. */
  function Choose(n: nat, k: nat): nat
  {
    if k == 0 then 1
    else if n == 0 then 0
    else Choose(n - 1, k - 1) + Choose(n - 1, k)
  }

  function Fact(n: nat): (r: nat)
    ensures r >= 1
  {
    if n == 0 then 1 else n * Fact(n - 1)
  }

  lemma {:induction false} ChooseAbove(n: nat, k: nat)
    requires k > n
    ensures Choose(n, k) == 0
  {
    if n > 0 {
      ChooseAbove(n - 1, k - 1);
      ChooseAbove(n - 1, k);
    }
  }

  lemma {:induction false} ChooseDiagonal(n: nat)
    ensures Choose(n, n) == 1
  {
    if n > 0 {
      ChooseDiagonal(n - 1);
      ChooseAbove(n - 1, n);
    }
  }

  lemma AbsorptionStep(n: int, k: int, a: int, b: int, c: int, d: int)
    requires k * b == (n - 1) * d
    requires (k - 1) * a == (n - 1) * c
    requires a == c + d
    ensures k * (a + b) == n * a
  {
    calc {
      k * (a + b);
      (k - 1) * a + a + k * b;
      (n - 1) * c + a + (n - 1) * d;
      (n - 1) * (c + d) + a;
    }
  }

  /** The absorption identity `k * C(n, k) == n * C(n - 1, k - 1)`. */
  lemma {:induction false} Absorption(n: nat, k: nat)
    requires n >= 1 && k >= 1
    ensures k * Choose(n, k) == n * Choose(n - 1, k - 1)
    decreases n
  {
    if n == 1 {
      if k > 1 {
        ChooseAbove(0, k - 1);
        ChooseAbove(1, k);
      }
    } else {
      Absorption(n - 1, k);
      if k == 1 {
        AbsorptionStep(n, 1, 1, Choose(n - 1, 1), 0, 1);
      } else {
        Absorption(n - 1, k - 1);
        AbsorptionStep(n, k, Choose(n - 1, k - 1), Choose(n - 1, k), Choose(n - 2, k - 2), Choose(n - 2, k - 1));
      }
    }
  }

  lemma FactorialStep(n: int, k: int, c: int, c1: int, fk1: int, fnk: int, fn1: int)
    requires k * c == n * c1
    requires c1 * fk1 * fnk == fn1
    ensures c * (k * fk1) * fnk == n * fn1
  {
    calc {
      c * (k * fk1) * fnk;
      (k * c) * fk1 * fnk;
      (n * c1) * fk1 * fnk;
      n * (c1 * fk1 * fnk);
    }
  }

  /** The closed form: `C(n, k) * k! * (n - k)! == n!` for `k <= n`. */
  lemma {:induction false} ChooseFactorial(n: nat, k: nat)
    requires k <= n
    ensures Choose(n, k) * Fact(k) * Fact(n - k) == Fact(n)
    decreases n
  {
    if k > 0 {
      Absorption(n, k);
      ChooseFactorial(n - 1, k - 1);
      FactorialStep(n, k, Choose(n, k), Choose(n - 1, k - 1), Fact(k - 1), Fact(n - k), Fact(n - 1));
    }
  }

  lemma MulAtLeast(x: int, d: int)
    requires x >= 1 && d > 0
    ensures x * d >= d
  {
  }

  lemma DivExact(c: int, d: int)
    requires d > 0
    ensures (c * d) / d == c
  {
    var a := c * d;
    var q, m := a / d, a % d;
    assert a == d * q + m && 0 <= m < d;
    assert (c - q) * d == m;
    if c > q {
      MulAtLeast(c - q, d);
    } else if c < q {
      MulAtLeast(q - c, d);
    }
  }

  /** One step of the multiplicative formula: from `C(m - 1, i - 1)`,
      multiplying by `m` and dividing by `i` gives `C(m, i)` exactly. */
  lemma BinomialStep(r: int, m: int, i: int)
    requires 1 <= i <= m
    requires r == Choose(m - 1, i - 1)
    ensures (r * m) / i == Choose(m, i)
  {
    Absorption(m, i);
    assert r * m == Choose(m, i) * i;
    DivExact(Choose(m, i), i);
  }

  /** The source's running product: multiply by `n - (k - i)`, then floor-divide
      by `i`, for `i` in 1..k. Python's `//` by a positive divisor is Dafny's
      `/`. Every division is exact, so the result is the binomial coefficient,
      and it is zero when `k > n`. */
  method BinomialCoefficient(n: nat, k: nat) returns (r: int)
    ensures r == Choose(n, k)
    ensures k <= n ==> r * Fact(k) * Fact(n - k) == Fact(n)
  {
    r := 1;
    var i := 1;
    while i <= k
      invariant 1 <= i <= k + 1
      invariant k <= n ==> r == Choose(n - k + i - 1, i - 1)
      invariant k > n && i > k - n ==> r == 0
    {
      var m := n - (k - i);
      if k <= n {
        BinomialStep(r, m, i);
      }
      r := r * m;
      r := r / i;
      i := i + 1;
    }
    if k > n {
      ChooseAbove(n, k);
    } else {
      ChooseFactorial(n, k);
    }
  }

  /* ----------------------------------------------------------------------- */
  /* Bezier curves                                                             */
  /* ----------------------------------------------------------------------- */

  /** Python's `pow` with a natural exponent; `pow(0.0, 0)` is 1. */
  function Pow(x: real, e: nat): real
  {
    if e == 0 then 1.0 else x * Pow(x, e - 1)
  }

  lemma {:induction false} PowOne(e: nat)
    ensures Pow(1.0, e) == 1.0
  {
    if e > 0 { PowOne(e - 1); }
  }

  lemma PowZero(e: nat)
    requires e > 0
    ensures Pow(0.0, e) == 0.0
  {
  }

  /** The Bernstein weight of control point `i` in an `n`-point curve. */
  function Weight(n: nat, i: nat, t: real): real
    requires i < n
  {
    Choose(n - 1, i) as real * Pow(1.0 - t, n - 1 - i) * Pow(t, i)
  }

  /** The sum of the first `m` weighted control points. */
  function BezierUpTo(pts: seq<Vec3>, n: nat, t: real, m: nat): Vec3
    requires m <= n <= |pts|
  {
    if m == 0 then Zero3
    else Add3(BezierUpTo(pts, n, t, m - 1), Scale3(pts[m - 1], Weight(n, m - 1, t)))
  }

  /** A point on the `n`-point Bezier curve over `pts`. The source indexes
      `points[0]` even when the list is empty and `points[i]` for every
      `i < num_points`, so both bounds are preconditions. */
  function Bezier(pts: seq<Vec3>, n: nat, t: real): Vec3
    requires |pts| > 0 && n <= |pts|
  {
    BezierUpTo(pts, n, t, n)
  }

  lemma {:induction false} BezierUpToAtZero(pts: seq<Vec3>, n: nat, m: nat)
    requires 1 <= m <= n <= |pts|
    ensures BezierUpTo(pts, n, 0.0, m) == pts[0]
  {
    if m == 1 {
      PowOne(n - 1);
      assert Weight(n, 0, 0.0) == 1.0;
    } else {
      BezierUpToAtZero(pts, n, m - 1);
      PowZero(m - 1);
      assert Weight(n, m - 1, 0.0) == 0.0;
    }
  }

  /** The curve starts at the first control point. */
  lemma BezierAtZero(pts: seq<Vec3>, n: nat)
    requires 1 <= n <= |pts|
    ensures Bezier(pts, n, 0.0) == pts[0]
  {
    BezierUpToAtZero(pts, n, n);
  }

  lemma {:induction false} BezierUpToAtOneBefore(pts: seq<Vec3>, n: nat, m: nat)
    requires m < n <= |pts|
    ensures BezierUpTo(pts, n, 1.0, m) == Zero3
  {
    if m > 0 {
      BezierUpToAtOneBefore(pts, n, m - 1);
      PowZero(n - m);
      assert Weight(n, m - 1, 1.0) == 0.0;
    }
  }

  /** The curve ends at the last of the `n` control points. */
  lemma BezierAtOne(pts: seq<Vec3>, n: nat)
    requires 1 <= n <= |pts|
    ensures Bezier(pts, n, 1.0) == pts[n - 1]
  {
    BezierUpToAtOneBefore(pts, n, n - 1);
    ChooseDiagonal(n - 1);
    PowOne(n - 1);
    assert Weight(n, n - 1, 1.0) == 1.0;
  }

  lemma {:induction false} BezierUpToPrefix(pts: seq<Vec3>, qs: seq<Vec3>, n: nat, t: real, m: nat)
    requires m <= n <= |pts| && n <= |qs|
    requires pts[..n] == qs[..n]
    ensures BezierUpTo(pts, n, t, m) == BezierUpTo(qs, n, t, m)
  {
    if m > 0 {
      BezierUpToPrefix(pts, qs, n, t, m - 1);
      assert pts[m - 1] == pts[..n][m - 1] == qs[..n][m - 1] == qs[m - 1];
    }
  }

  /** Only the first `n` control points are read. */
  lemma BezierReadsPrefix(pts: seq<Vec3>, qs: seq<Vec3>, n: nat, t: real)
    requires 0 < |pts| && 0 < |qs| && n <= |pts| && n <= |qs|
    requires pts[..n] == qs[..n]
    ensures Bezier(pts, n, t) == Bezier(qs, n, t)
  {
    BezierUpToPrefix(pts, qs, n, t, n);
  }

  /** A two-point curve is linear interpolation between its two points. */
  lemma BezierTwoPoints(pts: seq<Vec3>, t: real)
    requires |pts| >= 2
    ensures Bezier(pts, 2, t) == Lerp3(pts[0], pts[1], t)
  {
    assert Pow(1.0 - t, 1) == 1.0 - t by { assert Pow(1.0 - t, 0) == 1.0; }
    assert Pow(t, 1) == t by { assert Pow(t, 0) == 1.0; }
    assert Choose(1, 0) == 1 && Choose(1, 1) == 1;
    var w0, w1 := Weight(2, 0, t), Weight(2, 1, t);
    assert w0 == 1.0 - t;
    assert w1 == t;
    assert BezierUpTo(pts, 2, t, 1) == Add3(Zero3, Scale3(pts[0], w0));
    assert Bezier(pts, 2, t) == Add3(Add3(Zero3, Scale3(pts[0], w0)), Scale3(pts[1], w1));
  }

  /* ----------------------------------------------------------------------- */
  /* Servo angle and pulse width                                               */
  /* ----------------------------------------------------------------------- */

  /** Clamp the angle to [0, 180], map it linearly onto [500, 2500] and
      truncate to an integer number of microseconds. */
  function AngleToMicros(angle: real): (r: int)
    ensures 500 <= r <= 2500
    ensures r as real <= 500.0 + Constrain(angle, 0.0, 180.0) / 180.0 * 2000.0 < r as real + 1.0
  {
    Trunc(500.0 + Constrain(angle, 0.0, 180.0) / 180.0 * 2000.0)
  }

  /** Clamp the pulse width to [500, 2500] and map it linearly onto [0, 180]. */
  function MicrosToAngle(us: real): (r: real)
    ensures 0.0 <= r <= 180.0
    ensures us <= 500.0 ==> r == 0.0
    ensures us >= 2500.0 ==> r == 180.0
  {
    (Constrain(us, 500.0, 2500.0) - 500.0) / 2000.0 * 180.0
  }

  /** Converting an angle to a pulse width and back loses less than one
      microsecond, that is less than 0.09 degrees, and never overshoots the
      clamped angle. */
  lemma AngleRoundTrip(angle: real)
    ensures MicrosToAngle(AngleToMicros(angle) as real) <= Constrain(angle, 0.0, 180.0)
    ensures MicrosToAngle(AngleToMicros(angle) as real) > Constrain(angle, 0.0, 180.0) - 0.09
  {
    var c := Constrain(angle, 0.0, 180.0);
    var u := AngleToMicros(angle) as real;
    assert u <= 500.0 + c / 180.0 * 2000.0 < u + 1.0;
    assert MicrosToAngle(u) == (u - 500.0) / 2000.0 * 180.0;
  }
}

=== FILE: kinematics.dfy ===
/** Leg-position bookkeeping around the inverse kinematics: the reachability
    test, the position store every controller reads, the 18-value offset table
    and its expansion into per-leg offset vectors. The closed-form trigonometry
    is not modelled; `Ik.solve` stands for it. */
module Kinematics {
  import opened Wrappers
  import opened Vectors
  import opened Helpers
  import Config
  import ServoController

  const Legs: nat := 6
  const OffsetCount: nat := 18

  /** The numeric primitives the solver needs: a square root and the closed
      form that turns a position, the leg's offset vector and the two clamped
      law-of-cosines arguments into coxa, femur and tibia angles in degrees. */
  datatype Ik = Ik(sqrt: real -> real, solve: (Vec3, Vec3, real, real) -> Vec3)

  datatype HexapodKinematics = HexapodKinematics(
    servos: ServoController.Servos,
    currentPoints: seq<Vec3>,
    rawOffsets: seq<real>,
    offsets: seq<Vec3>,
    footPositions: seq<(int, int)>)
  {
    ghost predicate Valid() {
      servos.Valid() && |currentPoints| == Legs && |rawOffsets| == OffsetCount
      && |offsets| == Legs && |footPositions| == Legs
    }
  }

  /** What `move_to_pos` does with a target: drives the servos, refuses it as
      out of reach, or fails dividing by the zero hypotenuse. */
  datatype MoveOutcome = Reached | Unreachable | DivisionByZero

  const BaseOffset: Vec3 := Vec3(Config.BaseOffsetX, Config.BaseOffsetY, Config.BaseOffsetZ)

  function Init(servos: ServoController.Servos): (k: HexapodKinematics)
    requires servos.Valid()
    ensures k.Valid() && k.servos == servos
    ensures forall i :: 0 <= i < Legs ==> k.currentPoints[i] == Zero3 && k.offsets[i] == BaseOffset
    ensures forall i :: 0 <= i < OffsetCount ==> k.rawOffsets[i] == 0.0
  {
    HexapodKinematics(servos, seq(Legs, _ => Zero3), seq(OffsetCount, _ => 0.0),
      seq(Legs, _ => BaseOffset), seq(Legs, _ => (0, 0)))
  }

  /** Reachable means no farther from the leg origin than the leg's length;
      compared squared, which is equivalent as both sides are non-negative. */
  predicate Reachable(pos: Vec3)
  {
    NormSq3(pos) <= Config.LegLength * Config.LegLength
  }

  /** The two arguments of `acos`, each clamped to [-1, 1]; `None` when the
      hypotenuse is zero and the source divides by zero. */
  function AcosArguments(h: real): (r: Option<(real, real)>)
    ensures r.None? <==> h == 0.0
    ensures r.Some? ==> -1.0 <= r.value.0 <= 1.0 && -1.0 <= r.value.1 <= 1.0
  {
    if h == 0.0 then None
    else
      var a2, a3 := Config.FemurLength, Config.TibiaLength;
      Some((Constrain((h * h + a2 * a2 - a3 * a3) / (2.0 * h * a2), -1.0, 1.0),
            Constrain((a2 * a2 + a3 * a3 - h * h) / (2.0 * a2 * a3), -1.0, 1.0)))
  }

  /** The law-of-cosines ratios are passed through unchanged when they already
      lie in [-1, 1]. */
  lemma AcosArgumentsUnclampedInRange(h: real)
    requires h != 0.0
    requires -1.0 <= (h * h + 108.0 * 108.0 - 200.0 * 200.0) / (2.0 * h * 108.0) <= 1.0
    ensures AcosArguments(h).value.0 == (h * h + 108.0 * 108.0 - 200.0 * 200.0) / (2.0 * h * 108.0)
  {
  }

  /** The hypotenuse of the vertical plane, from the horizontal reach past the
      coxa and the height. */
  function Hypotenuse(pos: Vec3, sqrt: real -> real): real
  {
    var l1 := sqrt(pos.x * pos.x + pos.y * pos.y) - Config.CoxaLength;
    sqrt(l1 * l1 + pos.z * pos.z)
  }

  /** An angle after the pulse-width round trip the source applies before
      writing: truncated to whole microseconds and mapped back to degrees. */
  function Quantise(angle: real): (r: real)
    ensures 0.0 <= r <= 180.0
    ensures Constrain(angle, 0.0, 180.0) - 0.09 < r <= Constrain(angle, 0.0, 180.0)
  {
    AngleRoundTrip(angle);
    MicrosToAngle(AngleToMicros(angle) as real)
  }

  /** Record the truncated foot position and the target as the leg's current
      point, then refuse an out-of-reach target without touching the servos;
      otherwise solve, quantise the three angles and write the leg's servos. */
  function MoveToPos(k: HexapodKinematics, leg: nat, pos: Vec3, ik: Ik): (r: (HexapodKinematics, MoveOutcome))
    requires k.Valid() && leg < Legs
    ensures r.0.Valid()
    ensures r.0.currentPoints == k.currentPoints[leg := pos]
    ensures r.0.footPositions == k.footPositions[leg := (Trunc(pos.x), Trunc(pos.y))]
    ensures r.0.rawOffsets == k.rawOffsets && r.0.offsets == k.offsets
    ensures r.1 == Unreachable <==> !Reachable(pos)
    ensures r.1 == DivisionByZero <==> Reachable(pos) && Hypotenuse(pos, ik.sqrt) == 0.0
    ensures r.1 != Reached ==> r.0.servos == k.servos
    ensures r.1 == Reached ==> r.0.servos.attached == k.servos.attached
    ensures r.1 == Reached ==> forall i :: 3 * leg <= i < 3 * leg + 3 ==>
      r.0.servos.lastAngles[i].Some? && 0.0 <= r.0.servos.lastAngles[i].value <= 180.0
    ensures forall i :: 0 <= i < ServoController.ServoCount && i / 3 != leg ==>
      r.0.servos.lastAngles[i] == k.servos.lastAngles[i]
  {
    var recorded := k.(footPositions := k.footPositions[leg := (Trunc(pos.x), Trunc(pos.y))],
                       currentPoints := k.currentPoints[leg := pos]);
    if !Reachable(pos) then (recorded, Unreachable)
    else
      match AcosArguments(Hypotenuse(pos, ik.sqrt))
      case None => (recorded, DivisionByZero)
      case Some((c1, c2)) =>
        var theta := ik.solve(pos, k.offsets[leg], c1, c2);
        var angles := [Quantise(theta.x), Quantise(theta.y), Quantise(theta.z)];
        var servos := ServoController.WriteLegServos(k.servos, leg, angles);
        assert forall j :: 0 <= j < 3 ==> Constrain(angles[j], 0.0, 180.0) == angles[j];
        assert forall i :: 3 * leg <= i < 3 * leg + 3 ==> servos.lastAngles[i] == Some(angles[i - 3 * leg]);
        (recorded.(servos := servos), Reached)
  }

  /** The source's own examples: (200, 0, -50) is reachable, (500, 0, 0) is not. */
  lemma ReachabilityExamples()
    ensures Reachable(Vec3(200.0, 0.0, -50.0))
    ensures !Reachable(Vec3(500.0, 0.0, 0.0))
  {
  }

  /** A refused target still becomes the leg's recorded position, so a later
      reader sees a point the servos never reached. */
  lemma UnreachableStillRecorded(k: HexapodKinematics, leg: nat, pos: Vec3, ik: Ik)
    requires k.Valid() && leg < Legs && !Reachable(pos)
    ensures MoveToPos(k, leg, pos, ik).0.currentPoints[leg] == pos
    ensures MoveToPos(k, leg, pos, ik).0.servos == k.servos
  {
  }

  /** Offset vector of every leg: the raw triple plus the base offset. */
  function OffsetsFrom(raw: seq<real>): (r: seq<Vec3>)
    requires |raw| == OffsetCount
    ensures |r| == Legs
    ensures forall i :: 0 <= i < Legs ==>
      r[i] == Vec3(raw[3 * i] + 90.0, raw[3 * i + 1] + 50.0, raw[3 * i + 2] - 10.0)
  {
    seq(Legs, i requires 0 <= i < Legs =>
      Vec3(raw[i * 3] + BaseOffset.x, raw[i * 3 + 1] + BaseOffset.y, raw[i * 3 + 2] + BaseOffset.z))
  }

  /** The inverse of the expansion: subtracting the base offset again. */
  function RawFrom(offsets: seq<Vec3>): (r: seq<real>)
    requires |offsets| == Legs
    ensures |r| == OffsetCount
  {
    seq(OffsetCount, k requires 0 <= k < OffsetCount =>
      var o := offsets[k / 3];
      if k % 3 == 0 then o.x - BaseOffset.x
      else if k % 3 == 1 then o.y - BaseOffset.y
      else o.z - BaseOffset.z)
  }

  /** The expansion loses nothing: the raw table can be read back from it. */
  lemma OffsetsRoundTrip(raw: seq<real>)
    requires |raw| == OffsetCount
    ensures RawFrom(OffsetsFrom(raw)) == raw
  {
    var o := OffsetsFrom(raw);
    forall k | 0 <= k < OffsetCount
      ensures RawFrom(o)[k] == raw[k]
    {
      var i := k / 3;
      assert k == 3 * i + k % 3;
    }
  }

  /** Recompute every leg's offset vector from the raw table; the raw table
      can be read back from the result and nothing else changes. */
  function UpdateOffsetVariables(k: HexapodKinematics): (r: HexapodKinematics)
    requires k.Valid()
    ensures r.Valid()
    ensures forall i :: 0 <= i < Legs ==>
      r.offsets[i] == Vec3(k.rawOffsets[3 * i] + 90.0, k.rawOffsets[3 * i + 1] + 50.0, k.rawOffsets[3 * i + 2] - 10.0)
    ensures RawFrom(r.offsets) == k.rawOffsets
    ensures r.rawOffsets == k.rawOffsets && r.currentPoints == k.currentPoints && r.servos == k.servos
    ensures r.footPositions == k.footPositions
  {
    OffsetsRoundTrip(k.rawOffsets);
    k.(offsets := OffsetsFrom(k.rawOffsets))
  }

  /** A list of any length but 18 is refused and changes nothing; otherwise it
      is stored and expanded. */
  function SetRawOffsets(k: HexapodKinematics, raw: seq<real>): (r: HexapodKinematics)
    requires k.Valid()
    ensures r.Valid()
    ensures |raw| != OffsetCount ==> r == k
    ensures |raw| == OffsetCount ==> r.rawOffsets == raw
    ensures |raw| == OffsetCount ==> forall i :: 0 <= i < Legs ==>
      r.offsets[i] == Vec3(raw[3 * i] + 90.0, raw[3 * i + 1] + 50.0, raw[3 * i + 2] - 10.0)
    ensures r.currentPoints == k.currentPoints && r.servos == k.servos
  {
    if |raw| != OffsetCount then k
    else UpdateOffsetVariables(k.(rawOffsets := raw))
  }

  /** A copy of the raw table; sequences are values, so changing the copy
      cannot reach the stored table. */
  function GetRawOffsets(k: HexapodKinematics): (r: seq<real>)
    requires k.Valid()
    ensures |r| == OffsetCount
    ensures forall i :: 0 <= i < OffsetCount ==> r[i] == k.rawOffsets[i]
  {
    k.rawOffsets
  }

  /** Setting the table and reading it back gives the table set. */
  lemma RawOffsetsRoundTrip(k: HexapodKinematics, raw: seq<real>)
    requires k.Valid() && |raw| == OffsetCount
    ensures GetRawOffsets(SetRawOffsets(k, raw)) == raw
    ensures RawFrom(SetRawOffsets(k, raw).offsets) == raw
  {
    OffsetsRoundTrip(raw);
  }

  /** The leg's recorded position; the zero vector for a leg outside 0..5. */
  function GetCurrentPosition(k: HexapodKinematics, leg: int): (r: Vec3)
    requires k.Valid()
    ensures 0 <= leg < Legs ==> r == k.currentPoints[leg]
    ensures !(0 <= leg < Legs) ==> r == Zero3
  {
    if 0 <= leg < Legs then Copy3(k.currentPoints[leg]) else Zero3
  }

  function GetAllPositions(k: HexapodKinematics): (r: seq<Vec3>)
    requires k.Valid()
    ensures |r| == Legs
    ensures forall i :: 0 <= i < Legs ==> r[i] == k.currentPoints[i]
  {
    seq(Legs, i requires 0 <= i < Legs => Copy3(k.currentPoints[i]))
  }

  /** Overwrite one recorded position; a leg outside 0..5 is ignored. */
  function SetCurrentPosition(k: HexapodKinematics, leg: int, pos: Vec3): (r: HexapodKinematics)
    requires k.Valid()
    ensures r.Valid()
    ensures 0 <= leg < Legs ==> r.currentPoints == k.currentPoints[leg := pos]
    ensures !(0 <= leg < Legs) ==> r == k
    ensures r.servos == k.servos && r.rawOffsets == k.rawOffsets && r.offsets == k.offsets
  {
    if 0 <= leg < Legs then k.(currentPoints := k.currentPoints[leg := Copy3(pos)]) else k
  }

  /** Setting a position and reading it back gives the position set. */
  lemma PositionRoundTrip(k: HexapodKinematics, leg: int, pos: Vec3)
    requires k.Valid() && 0 <= leg < Legs
    ensures GetCurrentPosition(SetCurrentPosition(k, leg, pos), leg) == pos
  {
  }

  /* Sequences of moves ----------------------------------------------------- */

  /** A controller tick issues `move_to_pos` calls one after another; a solver
      division by zero raises and ends the tick. */
  predicate LegsInRange(moves: seq<(nat, Vec3)>)
  {
    forall m :: 0 <= m < |moves| ==> moves[m].0 < Legs
  }

  /** The last target the moves give `leg`, or `otherwise` when none does. */
  function LastTarget(moves: seq<(nat, Vec3)>, leg: nat, otherwise: Vec3): Vec3
  {
    if |moves| == 0 then otherwise
    else if moves[|moves| - 1].0 == leg then moves[|moves| - 1].1
    else LastTarget(moves[..|moves| - 1], leg, otherwise)
  }

  /** Apply the moves in order; the flag says a division by zero cut it short.
      Without one, every leg's recorded position is the last target it was
      given, whether or not the target was reachable. */
  function MoveSequence(k: HexapodKinematics, moves: seq<(nat, Vec3)>, ik: Ik): (r: (HexapodKinematics, bool))
    requires k.Valid() && LegsInRange(moves)
    ensures r.0.Valid()
    ensures r.0.rawOffsets == k.rawOffsets && r.0.offsets == k.offsets
    ensures r.0.servos.attached == k.servos.attached
    ensures !r.1 ==> forall l :: 0 <= l < Legs ==> r.0.currentPoints[l] == LastTarget(moves, l, k.currentPoints[l])
    decreases |moves|
  {
    if |moves| == 0 then (k, false)
    else
      var (k1, crashed) := MoveSequence(k, moves[..|moves| - 1], ik);
      if crashed then (k1, true)
      else
        var (k2, outcome) := MoveToPos(k1, moves[|moves| - 1].0, moves[|moves| - 1].1, ik);
        (k2, outcome == DivisionByZero)
  }

  /** A target the solver fails on: within reach, at zero hypotenuse. */
  predicate Fails(pos: Vec3, ik: Ik)
  {
    Reachable(pos) && Hypotenuse(pos, ik.sqrt) == 0.0
  }

  /** A move sequence is cut short exactly when one of its targets makes the
      solver divide by zero; the first such move raises. */
  lemma {:induction false} MoveSequenceFailsIff(k: HexapodKinematics, moves: seq<(nat, Vec3)>, ik: Ik)
    requires k.Valid() && LegsInRange(moves)
    ensures MoveSequence(k, moves, ik).1 <==> exists m :: 0 <= m < |moves| && Fails(moves[m].1, ik)
    decreases |moves|
  {
    if |moves| > 0 {
      var init := moves[..|moves| - 1];
      MoveSequenceFailsIff(k, init, ik);
      assert forall m :: 0 <= m < |init| ==> init[m] == moves[m];
    }
  }

  /** One move per leg, every leg to `target`, in leg order. */
  function AllLegsTo(target: Vec3): (r: seq<(nat, Vec3)>)
    ensures |r| == Legs && LegsInRange(r)
    ensures forall l :: 0 <= l < Legs ==> r[l] == (l, target)
  {
    seq(Legs, l requires 0 <= l < Legs => (l, target))
  }

  /** Whatever came before, a final move of every leg to `target` leaves every
      leg's last target there. */
  lemma {:induction false} LastTargetAfterAllLegs(before: seq<(nat, Vec3)>, target: Vec3, n: nat, leg: nat, otherwise: Vec3)
    requires leg < n <= Legs
    ensures LastTarget(before + AllLegsTo(target)[..n], leg, otherwise) == target
  {
    var all := AllLegsTo(target);
    var ms := before + all[..n];
    assert ms[|ms| - 1] == (n - 1, target);
    if leg != n - 1 {
      assert ms[..|ms| - 1] == before + all[..n - 1];
      LastTargetAfterAllLegs(before, target, n - 1, leg, otherwise);
    }
  }

  /** When every move names a different leg, a leg's last target is the target
      of its move, or the fallback when it has none. */
  lemma {:induction false} LastTargetOfDistinct(moves: seq<(nat, Vec3)>, leg: nat, otherwise: Vec3)
    requires forall m, n :: 0 <= m < n < |moves| ==> moves[m].0 != moves[n].0
    ensures (forall m :: 0 <= m < |moves| ==> moves[m].0 != leg) ==> LastTarget(moves, leg, otherwise) == otherwise
    ensures forall m :: 0 <= m < |moves| && moves[m].0 == leg ==> LastTarget(moves, leg, otherwise) == moves[m].1
    decreases |moves|
  {
    if |moves| > 0 {
      LastTargetOfDistinct(moves[..|moves| - 1], leg, otherwise);
    }
  }
}

=== FILE: sbus.dfy ===
/** SBUS frames: 25 bytes, a 0x0F start byte, sixteen 11-bit channels packed
    little-endian into bytes 1 to 22, flags in byte 23 and a 0x00 end byte.
    The unpacking is written out channel by channel, with Python's shifts,
    ors and the 0x07FF mask computed on 32-bit vectors (no intermediate value
    exceeds 18 bits, so nothing is lost). */
module Sbus {
  import opened Wrappers

  const FrameLength: nat := 25
  const StartByte: bv8 := 0x0F
  const EndByte: bv8 := 0x00
  const ChannelCount: nat := 16
  const ChannelMax: int := 2047

  /** A frame is accepted only with the right length and both marker bytes. */
  predicate Accepted(data: seq<bv8>)
  {
    |data| == FrameLength && data[0] == StartByte && data[FrameLength - 1] == EndByte
  }

  function B(data: seq<bv8>, i: nat): bv32
    requires i < |data|
  {
    data[i] as bv32
  }

  /** The sixteen channels as the source computes them. */
  function ParseChannels(data: seq<bv8>): (r: seq<bv32>)
    requires |data| == FrameLength
    ensures |r| == ChannelCount
  {
    [ (B(data, 1) | (B(data, 2) << 8)) & 0x07FF,
      ((B(data, 2) >> 3) | (B(data, 3) << 5)) & 0x07FF,
      ((B(data, 3) >> 6) | (B(data, 4) << 2) | (B(data, 5) << 10)) & 0x07FF,
      ((B(data, 5) >> 1) | (B(data, 6) << 7)) & 0x07FF,
      ((B(data, 6) >> 4) | (B(data, 7) << 4)) & 0x07FF,
      ((B(data, 7) >> 7) | (B(data, 8) << 1) | (B(data, 9) << 9)) & 0x07FF,
      ((B(data, 9) >> 2) | (B(data, 10) << 6)) & 0x07FF,
      ((B(data, 10) >> 5) | (B(data, 11) << 3)) & 0x07FF,
      (B(data, 12) | (B(data, 13) << 8)) & 0x07FF,
      ((B(data, 13) >> 3) | (B(data, 14) << 5)) & 0x07FF,
      ((B(data, 14) >> 6) | (B(data, 15) << 2) | (B(data, 16) << 10)) & 0x07FF,
      ((B(data, 16) >> 1) | (B(data, 17) << 7)) & 0x07FF,
      ((B(data, 17) >> 4) | (B(data, 18) << 4)) & 0x07FF,
      ((B(data, 18) >> 7) | (B(data, 19) << 1) | (B(data, 20) << 9)) & 0x07FF,
      ((B(data, 20) >> 2) | (B(data, 21) << 6)) & 0x07FF,
      ((B(data, 21) >> 5) | (B(data, 22) << 3)) & 0x07FF ]
  }

  /** Channel `k` by the packing rule itself: its 11 bits start at bit 11k of
      the little-endian payload, that is at bit (11k mod 8) of payload byte
      11k div 8, and span at most three bytes, read here little-endian. */
  function ChannelBits(data: seq<bv8>, k: nat): (r: bv32)
    requires |data| == FrameLength && k < ChannelCount
    ensures r <= 0x07FF
  {
    var first := 1 + 11 * k / 8;
    var window := B(data, first) | (B(data, first + 1) << 8) | (B(data, first + 2) << 16);
    (window >> ((11 * k) % 8)) & 0x07FF
  }

  /** Channels 0 and 1 (payload bytes 1 to 3). */
  lemma Pair0Matches(data: seq<bv8>)
    requires |data| == FrameLength
    ensures ParseChannels(data)[0] == ChannelBits(data, 0)
    ensures ParseChannels(data)[1] == ChannelBits(data, 1)
  {
    var r := ParseChannels(data);
    assert r[0] == ChannelBits(data, 0);
    assert r[1] == ChannelBits(data, 1);
  }

  /** Channels 2 and 3 (payload bytes 3 to 6). */
  lemma Pair1Matches(data: seq<bv8>)
    requires |data| == FrameLength
    ensures ParseChannels(data)[2] == ChannelBits(data, 2)
    ensures ParseChannels(data)[3] == ChannelBits(data, 3)
  {
    var r := ParseChannels(data);
    assert r[2] == ChannelBits(data, 2);
    assert r[3] == ChannelBits(data, 3);
  }

  /** Channels 4 and 5 (payload bytes 6 to 9). */
  lemma Pair2Matches(data: seq<bv8>)
    requires |data| == FrameLength
    ensures ParseChannels(data)[4] == ChannelBits(data, 4)
    ensures ParseChannels(data)[5] == ChannelBits(data, 5)
  {
    var r := ParseChannels(data);
    assert r[4] == ChannelBits(data, 4);
    assert r[5] == ChannelBits(data, 5);
  }

  /** Channels 6 and 7 (payload bytes 9 to 11). */
  lemma Pair3Matches(data: seq<bv8>)
    requires |data| == FrameLength
    ensures ParseChannels(data)[6] == ChannelBits(data, 6)
    ensures ParseChannels(data)[7] == ChannelBits(data, 7)
  {
    var r := ParseChannels(data);
    assert r[6] == ChannelBits(data, 6);
    assert r[7] == ChannelBits(data, 7);
  }

  /** Channels 8 and 9 (payload bytes 12 to 14). */
  lemma Pair4Matches(data: seq<bv8>)
    requires |data| == FrameLength
    ensures ParseChannels(data)[8] == ChannelBits(data, 8)
    ensures ParseChannels(data)[9] == ChannelBits(data, 9)
  {
    var r := ParseChannels(data);
    assert r[8] == ChannelBits(data, 8);
    assert r[9] == ChannelBits(data, 9);
  }

  /** Channels 10 and 11 (payload bytes 14 to 17). */
  lemma Pair5Matches(data: seq<bv8>)
    requires |data| == FrameLength
    ensures ParseChannels(data)[10] == ChannelBits(data, 10)
    ensures ParseChannels(data)[11] == ChannelBits(data, 11)
  {
    var r := ParseChannels(data);
    assert r[10] == ChannelBits(data, 10);
    assert r[11] == ChannelBits(data, 11);
  }

  /** Channels 12 and 13 (payload bytes 17 to 20). */
  lemma Pair6Matches(data: seq<bv8>)
    requires |data| == FrameLength
    ensures ParseChannels(data)[12] == ChannelBits(data, 12)
    ensures ParseChannels(data)[13] == ChannelBits(data, 13)
  {
    var r := ParseChannels(data);
    assert r[12] == ChannelBits(data, 12);
    assert r[13] == ChannelBits(data, 13);
  }

  /** Channels 14 and 15 (payload bytes 20 to 22). */
  lemma Pair7Matches(data: seq<bv8>)
    requires |data| == FrameLength
    ensures ParseChannels(data)[14] == ChannelBits(data, 14)
    ensures ParseChannels(data)[15] == ChannelBits(data, 15)
  {
    var r := ParseChannels(data);
    assert r[14] == ChannelBits(data, 14);
    assert r[15] == ChannelBits(data, 15);
  }

  /** Every hand-written channel is the packing rule's channel. */
  lemma ParseMatchesPacking(data: seq<bv8>)
    requires |data| == FrameLength
    ensures forall k :: 0 <= k < ChannelCount ==> ParseChannels(data)[k] == ChannelBits(data, k)
  {
    Pair0Matches(data);
    Pair1Matches(data);
    Pair2Matches(data);
    Pair3Matches(data);
    Pair4Matches(data);
    Pair5Matches(data);
    Pair6Matches(data);
    Pair7Matches(data);
  }

  /** The channels as integers, each in [0, 2047]. */
  function Channels(data: seq<bv8>): (r: seq<int>)
    requires |data| == FrameLength
    ensures |r| == ChannelCount
    ensures forall k :: 0 <= k < ChannelCount ==> 0 <= r[k] <= ChannelMax
    ensures forall k :: 0 <= k < ChannelCount ==> r[k] == ChannelBits(data, k) as int
  {
    var c := ParseChannels(data);
    ParseMatchesPacking(data);
    seq(ChannelCount, k requires 0 <= k < ChannelCount => c[k] as int)
  }

  /** Read a frame: the channels of an accepted frame, otherwise nothing. */
  function ReadFrame(data: seq<bv8>): (r: Option<seq<int>>)
    ensures r.Some? <==> Accepted(data)
    ensures r.Some? ==> |r.value| == ChannelCount && r.value == Channels(data)
  {
    if Accepted(data) then Some(Channels(data)) else None
  }
}

=== FILE: servo_controller.dfy ===
/** The 18-servo driver: angle clamping, the last-written-angle cache, the
    board/channel plumbing of the two PCA9685 boards and the attach flag. The
    ServoKit hardware writes are kept as a log of `Write` records. */
module ServoController {
  import opened Wrappers
  import opened Helpers
  import Config

  const ServoCount: nat := 18

  /** One hardware write: board number (1 or 2), channel, angle. */
  datatype Write = Write(board: int, channel: int, angle: real)

  datatype Servos = Servos(attached: bool, lastAngles: seq<Option<real>>, writes: seq<Write>)
  {
    ghost predicate Valid() { |lastAngles| == ServoCount }
  }

  /** Freshly constructed: detached, nothing cached, nothing written. */
  function Init(): (s: Servos)
    ensures s.Valid() && !s.attached && s.writes == []
    ensures forall i :: 0 <= i < ServoCount ==> s.lastAngles[i] == None
  {
    Servos(false, seq(ServoCount, _ => None), [])
  }

  /** Servos 0..14 live on board 1 at the same channel, 15.. on board 2. */
  function BoardAndChannel(index: int): (bc: (int, int))
    ensures index < 15 ==> bc.0 == 1 && bc.1 == index
    ensures index >= 15 ==> bc.0 == 2 && bc.1 + 15 == index
  {
    if index < 15 then (1, index) else (2, index - 15)
  }

  /** Distinct servos land on distinct (board, channel) pairs, and every pair is
      the one the configuration table names for that servo. */
  lemma BoardAndChannelInjective(i: int, j: int)
    requires 0 <= i < ServoCount && 0 <= j < ServoCount && i != j
    ensures BoardAndChannel(i) != BoardAndChannel(j)
  {
  }

  lemma BoardAndChannelMatchesConfig(i: int)
    requires 0 <= i < ServoCount
    ensures 0 <= BoardAndChannel(i).1 < 16
    ensures var (board, channel) := BoardAndChannel(i);
      Config.ServoChannels[Config.ServoIndexMap[i]]
        == (if board == 1 then Config.Pca9685Address1 else Config.Pca9685Address2, channel)
  {
    Config.ServoChannelLayout();
  }

  function ServoIndex(leg: int, joint: int): int
  {
    leg * 3 + joint
  }

  /** The coxa, femur and tibia servos of a leg, in that order. */
  function LegServoIndices(leg: int): (r: seq<int>)
    ensures |r| == 3
    ensures forall j :: 0 <= j < 3 ==> r[j] == ServoIndex(leg, j)
  {
    var base := leg * 3;
    [base, base + 1, base + 2]
  }

  /** The servo index of a joint belongs to exactly one leg and joint. */
  lemma ServoIndexBijective(leg: int, joint: int)
    requires 0 <= leg < 6 && 0 <= joint < 3
    ensures 0 <= ServoIndex(leg, joint) < ServoCount
    ensures ServoIndex(leg, joint) / 3 == leg && ServoIndex(leg, joint) % 3 == joint
  {
  }

  /** Clamp to [0, 180]; skip the write when the clamped angle equals the cached
      one, otherwise write it and cache it. The attach flag is not consulted. */
  function WriteAngle(s: Servos, index: int, angle: real): (r: Servos)
    requires s.Valid() && 0 <= index < ServoCount
    ensures r.Valid() && r.attached == s.attached
    ensures r.lastAngles == s.lastAngles[index := Some(Constrain(angle, 0.0, 180.0))]
    ensures s.lastAngles[index] == Some(Constrain(angle, 0.0, 180.0)) <==> r.writes == s.writes
    ensures r.writes == s.writes || r.writes == s.writes + [Write(BoardAndChannel(index).0, BoardAndChannel(index).1, Constrain(angle, 0.0, 180.0))]
  {
    var a := Constrain(angle, 0.0, 180.0);
    if s.lastAngles[index] == Some(a) then s
    else
      var (board, channel) := BoardAndChannel(index);
      s.(writes := s.writes + [Write(board, channel, a)], lastAngles := s.lastAngles[index := Some(a)])
  }

  /** Every written angle lies in [0, 180]. */
  lemma WriteAngleInRange(s: Servos, index: int, angle: real)
    requires s.Valid() && 0 <= index < ServoCount
    requires forall k :: 0 <= k < |s.writes| ==> 0.0 <= s.writes[k].angle <= 180.0
    ensures var r := WriteAngle(s, index, angle);
      forall k :: 0 <= k < |r.writes| ==> 0.0 <= r.writes[k].angle <= 180.0
  {
  }

  /** Writing the same angle twice writes once. */
  lemma WriteAngleIdempotent(s: Servos, index: int, angle: real)
    requires s.Valid() && 0 <= index < ServoCount
    ensures WriteAngle(WriteAngle(s, index, angle), index, angle) == WriteAngle(s, index, angle)
  {
  }

  /** Map a pulse width linearly, 500 us to 0 degrees and 2500 us to 180, clamp,
      and write the angle. */
  function WriteMicroseconds(s: Servos, index: int, us: real): (r: Servos)
    requires s.Valid() && 0 <= index < ServoCount
    ensures us == 500.0 ==> r == WriteAngle(s, index, 0.0)
    ensures us == 2500.0 ==> r == WriteAngle(s, index, 180.0)
    ensures 500.0 <= us <= 2500.0 ==> r == WriteAngle(s, index, (us - 500.0) * 0.09)
  {
    var angle := (us - 500.0) / 2000.0 * 180.0;
    WriteAngle(s, index, Constrain(angle, 0.0, 180.0))
  }

  /** Write the given angles to the leg's servos in order; the source indexes
      the three-element index list, so at most three angles are allowed. */
  function WriteLegServos(s: Servos, leg: int, angles: seq<real>): (r: Servos)
    requires s.Valid() && 0 <= leg < 6 && |angles| <= 3
    ensures r.Valid() && r.attached == s.attached
    ensures forall j :: 0 <= j < |angles| ==> r.lastAngles[3 * leg + j] == Some(Constrain(angles[j], 0.0, 180.0))
    ensures forall k :: 0 <= k < ServoCount && !(3 * leg <= k < 3 * leg + |angles|) ==> r.lastAngles[k] == s.lastAngles[k]
    decreases |angles|
  {
    if |angles| == 0 then s
    else
      var j := |angles| - 1;
      WriteAngle(WriteLegServos(s, leg, angles[..j]), LegServoIndices(leg)[j], angles[j])
  }

  /** Attach: when not attached, command every servo to 90 degrees, then set
      the flag; when attached, nothing happens. */
  function AttachServos(s: Servos): (r: Servos)
    requires s.Valid()
    ensures r.Valid() && r.attached
    ensures s.attached ==> r == s
    ensures !s.attached ==> forall i :: 0 <= i < ServoCount ==> r.lastAngles[i] == Some(90.0)
  {
    if s.attached then s
    else WriteAllNeutral(s, ServoCount).(attached := true)
  }

  function WriteAllNeutral(s: Servos, n: nat): (r: Servos)
    requires s.Valid() && n <= ServoCount
    ensures r.Valid() && r.attached == s.attached
    ensures forall i :: 0 <= i < n ==> r.lastAngles[i] == Some(90.0)
    ensures forall i :: n <= i < ServoCount ==> r.lastAngles[i] == s.lastAngles[i]
  {
    if n == 0 then s else WriteAngle(WriteAllNeutral(s, n - 1), n - 1, 90.0)
  }

  /** Detach only clears the flag; when already detached nothing happens. */
  function DetachServos(s: Servos): (r: Servos)
    ensures !r.attached
    ensures r.lastAngles == s.lastAngles && r.writes == s.writes
  {
    if !s.attached then s else s.(attached := false)
  }

  /** Cleanup leaves the servos detached. */
  function Cleanup(s: Servos): (r: Servos)
    ensures !r.attached
    ensures r.lastAngles == s.lastAngles && r.writes == s.writes
  {
    if s.attached then DetachServos(s) else s
  }

  /** Attaching or detaching twice is the same as doing it once. */
  lemma AttachDetachIdempotent(s: Servos)
    requires s.Valid()
    ensures AttachServos(AttachServos(s)) == AttachServos(s)
    ensures DetachServos(DetachServos(s)) == DetachServos(s)
    ensures Cleanup(Cleanup(s)) == Cleanup(s)
  {
  }
}

=== FILE: sleep.dfy ===
/** The sleep controller: phase 1 eases every foot toward the folded pose,
    phase 2 detaches the servos, phase 3 is asleep; waking reattaches them.

    Phase 1 ends when every leg's recorded position is the pose. The source
    compares vector objects, which have no value equality, so a freshly
    computed position is never "the pose" and phase 1 never ends; the model
    uses value equality (`Update`) and keeps the comparison as written
    (`UpdateAsWritten`) beside it. */
module Sleep {
  import opened Wrappers
  import opened Vectors
  import opened Helpers
  import ServoController
  import K = Kinematics

  const Legs: nat := 6
  /** The folded pose. */
  const Target: Vec3 := Vec3(130.0, 0.0, -46.0)
  /** Fraction of the remaining gap covered per tick. */
  const Ease: real := 0.03
  /** The share of the gap left after one tick. */
  const Keep: real := 1.0 - Ease

  datatype SleepState = SleepState(phase: int, initialized: bool, servosDetached: bool)

  /** The new state, the kinematics (with the servos inside), whether the
      robot reports asleep, and whether a solver division by zero cut the
      tick short. */
  datatype SleepResult = SleepResult(state: SleepState, kin: K.HexapodKinematics, asleep: bool, crashed: bool)

  function Init(): (s: SleepState)
    ensures s.phase == 1 && !s.initialized && !s.servosDetached
  {
    SleepState(1, false, false)
  }

  /* ----------------------------------------------------------------------- */
  /* Phase 1 motion                                                            */
  /* ----------------------------------------------------------------------- */

  /** One axis: 3% of the way toward the target, or onto it when the gap is
      under 1. */
  function EaseAxis(c: real, t: real): (r: real)
    ensures Abs(t - c) < 1.0 ==> r == t
    ensures Abs(t - c) >= 1.0 ==> Abs(t - r) == Keep * Abs(t - c)
    ensures Abs(t - r) <= Abs(t - c)
    ensures c <= t ==> c <= r <= t
    ensures c >= t ==> t <= r <= c
  {
    if Abs(c - t) < 1.0 then t else Lerp(c, t, Ease)
  }

  function EasePoint(p: Vec3): Vec3
  {
    Vec3(EaseAxis(p.x, Target.x), EaseAxis(p.y, Target.y), EaseAxis(p.z, Target.z))
  }

  /** A foot that is on the pose stays there. */
  lemma EasePointFixed()
    ensures EasePoint(Target) == Target
  {
  }

  /** `n` ticks of easing on one axis. */
  function EaseIter(c: real, t: real, n: nat): real
    decreases n
  {
    if n == 0 then c else EaseIter(EaseAxis(c, t), t, n - 1)
  }

  /** The largest gap that easing closes within n + 1 ticks: 1, then growing
      by 1 / 0.97 per extra tick. */
  function Reach(n: nat): (r: real)
    ensures r >= 1.0
  {
    if n == 0 then 1.0 else Reach(n - 1) * 100.0 / 97.0
  }

  /** Easing terminates: the gap shrinks by 3% per tick until it is under 1
      and then snaps, so a gap under `Reach(n)` is closed after n + 1 ticks. */
  lemma {:induction false} EaseAxisConverges(c: real, t: real, n: nat)
    requires Abs(t - c) < Reach(n)
    ensures EaseIter(c, t, n + 1) == t
    decreases n
  {
    var c1 := EaseAxis(c, t);
    if n > 0 {
      assert Abs(t - c1) < Reach(n - 1);
      EaseAxisConverges(c1, t, n - 1);
      assert EaseIter(c, t, n + 1) == EaseIter(c1, t, n);
    }
  }

  /* ----------------------------------------------------------------------- */
  /* One tick                                                                  */
  /* ----------------------------------------------------------------------- */

  /** The eased position of every leg, in leg order. */
  function EaseMoves(pts: seq<Vec3>): (r: seq<(nat, Vec3)>)
    requires |pts| == Legs
    ensures |r| == Legs && K.LegsInRange(r)
    ensures forall l :: 0 <= l < Legs ==> r[l] == (l, EasePoint(pts[l]))
  {
    seq(Legs, l requires 0 <= l < Legs => (l, EasePoint(pts[l])))
  }

  /** Phase 1 of the tick: move every leg, then compare each leg's recorded
      position with the pose using `same`; when all compare equal, go to
      phase 2. Always reports not asleep. */
  function EaseTick(s: SleepState, k: K.HexapodKinematics, ik: K.Ik, same: (Vec3, Vec3) -> bool): (r: SleepResult)
    requires k.Valid() && s.phase == 1
    ensures r.kin.Valid() && !r.asleep
    ensures r.kin.servos.attached == k.servos.attached
    ensures !r.crashed ==> forall l :: 0 <= l < Legs ==> r.kin.currentPoints[l] == EasePoint(k.currentPoints[l])
    ensures !r.crashed ==> r.state == s.(phase := if forall l :: 0 <= l < Legs ==> same(r.kin.currentPoints[l], Target) then 2 else 1)
    ensures r.crashed ==> r.state == s
  {
    var moves := EaseMoves(k.currentPoints);
    var (k1, crashed) := K.MoveSequence(k, moves, ik);
    assert !crashed ==> forall l :: 0 <= l < Legs ==> k1.currentPoints[l] == EasePoint(k.currentPoints[l]) by {
      forall l | 0 <= l < Legs
        ensures K.LastTarget(moves, l, k.currentPoints[l]) == EasePoint(k.currentPoints[l])
      {
        K.LastTargetOfDistinct(moves, l, k.currentPoints[l]);
      }
    }
    if crashed then SleepResult(s, k1, false, true)
    else
      var reached := forall l :: 0 <= l < Legs ==> same(k1.currentPoints[l], Target);
      SleepResult(s.(phase := if reached then 2 else 1), k1, false, false)
  }

  /** The tick with the leg-at-pose test passed in. */
  function Tick(s: SleepState, k: K.HexapodKinematics, ik: K.Ik, same: (Vec3, Vec3) -> bool): (r: SleepResult)
    requires k.Valid()
    ensures r.kin.Valid() && r.state.initialized
    ensures !k.servos.attached ==> r.asleep && r.kin == k
    ensures r.kin.rawOffsets == k.rawOffsets
  {
    var s1 := if !s.initialized then s.(initialized := true, phase := 1, servosDetached := false) else s;
    if !k.servos.attached then SleepResult(s1, k, true, false)
    else if s1.phase == 1 then EaseTick(s1, k, ik, same)
    else if s1.phase == 2 then
      SleepResult(s1.(servosDetached := true, phase := 3), k.(servos := ServoController.DetachServos(k.servos)), true, false)
    else SleepResult(s1, k, s1.phase == 3, false)
  }

  /** Vector objects are equal only when they are the same object. A position
      computed this tick is a new object, so it is never the pose object. */
  function SameObject(a: Vec3, b: Vec3): bool
  {
    false
  }

  /** The tick as written: the phase 1 test compares objects. */
  function UpdateAsWritten(s: SleepState, k: K.HexapodKinematics, ik: K.Ik): (r: SleepResult)
    requires k.Valid()
    ensures r.kin.Valid() && r.state.initialized
    ensures k.servos.attached && (s.phase == 1 || !s.initialized) ==> r.state.phase == 1 && !r.asleep
  {
    Tick(s, k, ik, SameObject)
  }

  /** The tick with the intended value comparison; this is the one the rest of
      the model uses. */
  function Update(s: SleepState, k: K.HexapodKinematics, ik: K.Ik): (r: SleepResult)
    requires k.Valid()
    ensures r.kin.Valid() && r.state.initialized
    ensures !k.servos.attached ==> r.asleep && r.kin == k
    ensures k.servos.attached && (s.phase == 1 || !s.initialized) ==>
      !r.asleep && r.kin.servos.attached
      && (!r.crashed ==> forall l :: 0 <= l < Legs ==> r.kin.currentPoints[l] == EasePoint(k.currentPoints[l]))
      && (!r.crashed ==> (r.state.phase == 2 <==> forall l :: 0 <= l < Legs ==> EasePoint(k.currentPoints[l]) == Target))
      && (!r.crashed ==> r.state.phase == 1 || r.state.phase == 2)
    ensures k.servos.attached && s.initialized && s.phase == 2 ==>
      r.asleep && !r.kin.servos.attached && r.state.servosDetached && r.state.phase == 3
      && r.kin.currentPoints == k.currentPoints
    ensures k.servos.attached && s.initialized && s.phase == 3 ==> r.asleep && r.state == s && r.kin == k
  {
    Tick(s, k, ik, (a: Vec3, b: Vec3) => a == b)
  }

  /** With every foot on the pose and the servos attached, the intended tick
      moves on to phase 2 while the tick as written stays in phase 1, and
      does so on every later tick too. */
  lemma ObjectComparisonNeverFinishes(s: SleepState, k: K.HexapodKinematics, ik: K.Ik)
    requires k.Valid() && k.servos.attached && s.initialized && s.phase == 1
    requires forall l :: 0 <= l < Legs ==> k.currentPoints[l] == Target
    ensures !Update(s, k, ik).crashed ==> Update(s, k, ik).state.phase == 2
    ensures UpdateAsWritten(s, k, ik).state.phase == 1
  {
    EasePointFixed();
  }

  /* ----------------------------------------------------------------------- */
  /* Waking and the other entry points                                         */
  /* ----------------------------------------------------------------------- */

  /** Reattach only when this controller detached the servos. */
  function WakeUp(s: SleepState, k: K.HexapodKinematics): (r: (SleepState, K.HexapodKinematics, bool))
    requires k.Valid()
    ensures r.1.Valid() && !r.0.servosDetached
    ensures r.2 <==> s.servosDetached
    ensures s.servosDetached ==> r.1.servos == ServoController.AttachServos(k.servos) && r.1.servos.attached
    ensures !s.servosDetached ==> r.0 == s && r.1 == k
    ensures r.0.phase == s.phase && r.1.currentPoints == k.currentPoints
  {
    if s.servosDetached then
      (s.(servosDetached := false), k.(servos := ServoController.AttachServos(k.servos)), true)
    else (s, k, false)
  }

  predicate IsSleeping(s: SleepState)
  {
    s.phase == 3 && s.servosDetached
  }

  /** Back to phase 1 for the next sleep; the detached flag is kept until a
      wake-up. */
  function ResetState(s: SleepState): (r: SleepState)
    ensures !r.initialized && r.phase == 1 && r.servosDetached == s.servosDetached
    ensures !IsSleeping(r)
  {
    s.(initialized := false, phase := 1)
  }

  /** A fresh controller; without animation the servos are detached at once
      and it starts asleep. */
  function EnterSleepMode(k: K.HexapodKinematics, smooth: bool): (r: (SleepState, K.HexapodKinematics))
    requires k.Valid()
    ensures r.1.Valid() && r.1.currentPoints == k.currentPoints
    ensures smooth ==> r == (Init(), k)
    ensures !smooth ==> IsSleeping(r.0) && !r.1.servos.attached
  {
    if smooth then (Init(), k)
    else (Init().(phase := 3, servosDetached := true), k.(servos := ServoController.DetachServos(k.servos)))
  }

  /** The immediate sleep leaves the controller uninitialised, so its first
      tick resets the detached flag: it still reports asleep, but a wake-up
      then does not reattach the servos. */
  lemma ImmediateSleepForgetsDetached(k: K.HexapodKinematics, ik: K.Ik)
    requires k.Valid()
    ensures var (s, k1) := EnterSleepMode(k, false);
      var r := Update(s, k1, ik);
      r.asleep && !r.state.servosDetached && !WakeUp(r.state, r.kin).2
  {
  }

  /** The full cycle with attached servos: phase 2 detaches and reports asleep,
      after which the controller is sleeping and a wake-up reattaches. */
  lemma DetachThenWake(s: SleepState, k: K.HexapodKinematics, ik: K.Ik)
    requires k.Valid() && k.servos.attached && s.initialized && s.phase == 2
    ensures var r := Update(s, k, ik);
      IsSleeping(r.state) && WakeUp(r.state, r.kin).2 && WakeUp(r.state, r.kin).1.servos.attached
  {
  }
}

=== FILE: standing.dfy ===
/** The standing controller: on its first tick it snapshots the six recorded
    foot positions and builds one three-point curve per leg through a lifted
    in-between point to the standing pose; then, 20 points per tick, it moves
    either all legs or the three highest legs along their curves, and every
    tick ends by commanding all six legs to the standing pose. */
module Standing {
  import opened Wrappers
  import opened Vectors
  import opened Helpers
  import opened Config
  import K = Kinematics

  const Legs: nat := 6
  const Slots: nat := 3
  /** Progress added per tick while transitioning. */
  const ProgressStep: int := 20

  datatype StandingState = StandingState(
    controlPoints: seq<seq<Vec3>>,
    startPoints: seq<Vec3>,
    inBetweenPoints: seq<Vec3>,
    endPoint: Vec3,
    currentLegs: seq<int>,
    standLoops: int,
    standProgress: int,
    distanceFromGround: real,
    initialized: bool)
  {
    ghost predicate Valid() {
      |controlPoints| == Legs && (forall i :: 0 <= i < Legs ==> |controlPoints[i]| == 3)
      && |startPoints| == Legs && |inBetweenPoints| == Legs
      && |currentLegs| == Slots && (forall j :: 0 <= j < Slots ==> -1 <= currentLegs[j] < Legs)
      && 0 <= standLoops <= 2 && 0 <= standProgress
    }
  }

  /** What one tick produced: the new state, the kinematics after the moves,
      whether standing is complete, and whether a solver division by zero cut
      the tick short. */
  datatype StandResult = StandResult(state: StandingState, kin: K.HexapodKinematics, done: bool, crashed: bool)

  function Init(): (s: StandingState)
    ensures s.Valid() && !s.initialized && s.standLoops == 0 && s.standProgress == 0
    ensures forall j :: 0 <= j < Slots ==> s.currentLegs[j] == -1
    ensures s.distanceFromGround == DistanceFromGroundBase
  {
    StandingState(seq(Legs, _ => [Zero3, Zero3, Zero3]), seq(Legs, _ => Zero3), seq(Legs, _ => Zero3), Zero3,
      [-1, -1, -1], 0, 0, DistanceFromGroundBase, false)
  }

  /* ----------------------------------------------------------------------- */
  /* The three highest legs                                                    */
  /* ----------------------------------------------------------------------- */

  /** A leg counts as already standing when it is closer than 5 to the pose;
      compared squared. */
  predicate FarFromEnd(pts: seq<Vec3>, end: Vec3, i: nat)
    requires i < |pts|
  {
    DistSq3(pts[i], end) >= 25.0
  }

  predicate Eligible(pts: seq<Vec3>, end: Vec3, taken: seq<int>, i: nat)
    requires i < |pts|
  {
    i !in taken && FarFromEnd(pts, end, i)
  }

  /** `best` is an eligible leg whose z no eligible leg below `n` exceeds, and
      which every eligible leg before it is strictly lower than. */
  predicate Highest(pts: seq<Vec3>, end: Vec3, taken: seq<int>, best: nat, n: nat)
    requires best < |pts| && n <= |pts|
  {
    Eligible(pts, end, taken, best)
    && (forall e :: 0 <= e < n && Eligible(pts, end, taken, e) ==> pts[e].z <= pts[best].z)
    && (forall e :: 0 <= e < best && Eligible(pts, end, taken, e) ==> pts[e].z < pts[best].z)
  }

  /** Fill one slot: scan the legs from `i`, keeping the highest eligible one
      seen so far; a later leg replaces it only when strictly higher. */
  function ScanSlot(pts: seq<Vec3>, end: Vec3, taken: seq<int>, i: nat, best: int): (r: int)
    requires |pts| == Legs && i <= Legs
    requires best == -1 ==> forall e :: 0 <= e < i ==> !Eligible(pts, end, taken, e)
    requires best != -1 ==> 0 <= best < i && Highest(pts, end, taken, best, i)
    ensures r == -1 <==> forall e :: 0 <= e < Legs ==> !Eligible(pts, end, taken, e)
    ensures r != -1 ==> 0 <= r < Legs && Highest(pts, end, taken, r, Legs)
    decreases Legs - i
  {
    if i == Legs then best
    else if Eligible(pts, end, taken, i) && (best == -1 || pts[i].z > pts[best].z) then
      ScanSlot(pts, end, taken, i + 1, i)
    else
      ScanSlot(pts, end, taken, i + 1, best)
  }

  /** The three slots, each filled by a scan that skips the legs chosen for
      the earlier slots. */
  function SelectHighest(pts: seq<Vec3>, end: Vec3): (r: seq<int>)
    requires |pts| == Legs
    ensures |r| == Slots
    ensures forall j :: 0 <= j < Slots ==> r[j] == ScanSlot(pts, end, r[..j], 0, -1)
  {
    var s0 := ScanSlot(pts, end, [], 0, -1);
    var s1 := ScanSlot(pts, end, [s0], 0, -1);
    var s2 := ScanSlot(pts, end, [s0, s1], 0, -1);
    var r := [s0, s1, s2];
    assert r[..0] == [] && r[..1] == [s0] && r[..2] == [s0, s1];
    r
  }

  /** A scan from the first leg picks a leg at least 5 from the pose that is
      not already taken, of maximal height among such legs, the lowest-numbered
      one on a tie; it gives -1 exactly when every such leg is taken. */
  lemma ScanFromFirstLeg(pts: seq<Vec3>, end: Vec3, taken: seq<int>)
    requires |pts| == Legs
    ensures var r := ScanSlot(pts, end, taken, 0, -1);
      && -1 <= r < Legs
      && (r != -1 ==> FarFromEnd(pts, end, r) && r !in taken)
      && (r == -1 <==> forall e :: 0 <= e < Legs && FarFromEnd(pts, end, e) ==> e in taken)
      && (r != -1 ==> forall e :: 0 <= e < Legs && FarFromEnd(pts, end, e) && e !in taken ==>
            pts[e].z <= pts[r].z && (e < r ==> pts[e].z < pts[r].z))
  {
    var r := ScanSlot(pts, end, taken, 0, -1);
    if r != -1 {
      assert Highest(pts, end, taken, r, Legs);
    } else {
      assert forall e :: 0 <= e < Legs ==> !Eligible(pts, end, taken, e);
    }
  }

  /** Slot `j` holds a leg at least 5 from the pose that no earlier slot holds,
      of maximal height among such legs, the lowest-numbered one on a tie; it
      is -1 exactly when every leg at least 5 from the pose is already taken. */
  lemma SelectHighestSlot(pts: seq<Vec3>, end: Vec3, j: nat)
    requires |pts| == Legs && j < Slots
    ensures var r := SelectHighest(pts, end);
      && -1 <= r[j] < Legs
      && (r[j] != -1 ==> FarFromEnd(pts, end, r[j]) && r[j] !in r[..j])
      && (r[j] == -1 <==> forall e :: 0 <= e < Legs && FarFromEnd(pts, end, e) ==> e in r[..j])
      && (r[j] != -1 ==> forall e :: 0 <= e < Legs && FarFromEnd(pts, end, e) && e !in r[..j] ==>
            pts[e].z <= pts[r[j]].z && (e < r[j] ==> pts[e].z < pts[r[j]].z))
  {
    var r := SelectHighest(pts, end);
    ScanFromFirstLeg(pts, end, r[..j]);
  }

  /** No leg is chosen twice. */
  lemma SelectHighestDistinct(pts: seq<Vec3>, end: Vec3, a: nat, b: nat)
    requires |pts| == Legs && a < b < Slots
    ensures var r := SelectHighest(pts, end);
      r[a] != -1 ==> r[a] != r[b]
  {
    var r := SelectHighest(pts, end);
    SelectHighestSlot(pts, end, b);
    assert r[a] in r[..b];
  }

  /** Empty slots come last: once a slot is -1, so is every later one. */
  lemma SelectHighestEmptyTail(pts: seq<Vec3>, end: Vec3, a: nat, b: nat)
    requires |pts| == Legs && a < b < Slots
    ensures var r := SelectHighest(pts, end);
      r[a] == -1 ==> r[b] == -1
  {
    var r := SelectHighest(pts, end);
    SelectHighestSlot(pts, end, a);
    SelectHighestSlot(pts, end, b);
    if r[a] == -1 {
      forall e | 0 <= e < Legs && FarFromEnd(pts, end, e)
        ensures e in r[..b]
      {
        assert e in r[..a];
        assert r[..a] <= r[..b];
      }
    }
  }

  /* ----------------------------------------------------------------------- */
  /* Initialisation                                                            */
  /* ----------------------------------------------------------------------- */

  /** Leaving these states moves all legs at once on the first tick. */
  predicate AllAtOnceAfter(from: State)
  {
    from in {Calibrate, Initialize, SlamAttack, Sleep, Attach}
  }

  /** Leaving these states also adds the extra lift. */
  predicate HighLiftAfter(from: State)
  {
    from in {SlamAttack, Sleep}
  }

  /** The midpoint of the curve: x and y are the start and end summed and
      divided by 1.5, z is their average, lifted by 70 when that average is
      within 50 of the end height and by a further 80 under high lift. */
  function InBetween(start: Vec3, end: Vec3, highLift: bool): (r: Vec3)
    ensures r.x * 1.5 - end.x == start.x && r.y * 1.5 - end.y == start.y
    ensures r.z - (start.z + end.z) / 2.0 in {0.0, 70.0, 80.0, 150.0}
    ensures highLift <==> r.z - (start.z + end.z) / 2.0 >= 80.0
    ensures !highLift ==> r.z - end.z > 20.0 || r.z - end.z <= -50.0
    ensures Abs((start.z + end.z) / 2.0 - end.z) < 50.0 <==> r.z - (start.z + end.z) / 2.0 in {70.0, 150.0}
  {
    var z := (start.z + end.z) / 2.0;
    var lifted := if Abs(z - end.z) < 50.0 then z + 70.0 else z;
    Vec3((start.x + end.x) / 1.5, (start.y + end.y) / 1.5, if highLift then lifted + 80.0 else lifted)
  }

  /** The first tick after a reset: counters to zero, the transition mode from
      the previous state, the three highest legs when not moving all at once,
      and for every leg the curve start, in-between and end points. Returns
      the state and the effective all-at-once flag. */
  function Initialise(s: StandingState, pts: seq<Vec3>, from: State, moveAll: bool, highLift: bool)
    : (r: (StandingState, bool))
    requires s.Valid() && |pts| == Legs
    ensures r.0.Valid() && r.0.initialized && r.0.standLoops == 0 && r.0.standProgress == 0
    ensures r.1 <==> moveAll || AllAtOnceAfter(from)
    ensures !r.1 ==> r.0.currentLegs == SelectHighest(pts, s.endPoint)
    ensures r.1 ==> r.0.currentLegs == s.currentLegs
    ensures r.0.startPoints == pts && r.0.endPoint == s.endPoint
    ensures forall i :: 0 <= i < Legs ==>
      r.0.inBetweenPoints[i] == InBetween(pts[i], s.endPoint, highLift || HighLiftAfter(from))
      && r.0.controlPoints[i] == [pts[i], r.0.inBetweenPoints[i], s.endPoint]
  {
    var all := moveAll || AllAtOnceAfter(from);
    var high := highLift || HighLiftAfter(from);
    var legs := if all then s.currentLegs else SelectHighest(pts, s.endPoint);
    var starts := seq(Legs, i requires 0 <= i < Legs => Copy3(pts[i]));
    var mids := seq(Legs, i requires 0 <= i < Legs => InBetween(starts[i], s.endPoint, high));
    var cps := seq(Legs, i requires 0 <= i < Legs => [starts[i], mids[i], s.endPoint]);
    (s.(initialized := true, standLoops := 0, standProgress := 0, currentLegs := legs,
        startPoints := starts, inBetweenPoints := mids, controlPoints := cps), all)
  }

  /* ----------------------------------------------------------------------- */
  /* One tick                                                                  */
  /* ----------------------------------------------------------------------- */

  /** The curve parameter: progress over POINTS, capped at 1. */
  function CurveParameter(progress: int): (t: real)
    requires progress > 0
    ensures 0.0 < t <= 1.0
    ensures t == 1.0 <==> progress as real >= Points
    ensures t < 1.0 ==> t * Points == progress as real
  {
    var t := progress as real / Points;
    if t > 1.0 then 1.0 else t
  }

  /** The moves of the filled slots, in slot order. */
  function SlotMoves(legs: seq<int>, cps: seq<seq<Vec3>>, t: real): (r: seq<(nat, Vec3)>)
    requires |cps| == Legs && (forall i :: 0 <= i < Legs ==> |cps[i]| == 3)
    requires forall j :: 0 <= j < |legs| ==> -1 <= legs[j] < Legs
    ensures K.LegsInRange(r) && |r| <= |legs|
    ensures forall m :: 0 <= m < |r| ==> r[m].0 as int in legs && r[m].1 == Bezier(cps[r[m].0], 3, t)
    ensures (forall j :: 0 <= j < |legs| ==> legs[j] == -1) ==> r == []
  {
    if |legs| == 0 then []
    else
      var rest := SlotMoves(legs[1..], cps, t);
      if legs[0] == -1 then rest else [(legs[0] as nat, Bezier(cps[legs[0]], 3, t))] + rest
  }

  /** The transition moves of a tick: all six legs, or the filled slots. */
  function TransitionMoves(s: StandingState, all: bool, t: real): (r: seq<(nat, Vec3)>)
    requires s.Valid()
    ensures K.LegsInRange(r)
    ensures all ==> |r| == Legs && forall l :: 0 <= l < Legs ==> r[l] == (l, Bezier(s.controlPoints[l], 3, t))
    ensures !all ==> |r| <= Slots
  {
    if all then seq(Legs, l requires 0 <= l < Legs => (l, Bezier(s.controlPoints[l], 3, t)))
    else SlotMoves(s.currentLegs, s.controlPoints, t)
  }

  /** After the transition moves: past POINTS the progress restarts and the
      loop count advances, to 2 at once in all-at-once mode, by one otherwise,
      reselecting the three highest legs from the recorded positions while
      fewer than two loops are done. */
  function CountLoop(s: StandingState, progress: int, all: bool, pts: seq<Vec3>): (r: StandingState)
    requires s.Valid() && s.standLoops < 2 && 0 <= progress && |pts| == Legs
    ensures r.Valid()
    ensures progress > 1000 ==> r.standProgress == 0 && r.standLoops == (if all then 2 else s.standLoops + 1)
    ensures progress <= 1000 ==> r == s.(standProgress := progress)
    ensures progress > 1000 && !all && r.standLoops < 2 ==> r.currentLegs == SelectHighest(pts, s.endPoint)
    ensures r.controlPoints == s.controlPoints && r.endPoint == s.endPoint && r.initialized == s.initialized
    ensures r.distanceFromGround == s.distanceFromGround && r.startPoints == s.startPoints
  {
    if progress as real > Points then
      if all then s.(standProgress := 0, standLoops := 2)
      else
        var loops := s.standLoops + 1;
        s.(standProgress := 0, standLoops := loops,
           currentLegs := if loops < 2 then SelectHighest(pts, s.endPoint) else s.currentLegs)
    else s.(standProgress := progress)
  }

  /** Command every leg to the end of its curve; the tick reports completion
      once two loops are done. */
  function Hold(s: StandingState, k: K.HexapodKinematics, ik: K.Ik): (r: StandResult)
    requires s.Valid() && k.Valid()
    requires forall i :: 0 <= i < Legs ==> s.controlPoints[i][2] == s.endPoint
    ensures r.state == s && r.kin.Valid()
    ensures r.kin.rawOffsets == k.rawOffsets && r.kin.offsets == k.offsets
    ensures !r.crashed ==> forall l :: 0 <= l < Legs ==> r.kin.currentPoints[l] == s.endPoint
    ensures !r.crashed ==> (r.done <==> s.standLoops >= 2)
  {
    var moves := seq(Legs, l requires 0 <= l < Legs => (l, Bezier(s.controlPoints[l], 3, 1.0)));
    assert moves == K.AllLegsTo(s.endPoint) by {
      forall l | 0 <= l < Legs
        ensures moves[l] == K.AllLegsTo(s.endPoint)[l]
      {
        BezierAtOne(s.controlPoints[l], 3);
      }
    }
    var (k1, crashed) := K.MoveSequence(k, moves, ik);
    assert !crashed ==> forall l :: 0 <= l < Legs ==> k1.currentPoints[l] == s.endPoint by {
      forall l | 0 <= l < Legs
        ensures K.LastTarget(moves, l, k.currentPoints[l]) == s.endPoint
      {
        assert moves == [] + K.AllLegsTo(s.endPoint)[..Legs];
        K.LastTargetAfterAllLegs([], s.endPoint, Legs, l, k.currentPoints[l]);
      }
    }
    StandResult(s, k1, !crashed && s.standLoops >= 2, crashed)
  }

  /** The start of a tick: the new pose from the height and its correction,
      initialisation on the first tick, and the pose as every curve's end. */
  function Prepare(s: StandingState, pts: seq<Vec3>, dfg: real, adjustment: real, from: State,
                   moveAll: bool, highLift: bool): (r: (StandingState, bool))
    requires s.Valid() && |pts| == Legs
    ensures r.0.Valid() && r.0.initialized
    ensures r.0.endPoint == Vec3(DistanceFromCenter, 0.0, dfg + adjustment)
    ensures r.0.distanceFromGround == dfg
    ensures forall i :: 0 <= i < Legs ==> r.0.controlPoints[i][2] == r.0.endPoint
    ensures !s.initialized ==> r.0.startPoints == pts && r.0.standLoops == 0 && r.0.standProgress == 0
    ensures s.initialized ==> r.0.standLoops == s.standLoops && r.0.standProgress == s.standProgress && r.1 == moveAll
  {
    var end := Vec3(DistanceFromCenter, 0.0, dfg + adjustment);
    var s1 := s.(distanceFromGround := dfg, endPoint := end);
    var (s2, all) := if !s.initialized then Initialise(s1, pts, from, moveAll, highLift) else (s1, moveAll);
    (s2.(controlPoints := seq(Legs, i requires 0 <= i < Legs => s2.controlPoints[i][2 := end])), all)
  }

  /** The moving part of a tick: while fewer than two loops are done, advance
      the progress by 20 and move along the curves, then count the loop; in
      every case finish by holding the pose. */
  function Transition(s: StandingState, k: K.HexapodKinematics, all: bool, ik: K.Ik): (r: StandResult)
    requires s.Valid() && k.Valid()
    requires forall i :: 0 <= i < Legs ==> s.controlPoints[i][2] == s.endPoint
    ensures r.state.Valid() && r.kin.Valid()
    ensures r.state.controlPoints == s.controlPoints && r.state.endPoint == s.endPoint
    ensures r.state.initialized == s.initialized && r.state.distanceFromGround == s.distanceFromGround
    ensures r.state.startPoints == s.startPoints
    ensures !r.crashed ==> forall l :: 0 <= l < Legs ==> r.kin.currentPoints[l] == s.endPoint
    ensures !r.crashed ==> (r.done <==> r.state.standLoops >= 2)
    ensures s.standLoops >= 2 ==> r.state == s
    ensures s.standLoops < 2 && !r.crashed ==>
      if s.standProgress + ProgressStep > 1000 then r.state.standProgress == 0 && r.state.standLoops > s.standLoops
      else r.state.standProgress == s.standProgress + ProgressStep && r.state.standLoops == s.standLoops
    ensures s.standLoops < 2 && K.MoveSequence(k, TransitionMoves(s, all, CurveParameter(s.standProgress + ProgressStep)), ik).1 ==>
      r.crashed && r.state == s.(standProgress := s.standProgress + ProgressStep)
    ensures s.standLoops < 2 ==>
      (r.state.standProgress == s.standProgress + ProgressStep && r.state.standLoops == s.standLoops)
      || (s.standProgress + ProgressStep > 1000 && r.state.standProgress == 0 && r.state.standLoops > s.standLoops)
  {
    if s.standLoops < 2 then
      var progress := s.standProgress + ProgressStep;
      var (k1, crashed) := K.MoveSequence(k, TransitionMoves(s, all, CurveParameter(progress)), ik);
      // The source has already added the step when a move raises.
      if crashed then StandResult(s.(standProgress := progress), k1, false, true)
      else Hold(CountLoop(s, progress, all, k1.currentPoints), k1, ik)
    else Hold(s, k, ik)
  }

  /** One tick of the standing controller. `dfg` is the target height,
      `adjustment` a fine height correction, `from` the previous state, and
      `moveAll` / `highLift` the caller's flags (the previous state only
      strengthens them, and only on the first tick). */
  function Update(s: StandingState, k: K.HexapodKinematics, dfg: real, adjustment: real, from: State,
                  moveAll: bool, highLift: bool, ik: K.Ik): (r: StandResult)
    requires s.Valid() && k.Valid()
    ensures r.state.Valid() && r.kin.Valid() && r.state.initialized
    ensures r.state.endPoint == Vec3(DistanceFromCenter, 0.0, dfg + adjustment)
    ensures r.state.distanceFromGround == dfg
    ensures forall i :: 0 <= i < Legs ==> r.state.controlPoints[i][2] == r.state.endPoint
    ensures !r.crashed ==> forall l :: 0 <= l < Legs ==> r.kin.currentPoints[l] == r.state.endPoint
    ensures !r.crashed ==> (r.done <==> r.state.standLoops >= 2)
    ensures !s.initialized ==> r.state.startPoints == k.currentPoints
    ensures !s.initialized ==> r.state.standLoops == 0 && r.state.standProgress == ProgressStep
    ensures s.initialized && s.standLoops >= 2 ==>
      r.state.standLoops == s.standLoops && r.state.standProgress == s.standProgress
    ensures s.initialized && s.standLoops < 2 && !r.crashed ==>
      if s.standProgress + ProgressStep > 1000 then r.state.standProgress == 0 && r.state.standLoops > s.standLoops
      else r.state.standProgress == s.standProgress + ProgressStep && r.state.standLoops == s.standLoops
    ensures s.initialized && s.standLoops < 2 ==>
      (r.state.standProgress == s.standProgress + ProgressStep && r.state.standLoops == s.standLoops)
      || (s.standProgress + ProgressStep > 1000 && r.state.standProgress == 0 && r.state.standLoops > s.standLoops)
  {
    var (s1, all) := Prepare(s, k.currentPoints, dfg, adjustment, from, moveAll, highLift);
    Transition(s1, k, all, ik)
  }

  /** Ready for the next transition: not initialised, counters at zero. */
  function ResetState(s: StandingState): (r: StandingState)
    requires s.Valid()
    ensures r.Valid() && !r.initialized && r.standLoops == 0 && r.standProgress == 0
    ensures r == s.(initialized := false, standLoops := 0, standProgress := 0)
  {
    s.(initialized := false, standLoops := 0, standProgress := 0)
  }

  /** Each leg controller keeps its own copy of the positions taken at setup,
      and `move_to_pos` writes only the kinematics record, so the copy never
      moves. Read through that copy, a first tick starts every curve at the
      setup pose; once a later move has sent a leg elsewhere, the curve starts
      are no longer the recorded positions. */
  lemma CopiedPositionsStayAtSetup(s: StandingState, setup: K.HexapodKinematics, moves: seq<(nat, Vec3)>,
                                   ik: K.Ik, dfg: real, adjustment: real, from: State, moveAll: bool, highLift: bool)
    requires s.Valid() && setup.Valid() && !s.initialized && K.LegsInRange(moves) && |moves| > 0
    ensures var copy := K.GetAllPositions(setup);
      var (k1, crashed) := K.MoveSequence(setup, moves, ik);
      var r := Prepare(s, copy, dfg, adjustment, from, moveAll, highLift).0;
      var last := moves[|moves| - 1];
      r.startPoints == setup.currentPoints
      && (!crashed && last.1 != setup.currentPoints[last.0] ==> r.startPoints != k1.currentPoints)
  {
    var copy := K.GetAllPositions(setup);
    assert copy == setup.currentPoints;
    var (k1, crashed) := K.MoveSequence(setup, moves, ik);
    var last := moves[|moves| - 1];
    assert K.LastTarget(moves, last.0, setup.currentPoints[last.0]) == last.1;
    assert !crashed ==> k1.currentPoints[last.0] == last.1;
  }

  /** In three-at-a-time mode at most three legs follow their curves, but the
      tick still commands all six legs: after any tick that does not fail,
      every recorded position is the standing pose. */
  lemma EveryTickCommandsAllLegs(s: StandingState, k: K.HexapodKinematics, dfg: real, adjustment: real,
                                 from: State, ik: K.Ik)
    requires s.Valid() && k.Valid() && s.initialized && !AllAtOnceAfter(from)
    ensures |TransitionMoves(s, false, 1.0)| <= Slots
    ensures var r := Update(s, k, dfg, adjustment, from, false, false, ik);
      !r.crashed ==> forall l :: 0 <= l < Legs ==> r.kin.currentPoints[l] == Vec3(DistanceFromCenter, 0.0, dfg + adjustment)
  {
  }
}

=== FILE: storage.dfy ===
/** The in-memory configuration record behind the JSON file: servo offsets,
    calibration values and settings. Whether writing the file succeeds is an
    input (`written`); reading and writing the file are not modelled. A
    record read from a file may lack any section, so every section is
    optional. */
module Storage {
  import opened Wrappers
  import Config

  const OffsetCount: nat := 18

  /** The setting values the configuration uses. */
  datatype Value = BoolValue(b: bool) | IntValue(i: int) | RealValue(r: real) | TextValue(s: string)

  datatype ConfigData = ConfigData(
    version: string,
    offsets: Option<seq<real>>,
    calibration: Option<map<string, real>>,
    settings: Option<map<string, Value>>)

  function Zeros(n: nat): (r: seq<real>)
    ensures |r| == n && forall i :: 0 <= i < n ==> r[i] == 0.0
  {
    seq(n, _ => 0.0)
  }

  /** Version 1.0, 18 zero offsets, the geometry defaults, dynamic stride on
      and the tripod gait. */
  function DefaultConfig(): (d: ConfigData)
    ensures d.offsets == Some(Zeros(OffsetCount))
    ensures d.calibration.Some? && "distance_from_center" in d.calibration.value
      && d.calibration.value["distance_from_center"] == Config.DistanceFromCenter
    ensures d.settings.Some? && "default_gait" in d.settings.value
      && d.settings.value["default_gait"] == IntValue(Config.Tri)
  {
    ConfigData("1.0", Some(Zeros(OffsetCount)),
      Some(map["distance_from_center" := Config.DistanceFromCenter,
               "distance_from_ground" := Config.DistanceFromGroundBase,
               "lift_height" := Config.LiftHeight,
               "land_height" := Config.LandHeight]),
      Some(map["dynamic_stride_length" := BoolValue(true), "default_gait" := IntValue(Config.Tri)]))
  }

  /** Pad with zeros or cut to exactly 18 values. */
  function Normalise(offsets: seq<real>): (r: seq<real>)
    ensures |r| == OffsetCount
    ensures forall i :: 0 <= i < OffsetCount && i < |offsets| ==> r[i] == offsets[i]
    ensures forall i :: |offsets| <= i < OffsetCount ==> r[i] == 0.0
  {
    if |offsets| < OffsetCount then offsets + Zeros(OffsetCount - |offsets|)
    else offsets[..OffsetCount]
  }

  /** The stored offsets normalised to 18 values, or 18 zeros when there are
      none. A short stored list is padded in place, so the record changes too;
      a long one is cut only in the returned copy. */
  function LoadOffsets(d: ConfigData): (r: (ConfigData, seq<real>))
    ensures |r.1| == OffsetCount
    ensures d.offsets.None? ==> r.0 == d && r.1 == Zeros(OffsetCount)
    ensures d.offsets.Some? ==> r.1 == Normalise(d.offsets.value)
    ensures d.offsets.Some? && |d.offsets.value| < OffsetCount ==> r.0 == d.(offsets := Some(r.1))
    ensures d.offsets.Some? && |d.offsets.value| >= OffsetCount ==> r.0 == d
  {
    match d.offsets
    case None => (d, Zeros(OffsetCount))
    case Some(offsets) =>
      if |offsets| < OffsetCount then
        var padded := Normalise(offsets);
        (d.(offsets := Some(padded)), padded)
      else (d, offsets[..OffsetCount])
  }

  /** A list of any length but 18 is refused with `false` and changes nothing;
      otherwise it is stored and the result is whether the file was written. */
  function SaveOffsets(d: ConfigData, offsets: seq<real>, written: bool): (r: (ConfigData, bool))
    ensures |offsets| != OffsetCount ==> r == (d, false)
    ensures |offsets| == OffsetCount ==> r.0 == d.(offsets := Some(offsets)) && r.1 == written
  {
    if |offsets| != OffsetCount then (d, false)
    else (d.(offsets := Some(offsets)), written)
  }

  /** Saving a list of 18 and loading gives it back, as the module's own test
      expects. */
  lemma SaveLoadRoundTrip(d: ConfigData, offsets: seq<real>, written: bool)
    requires |offsets| == OffsetCount
    ensures LoadOffsets(SaveOffsets(d, offsets, written).0).1 == offsets
  {
    assert offsets[..OffsetCount] == offsets;
  }

  /** Loading twice gives the same list: the padding written back by the first
      load is what the second finds. */
  lemma LoadOffsetsStable(d: ConfigData)
    ensures var (d1, o1) := LoadOffsets(d);
      LoadOffsets(d1).1 == o1
  {
    var (d1, o1) := LoadOffsets(d);
    if d.offsets.Some? && |d.offsets.value| < OffsetCount {
      assert o1[..OffsetCount] == o1;
    }
  }

  /** Merge new calibration values in; a record without the section fails
      (the source raises a key error), which is `None`. */
  function SaveCalibration(d: ConfigData, values: map<string, real>, written: bool): (r: Option<(ConfigData, bool)>)
    ensures d.calibration.None? <==> r.None?
    ensures r.Some? ==> r.value.1 == written && r.value.0.calibration.Some?
    ensures r.Some? ==> forall key :: key in values ==>
      key in r.value.0.calibration.value && r.value.0.calibration.value[key] == values[key]
    ensures r.Some? ==> forall key :: key in d.calibration.value && key !in values ==>
      key in r.value.0.calibration.value && r.value.0.calibration.value[key] == d.calibration.value[key]
  {
    match d.calibration
    case None => None
    case Some(c) => Some((d.(calibration := Some(c + values)), written))
  }

  /** The calibration section, or an empty one. */
  function LoadCalibration(d: ConfigData): (r: map<string, real>)
    ensures d.calibration.Some? ==> r == d.calibration.value
    ensures d.calibration.None? ==> r == map[]
  {
    match d.calibration
    case None => map[]
    case Some(c) => c
  }

  /** The setting under `key`, or `default` when the key or the whole section
      is missing. */
  function GetSetting(d: ConfigData, key: string, default: Value): (r: Value)
    ensures d.settings.Some? && key in d.settings.value ==> r == d.settings.value[key]
    ensures (d.settings.None? || key !in d.settings.value) ==> r == default
  {
    match d.settings
    case None => default
    case Some(s) => if key in s then s[key] else default
  }

  /** Store one setting, creating the section when it is missing. */
  function SetSetting(d: ConfigData, key: string, value: Value, written: bool): (r: (ConfigData, bool))
    ensures r.1 == written && r.0.settings.Some?
    ensures d.settings.Some? ==> r.0.settings.value == d.settings.value[key := value]
    ensures d.settings.None? ==> r.0.settings.value == map[key := value]
    ensures r.0.offsets == d.offsets && r.0.calibration == d.calibration && r.0.version == d.version
  {
    var s := if d.settings.Some? then d.settings.value else map[];
    (d.(settings := Some(s[key := value])), written)
  }

  /** Setting a value and reading it back gives the value, whatever the
      default. */
  lemma SettingRoundTrip(d: ConfigData, key: string, value: Value, written: bool, default: Value)
    ensures GetSetting(SetSetting(d, key, value, written).0, key, default) == value
  {
  }

  /** Merge new settings in; a record without the section fails. */
  function SaveSettings(d: ConfigData, values: map<string, Value>, written: bool): (r: Option<(ConfigData, bool)>)
    ensures d.settings.None? <==> r.None?
    ensures r.Some? ==> r.value.1 == written
    ensures r.Some? ==> forall key :: key in values ==> GetSetting(r.value.0, key, TextValue("")) == values[key]
  {
    match d.settings
    case None => None
    case Some(s) => Some((d.(settings := Some(s + values)), written))
  }

  /** The settings section, or an empty one. */
  function LoadSettings(d: ConfigData): (r: map<string, Value>)
    ensures d.settings.Some? ==> r == d.settings.value
    ensures d.settings.None? ==> r == map[]
  {
    match d.settings
    case None => map[]
    case Some(s) => s
  }

  /** Replace the whole record by the defaults. */
  function ResetToDefaults(d: ConfigData, written: bool): (r: (ConfigData, bool))
    ensures r.0 == DefaultConfig() && r.1 == written
    ensures LoadOffsets(r.0).1 == Zeros(OffsetCount)
  {
    var d1 := DefaultConfig();
    assert Zeros(OffsetCount)[..OffsetCount] == Zeros(OffsetCount);
    (d1, written)
  }
}

=== FILE: vectors.dfy ===
/** Two- and three-dimensional vectors over exact reals, with the arithmetic the
    locomotion code uses. Lengths are kept squared; the square root itself is an
    argument wherever the source takes one (see `Normalize3`). */
module Vectors {

  datatype Vec2 = Vec2(x: real, y: real)
  datatype Vec3 = Vec3(x: real, y: real, z: real)

  const Zero2: Vec2 := Vec2(0.0, 0.0)
  const Zero3: Vec3 := Vec3(0.0, 0.0, 0.0)

  function Add2(a: Vec2, b: Vec2): Vec2 { Vec2(a.x + b.x, a.y + b.y) }
  function Sub2(a: Vec2, b: Vec2): Vec2 { Vec2(a.x - b.x, a.y - b.y) }
  function Scale2(a: Vec2, s: real): Vec2 { Vec2(a.x * s, a.y * s) }

  /** Scalar division; a zero divisor yields the zero vector instead of failing. */
  function Div2(a: Vec2, s: real): (r: Vec2)
    ensures s == 0.0 ==> r == Zero2
    ensures s != 0.0 ==> Scale2(r, s) == a
  {
    if s == 0.0 then Zero2 else Vec2(a.x / s, a.y / s)
  }

  function Add3(a: Vec3, b: Vec3): Vec3 { Vec3(a.x + b.x, a.y + b.y, a.z + b.z) }
  function Sub3(a: Vec3, b: Vec3): Vec3 { Vec3(a.x - b.x, a.y - b.y, a.z - b.z) }
  function Scale3(a: Vec3, s: real): Vec3 { Vec3(a.x * s, a.y * s, a.z * s) }

  /** Scalar division; a zero divisor yields the zero vector instead of failing. */
  function Div3(a: Vec3, s: real): (r: Vec3)
    ensures s == 0.0 ==> r == Zero3
    ensures s != 0.0 ==> Scale3(r, s) == a
  {
    if s == 0.0 then Zero3 else Vec3(a.x / s, a.y / s, a.z / s)
  }

  function Dot3(a: Vec3, b: Vec3): real { a.x * b.x + a.y * b.y + a.z * b.z }

  function Cross3(a: Vec3, b: Vec3): Vec3 {
    Vec3(a.y * b.z - a.z * b.y, a.z * b.x - a.x * b.z, a.x * b.y - a.y * b.x)
  }

  /** Squared magnitude (the source's magnitude is the square root of this). */
  function NormSq2(a: Vec2): real { a.x * a.x + a.y * a.y }
  function NormSq3(a: Vec3): real { a.x * a.x + a.y * a.y + a.z * a.z }

  /** Squared distance (the source's distance_to is the square root of this). */
  function DistSq2(a: Vec2, b: Vec2): real { NormSq2(Sub2(a, b)) }
  function DistSq3(a: Vec3, b: Vec3): real { NormSq3(Sub3(a, b)) }

  /** Normalisation with the square root supplied by the caller; a vector whose
      magnitude is zero normalises to the zero vector. */
  function Normalize2(a: Vec2, sqrt: real -> real): (r: Vec2)
    ensures sqrt(NormSq2(a)) == 0.0 ==> r == Zero2
    ensures sqrt(NormSq2(a)) != 0.0 ==> Scale2(r, sqrt(NormSq2(a))) == a
  {
    Div2(a, sqrt(NormSq2(a)))
  }

  function Normalize3(a: Vec3, sqrt: real -> real): (r: Vec3)
    ensures sqrt(NormSq3(a)) == 0.0 ==> r == Zero3
    ensures sqrt(NormSq3(a)) != 0.0 ==> Scale3(r, sqrt(NormSq3(a))) == a
  {
    Div3(a, sqrt(NormSq3(a)))
  }

  /** Subtraction undoes addition, componentwise. */
  lemma AddSubCancel2(a: Vec2, b: Vec2)
    ensures Sub2(Add2(a, b), b) == a
  {}

  lemma AddSubCancel3(a: Vec3, b: Vec3)
    ensures Sub3(Add3(a, b), b) == a
  {}

  /** Multiplication and division by a non-zero scalar act componentwise and
      undo each other. */
  lemma ScaleDivCancel3(a: Vec3, s: real)
    requires s != 0.0
    ensures Div3(Scale3(a, s), s) == a
    ensures Scale3(a, s).x == a.x * s && Scale3(a, s).y == a.y * s && Scale3(a, s).z == a.z * s
  {}

  /** The dot product is commutative and a vector is orthogonal to its cross
      product with anything. */
  lemma DotCommutes(a: Vec3, b: Vec3)
    ensures Dot3(a, b) == Dot3(b, a)
  {}

  lemma CrossOrthogonal(a: Vec3, b: Vec3)
    ensures Dot3(a, Cross3(a, b)) == 0.0
    ensures Dot3(b, Cross3(a, b)) == 0.0
  {}

  /** A square is non-negative and vanishes only at zero. */
  lemma SquareLaws(r: real)
    ensures r * r >= 0.0
    ensures r < 0.0 || r > 0.0 ==> r * r > 0.0
  {
    if r > 0.0 {
      assert r * r > 0.0;
    } else if r < 0.0 {
      var q := -r;
      assert q * q > 0.0;
      assert r * r == q * q;
    }
  }

  /** A difference squared does not depend on the order of the operands. */
  lemma SquareOfDifference(a: real, b: real)
    ensures (a - b) * (a - b) == (b - a) * (b - a)
  {
    var d := a - b;
    assert b - a == -d;
    assert (-d) * (-d) == d * d;
  }

  /** Squared distance is symmetric, non-negative and zero from a point to itself. */
  lemma DistanceLaws3(a: Vec3, b: Vec3)
    ensures DistSq3(a, b) == DistSq3(b, a)
    ensures DistSq3(a, a) == 0.0
    ensures DistSq3(a, b) >= 0.0
  {
    var dx, dy, dz := a.x - b.x, a.y - b.y, a.z - b.z;
    var sx, sy, sz := dx * dx, dy * dy, dz * dz;
    assert DistSq3(a, b) == sx + sy + sz;
    SquareOfDifference(a.x, b.x);
    SquareOfDifference(a.y, b.y);
    SquareOfDifference(a.z, b.z);
    assert DistSq3(b, a) == sx + sy + sz;
    SquareLaws(dx);
    SquareLaws(dy);
    SquareLaws(dz);
  }

  lemma DistanceLaws2(a: Vec2, b: Vec2)
    ensures DistSq2(a, b) == DistSq2(b, a)
    ensures DistSq2(a, a) == 0.0
    ensures DistSq2(a, b) >= 0.0
  {
    var dx, dy := a.x - b.x, a.y - b.y;
    var sx, sy := dx * dx, dy * dy;
    assert DistSq2(a, b) == sx + sy;
    SquareOfDifference(a.x, b.x);
    SquareOfDifference(a.y, b.y);
    assert DistSq2(b, a) == sx + sy;
    SquareLaws(dx);
    SquareLaws(dy);
  }

  /** Vectors have no equality operator in the source, so `copy` is only
      observable componentwise: a copy has the same components. */
  function Copy2(a: Vec2): (r: Vec2)
    ensures r.x == a.x && r.y == a.y
  {
    Vec2(a.x, a.y)
  }

  function Copy3(a: Vec3): (r: Vec3)
    ensures r.x == a.x && r.y == a.y && r.z == a.z
  {
    Vec3(a.x, a.y, a.z)
  }
}

=== FILE: walking.dfy ===
/** The walking controller: six gaits given as per-leg phase offsets, a shared
    cycle counter per leg advanced in lockstep, and for each leg a Propelling
    or Lifting sub-state whose Bezier curves are blended by how much the robot
    translates and turns. */
module Walking {
  import opened Wrappers
  import opened Vectors
  import opened Helpers
  import opened Config
  import K = Kinematics

  const Legs: nat := 6

  /** Square root and the cosine and sine of an angle in degrees. */
  datatype Trig = Trig(sqrt: real -> real, cosd: real -> real, sind: real -> real)

  datatype GaitParams = GaitParams(
    pushFraction: real,
    speedMultiplier: real,
    strideLengthMultiplier: real,
    liftHeightMultiplier: real,
    maxStrideLength: real,
    maxSpeed: real)

  datatype WalkingState = WalkingState(
    forwardAmount: real,
    turnAmount: real,
    tArray: seq<real>,
    cycleProgress: seq<real>,
    cycleStartPoints: seq<Vec3>,
    legStates: seq<LegState>,
    params: GaitParams,
    globalSpeedMultiplier: real,
    globalRotationMultiplier: real,
    distanceFromGround: real,
    dynamicStrideLength: bool,
    previousGait: Option<int>,
    currentGait: int)
  {
    /** Six legs, and a push fraction strictly inside (0, 1), which every gait
        has and which both curve parameters divide by. */
    ghost predicate Valid() {
      |tArray| == Legs && |cycleProgress| == Legs && |cycleStartPoints| == Legs
      && |legStates| == Legs && 0.0 < params.pushFraction < 1.0
    }
  }

  const LegPlacementAngle: real := 56.0

  function Init(): (w: WalkingState)
    ensures w.Valid()
    ensures w.currentGait == Tri && w.previousGait == None && w.dynamicStrideLength
    ensures forall i :: 0 <= i < Legs ==> w.cycleProgress[i] == 0.0 && w.legStates[i] == Reset
  {
    WalkingState(0.0, 0.0, seq(Legs, _ => 0.0), seq(Legs, _ => 0.0), seq(Legs, _ => Zero3),
      seq(Legs, _ => Reset), GaitParams(3.0 / 6.0, 0.5, 1.5, 1.0, 200.0, 100.0),
      0.55, 0.55, DistanceFromGroundBase, true, None, Tri)
  }

  /* ----------------------------------------------------------------------- */
  /* Gait table                                                                */
  /* ----------------------------------------------------------------------- */

  /** Phase offsets and parameters of a gait; `None` for a number that is not a
      gait, for which the source changes neither. */
  function GaitTable(gait: int): Option<(seq<real>, GaitParams)>
  {
    var p := Points;
    if gait == Tri then
      Some(([0.0, p / 2.0, 0.0, p / 2.0, 0.0, p / 2.0], GaitParams(3.1 / 6.0, 1.0, 1.2, 1.1, 240.0, 200.0)))
    else if gait == Wave then
      Some(([0.0, p / 6.0, (p / 6.0) * 2.0, (p / 6.0) * 5.0, (p / 6.0) * 4.0, (p / 6.0) * 3.0],
            GaitParams(4.9 / 6.0, 0.40, 2.0, 1.2, 150.0, 160.0)))
    else if gait == Ripple then
      Some(([0.0, (p / 6.0) * 4.0, (p / 6.0) * 2.0, (p / 6.0) * 5.0, p / 6.0, (p / 6.0) * 3.0],
            GaitParams(3.2 / 6.0, 1.0, 1.3, 1.1, 220.0, 200.0)))
    else if gait == Bi then
      Some(([0.0, p / 3.0, (p / 3.0) * 2.0, 0.0, p / 3.0, (p / 3.0) * 2.0],
            GaitParams(2.1 / 6.0, 4.0, 1.0, 1.8, 230.0, 130.0)))
    else if gait == Quad then
      Some(([0.0, p / 3.0, (p / 3.0) * 2.0, 0.0, p / 3.0, (p / 3.0) * 2.0],
            GaitParams(4.1 / 6.0, 1.0, 1.2, 1.1, 220.0, 200.0)))
    else if gait == Hop then
      Some(([0.0, 0.0, 0.0, 0.0, 0.0, 0.0], GaitParams(3.0 / 6.0, 1.0, 1.6, 2.5, 240.0, 200.0)))
    else None
  }

  /** Exactly the six gait numbers have an entry; every offset lies in
      [0, POINTS) and every push fraction in (0, 1). The tripod alternates two
      groups half a cycle apart and the hop moves all legs together. */
  lemma GaitTableShape(gait: int)
    ensures GaitTable(gait).Some? <==> 0 <= gait < TotalGaits
    ensures GaitTable(gait).Some? ==>
      var (offsets, params) := GaitTable(gait).value;
      |offsets| == Legs && (forall i :: 0 <= i < Legs ==> 0.0 <= offsets[i] < Points)
      && 0.0 < params.pushFraction < 1.0
    ensures GaitTable(Tri).value.0 == [0.0, 500.0, 0.0, 500.0, 0.0, 500.0]
    ensures GaitTable(Hop).value.0 == [0.0, 0.0, 0.0, 0.0, 0.0, 0.0]
  {
  }

  /** Remember the old gait, reset every leg's sub-state when the gait changes,
      and load the gait's offsets and parameters, every call. */
  function SetGait(w: WalkingState, gait: int): (r: WalkingState)
    requires w.Valid()
    ensures r.Valid()
    ensures r.previousGait == Some(w.currentGait) && r.currentGait == gait
    ensures w.currentGait != gait ==> forall i :: 0 <= i < Legs ==> r.legStates[i] == Reset
    ensures w.currentGait == gait ==> r.legStates == w.legStates
    ensures GaitTable(gait).Some? ==> r.cycleProgress == GaitTable(gait).value.0
    ensures GaitTable(gait).None? ==> r.cycleProgress == w.cycleProgress && r.params == w.params
    ensures r.cycleStartPoints == w.cycleStartPoints && r.tArray == w.tArray
  {
    GaitTableShape(gait);
    var w1 := w.(previousGait := Some(w.currentGait), currentGait := gait);
    var w2 := if w.currentGait != gait then w1.(legStates := seq(Legs, _ => Reset)) else w1;
    match GaitTable(gait)
    case Some((offsets, params)) => w2.(cycleProgress := offsets, params := params)
    case None => w2
  }

  /** Whatever progress the legs had made, setting a gait puts them back on the
      gait's table: two states differing only in progress agree afterwards. */
  lemma SetGaitForgetsProgress(w1: WalkingState, w2: WalkingState, gait: int)
    requires w1.Valid() && w2.Valid() && 0 <= gait < TotalGaits
    ensures SetGait(w1, gait).cycleProgress == SetGait(w2, gait).cycleProgress
  {
    GaitTableShape(gait);
  }

  /** Setting the same gait again changes neither the phases nor the leg
      sub-states. */
  lemma SetGaitTwice(w: WalkingState, gait: int)
    requires w.Valid()
    ensures SetGait(SetGait(w, gait), gait).cycleProgress == SetGait(w, gait).cycleProgress
    ensures SetGait(SetGait(w, gait), gait).legStates == SetGait(w, gait).legStates
    ensures SetGait(SetGait(w, gait), gait).params == SetGait(w, gait).params
  {
  }

  /* ----------------------------------------------------------------------- */
  /* Geometry                                                                  */
  /* ----------------------------------------------------------------------- */

  /** Rotation about a vertical axis through `pivot` by `angleDeg` degrees. */
  function RotatePoint(point: Vec3, angleDeg: real, pivot: Vec2, trig: Trig): (r: Vec3)
    ensures r.z == point.z
    ensures trig.cosd(angleDeg) == 1.0 && trig.sind(angleDeg) == 0.0 ==> r == point
  {
    var c, s := trig.cosd(angleDeg), trig.sind(angleDeg);
    var x, y := point.x - pivot.x, point.y - pivot.y;
    Vec3(x * c - y * s + pivot.x, x * s + y * c + pivot.y, point.z)
  }

  lemma RotationKeepsLength(x: real, y: real, c: real, s: real)
    requires c * c + s * s == 1.0
    ensures (x * c - y * s) * (x * c - y * s) + (x * s + y * c) * (x * s + y * c) == x * x + y * y
  {
    calc {
      (x * c - y * s) * (x * c - y * s) + (x * s + y * c) * (x * s + y * c);
      x * x * (c * c) - 2.0 * (x * c) * (y * s) + y * y * (s * s)
        + x * x * (s * s) + 2.0 * (x * s) * (y * c) + y * y * (c * c);
      x * x * (c * c + s * s) + y * y * (c * c + s * s);
    }
  }

  /** With a genuine rotation (cos^2 + sin^2 == 1) the distance to the pivot in
      the horizontal plane does not change. */
  lemma RotatePointKeepsDistance(point: Vec3, angleDeg: real, pivot: Vec2, trig: Trig)
    requires var c, s := trig.cosd(angleDeg), trig.sind(angleDeg); c * c + s * s == 1.0
    ensures var r := RotatePoint(point, angleDeg, pivot, trig);
      DistSq2(Vec2(r.x, r.y), pivot) == DistSq2(Vec2(point.x, point.y), pivot)
  {
    var c, s := trig.cosd(angleDeg), trig.sind(angleDeg);
    var x, y := point.x - pivot.x, point.y - pivot.y;
    RotationKeepsLength(x, y, c, s);
  }

  /** The middle legs (rotation multiplier 0) are never rotated, given that the
      cosine of 0 is 1 and its sine 0. */
  lemma MiddleLegsNotRotated(point: Vec3, leg: nat, trig: Trig)
    requires leg == 1 || leg == 4
    requires trig.cosd(0.0) == 1.0 && trig.sind(0.0) == 0.0
    ensures RotatePoint(point, LegPlacementAngle * RotationMultiplier[leg], Vec2(DistanceFromCenter, 0.0), trig) == point
  {
  }

  /* ----------------------------------------------------------------------- */
  /* Gait points                                                               */
  /* ----------------------------------------------------------------------- */

  /** The translation input: the joystick itself, or its direction scaled to
      70 without dynamic stride length. */
  function StrideInput(dynamic: bool, joy1: Vec2, sqrt: real -> real): Vec2
  {
    if !dynamic then Scale2(Normalize2(joy1, sqrt), 70.0) else Copy2(joy1)
  }

  /** The translation vector after the stride multiplier, the stride clamp and
      the speed slider `gsm`. */
  function StrideVector(dynamic: bool, params: GaitParams, gsm: real, joy1: Vec2, sqrt: real -> real): Vec2
  {
    var v0 := StrideInput(dynamic, joy1, sqrt);
    ClampThenScale(v0.x, v0.y * params.strideLengthMultiplier, params.maxStrideLength / 2.0, gsm)
  }

  /** Clamp the forward component to [-half, half], then scale both by the
      speed slider `g`: the forward stride never exceeds `half * g`. */
  function ClampThenScale(x: real, y: real, half: real, g: real): (v: Vec2)
    ensures half >= 0.0 && g >= 0.0 ==> -half * g <= v.y <= half * g
    ensures -half <= y <= half ==> v == Vec2(x * g, y * g)
  {
    var vy := Constrain(y, -half, half);
    assert half >= 0.0 && g >= 0.0 ==> -half * g <= vy * g <= half * g by {
      if half >= 0.0 && g >= 0.0 { ScaleBetween(vy, half, g); }
    }
    assert -half <= y <= half ==> vy == y;
    var v := Scale2(Vec2(x, vy), g);
    assert v.x == x * g && v.y == vy * g;
    v
  }

  lemma ScaleBetween(v: real, half: real, g: real)
    requires -half <= v <= half && g >= 0.0
    ensures -half * g <= v * g <= half * g
  {
    assert (v + half) * g >= 0.0;
    assert (half - v) * g >= 0.0;
  }

  /** The lateral stride of a turn; a fixed 70 either way without dynamic
      stride length; `grm` is the slider's rotation multiplier. */
  function RotateStride(dynamic: bool, grm: real, joy2: Vec2): real
  {
    var rs := joy2.x * grm;
    if !dynamic then (if rs < 0.0 then -70.0 else 70.0) else rs
  }

  /** Control points of the straight and the turning curve of one leg. */
  function StraightPropelling(start: Vec3, v: Vec2, leg: nat, dfg: real, trig: Trig): (cp: seq<Vec3>)
    requires leg < Legs
    ensures |cp| == 2 && cp[0] == start
  {
    var sm := StrideMultiplier[leg];
    [start, RotatePoint(Vec3(v.x * sm + DistanceFromCenter, -v.y * sm, dfg),
                        LegPlacementAngle * RotationMultiplier[leg], Vec2(DistanceFromCenter, 0.0), trig)]
  }

  function TurnPropelling(start: Vec3, rs: real, dfg: real): (cp: seq<Vec3>)
    ensures |cp| == 3 && cp[0] == start
  {
    [start, Vec3(DistanceFromCenter + 40.0, 0.0, dfg), Vec3(DistanceFromCenter, rs, dfg)]
  }

  function StraightLifting(start: Vec3, v: Vec2, leg: nat, dfg: real, lift: real, trig: Trig): (cp: seq<Vec3>)
    requires leg < Legs
    ensures |cp| == 4 && cp[0] == start && cp[1] == Add3(start, Vec3(0.0, 0.0, lift))
  {
    var sm := StrideMultiplier[leg];
    var angle := LegPlacementAngle * RotationMultiplier[leg];
    var pivot := Vec2(DistanceFromCenter, 0.0);
    var mid := Vec3(-v.x * sm + DistanceFromCenter, (v.y + StrideOvershoot) * sm, dfg + LandHeight);
    var end := Vec3(-v.x * sm + DistanceFromCenter, v.y * sm, dfg);
    [start, Add3(start, Vec3(0.0, 0.0, lift)), RotatePoint(mid, angle, pivot, trig), RotatePoint(end, angle, pivot, trig)]
  }

  function TurnLifting(start: Vec3, rs: real, dfg: real, lift: real): (cp: seq<Vec3>)
    ensures |cp| == 5 && cp[0] == start && cp[4] == Vec3(DistanceFromCenter, -rs, dfg)
  {
    [start, Add3(start, Vec3(0.0, 0.0, lift)), Vec3(DistanceFromCenter + 40.0, 0.0, dfg + lift),
     Vec3(DistanceFromCenter, -(rs + StrideOvershoot), dfg + LandHeight), Vec3(DistanceFromCenter, -rs, dfg)]
  }

  /** The two curve points weighted by the magnitudes of the translation and
      the turn; with both zero the divisor is 1. */
  function Blend(straight: Vec3, turn: Vec3, forward: real, turning: real): (r: Vec3)
    ensures forward == 0.0 && turning == 0.0 ==> r == Zero3
    ensures turning == 0.0 && forward != 0.0 ==> r == straight
    ensures forward == 0.0 && turning != 0.0 ==> r == turn
  {
    var ws0 := Abs(forward) + Abs(turning);
    var ws := if ws0 == 0.0 then 1.0 else ws0;
    var f, t := Abs(forward), Abs(turning);
    assert turning == 0.0 && forward != 0.0 ==> ws == f && f != 0.0;
    assert forward == 0.0 && turning != 0.0 ==> ws == t && t != 0.0;
    Div3(Add3(Scale3(straight, f), Scale3(turn, t)), ws)
  }

  /** The point of one leg's curve: with `t` below the push fraction the
      propelling curves, otherwise the lifting curves, each parameter remapped
      to [0, 1], the straight and the turning point blended by the input
      magnitudes. */
  function CurvePoint(t: real, params: GaitParams, dfg: real, v: Vec2, rs: real, forward: real, turning: real,
                      leg: nat, start: Vec3, trig: Trig): (r: Vec3)
    requires 0.0 < params.pushFraction < 1.0 && leg < Legs
    ensures forward == 0.0 && turning == 0.0 ==> r == Zero3
  {
    var push := params.pushFraction;
    if t < push then
      var u := MapFloat(t, 0.0, push, 0.0, 1.0);
      var straight := Bezier(StraightPropelling(start, v, leg, dfg, trig), 2, u);
      var turn := Bezier(TurnPropelling(start, rs, dfg), 3, u);
      Blend(straight, turn, forward, turning)
    else
      var u := MapFloat(t, push, 1.0, 0.0, 1.0);
      var lift := LiftHeight * params.liftHeightMultiplier;
      var straight := Bezier(StraightLifting(start, v, leg, dfg, lift, trig), 4, u);
      var turn := Bezier(TurnLifting(start, rs, dfg, lift), 5, u);
      Blend(straight, turn, forward, turning)
  }

  /** The target of one leg at its current cycle position. Entering a sub-state
      snapshots the leg's recorded position as the curve start; staying in it
      keeps the old start. The curve parameter is the position within the
      sub-state, remapped to [0, 1]. */
  function GaitPoint(w: WalkingState, leg: nat, joy1: Vec2, joy2: Vec2, current: Vec3, trig: Trig): (r: (Vec3, WalkingState))
    requires w.Valid() && leg < Legs
    ensures r.1.Valid()
    ensures r.1.legStates == w.legStates[leg := if w.tArray[leg] < w.params.pushFraction then Propelling else Lifting]
    ensures r.1.legStates[leg] != w.legStates[leg] ==> r.1.cycleStartPoints == w.cycleStartPoints[leg := current]
    ensures r.1.legStates[leg] == w.legStates[leg] ==> r.1.cycleStartPoints == w.cycleStartPoints
    ensures r.1 == w.(legStates := r.1.legStates, cycleStartPoints := r.1.cycleStartPoints)
    ensures w.forwardAmount == 0.0 && w.turnAmount == 0.0 ==> r.0 == Zero3
  {
    var t := w.tArray[leg];
    var newState := if t < w.params.pushFraction then Propelling else Lifting;
    var start := if w.legStates[leg] != newState then Copy3(current) else w.cycleStartPoints[leg];
    var w1 := w.(legStates := w.legStates[leg := newState], cycleStartPoints := w.cycleStartPoints[leg := start]);
    assert w.legStates[leg] == newState ==> w1.cycleStartPoints == w.cycleStartPoints;
    (CurvePoint(t, w.params, w.distanceFromGround, StrideVector(w.dynamicStrideLength, w.params, w.globalSpeedMultiplier, joy1, trig.sqrt),
       RotateStride(w.dynamicStrideLength, w.globalRotationMultiplier, joy2),
       w.forwardAmount, w.turnAmount, leg, start, trig), w1)
  }

  /** A leg starting to push while the robot only translates is exactly at its
      snapshot start point: the straight curve begins there. */
  lemma PushStartsAtSnapshot(w: WalkingState, leg: nat, joy1: Vec2, joy2: Vec2, current: Vec3, trig: Trig)
    requires w.Valid() && leg < Legs
    requires w.tArray[leg] == 0.0 && w.turnAmount == 0.0 && w.forwardAmount != 0.0
    ensures var r := GaitPoint(w, leg, joy1, joy2, current, trig);
      r.0 == r.1.cycleStartPoints[leg]
  {
    var r := GaitPoint(w, leg, joy1, joy2, current, trig);
    var start := r.1.cycleStartPoints[leg];
    var v := StrideVector(w.dynamicStrideLength, w.params, w.globalSpeedMultiplier, joy1, trig.sqrt);
    var cp := StraightPropelling(start, v, leg, w.distanceFromGround, trig);
    assert MapFloat(0.0, 0.0, w.params.pushFraction, 0.0, 1.0) == 0.0;
    BezierAtZero(cp, 2);
  }

  /* ----------------------------------------------------------------------- */
  /* Update                                                                    */
  /* ----------------------------------------------------------------------- */

  /** One cycle position advanced by `change`, with the single subtraction of
      POINTS the source applies. */
  function Wrap(v: real): real
  {
    if v >= Points then v - Points else v
  }

  function Advance(progress: seq<real>, change: real): (r: seq<real>)
    ensures |r| == |progress|
    ensures forall i :: 0 <= i < |progress| ==>
      r[i] == progress[i] + change || r[i] == progress[i] + change - Points
    ensures forall i, j :: 0 <= i < |progress| && 0 <= j < |progress| && progress[i] == progress[j] ==> r[i] == r[j]
    ensures 0.0 <= change < Points && (forall i :: 0 <= i < |progress| ==> 0.0 <= progress[i] < Points) ==>
      forall i :: 0 <= i < |progress| ==> 0.0 <= r[i] < Points
  {
    seq(|progress|, i requires 0 <= i < |progress| => Wrap(progress[i] + change))
  }

  /** With every position in [0, POINTS) and a change below POINTS, every
      position stays in [0, POINTS), so every leg's t stays in [0, 1). */
  lemma AdvanceKeepsRange(progress: seq<real>, change: real)
    requires 0.0 <= change < Points
    requires forall i :: 0 <= i < |progress| ==> 0.0 <= progress[i] < Points
    ensures forall i :: 0 <= i < |progress| ==> 0.0 <= Advance(progress, change)[i] < Points
    ensures forall i :: 0 <= i < |progress| ==> 0.0 <= Advance(progress, change)[i] / Points < 1.0
  {
  }

  /** All legs advance by the same amount, so the phase difference of any two
      legs is unchanged modulo POINTS. */
  lemma AdvanceKeepsPhase(progress: seq<real>, change: real, i: nat, j: nat)
    requires i < |progress| && j < |progress|
    ensures var r := Advance(progress, change);
      (r[i] - r[j]) - (progress[i] - progress[j]) in {-Points, 0.0, Points}
  {
  }

  /** The distance travelled in one update: the larger input magnitude scaled by
      the gait speed and the slider, clamped to [0, max speed * slider]. */
  function ProgressChange(forward: real, turning: real, params: GaitParams, gsm: real): (c: real)
    ensures 0.0 <= c
    ensures params.maxSpeed * gsm >= 0.0 ==> c <= params.maxSpeed * gsm
    ensures params.maxSpeed * gsm < 0.0 ==> c == 0.0
  {
    var m := if Abs(forward) > Abs(turning) then Abs(forward) else Abs(turning);
    Constrain(m * params.speedMultiplier * 20.0 * gsm, 0.0, params.maxSpeed * gsm)
  }

  /** The change of one tick, from the translation magnitude, the turn input
      and the speed slider. */
  function TickChange(w: WalkingState, joy1: Vec2, joy2: Vec2, slider1: real, trig: Trig): (c: real)
    ensures 0.0 <= c
    ensures w.params.maxSpeed * ((slider1 + 10.0) * 0.01) >= 0.0 ==> c <= w.params.maxSpeed * ((slider1 + 10.0) * 0.01)
  {
    ProgressChange(trig.sqrt(NormSq2(joy1)), joy2.x, w.params, (slider1 + 10.0) * 0.01)
  }

  /** A leg's gait point, and the sub-state and start point it records for
      that leg, read no other leg's sub-state or start point. */
  lemma GaitPointReadsOwnLeg(w: WalkingState, w': WalkingState, leg: nat, joy1: Vec2, joy2: Vec2,
                             current: Vec3, trig: Trig)
    requires w.Valid() && w'.Valid() && leg < Legs
    requires w' == w.(legStates := w'.legStates, cycleStartPoints := w'.cycleStartPoints)
    requires w'.legStates[leg] == w.legStates[leg] && w'.cycleStartPoints[leg] == w.cycleStartPoints[leg]
    ensures var g, g' := GaitPoint(w, leg, joy1, joy2, current, trig), GaitPoint(w', leg, joy1, joy2, current, trig);
      g'.0 == g.0 && g'.1.legStates[leg] == g.1.legStates[leg] && g'.1.cycleStartPoints[leg] == g.1.cycleStartPoints[leg]
  {
    var t := w.tArray[leg];
    var newState := if t < w.params.pushFraction then Propelling else Lifting;
    var start := if w.legStates[leg] != newState then Copy3(current) else w.cycleStartPoints[leg];
    var v := StrideVector(w.dynamicStrideLength, w.params, w.globalSpeedMultiplier, joy1, trig.sqrt);
    var rs := RotateStride(w.dynamicStrideLength, w.globalRotationMultiplier, joy2);
    var p := CurvePoint(t, w.params, w.distanceFromGround, v, rs, w.forwardAmount, w.turnAmount, leg, start, trig);
    assert GaitPoint(w, leg, joy1, joy2, current, trig).0 == p;
    assert GaitPoint(w', leg, joy1, joy2, current, trig).0 == p;
  }

  /** Driving leg `leg` changes neither the gait point of a later leg nor
      what that leg's gait point records. */
  lemma LaterGaitPointsUnchanged(w: WalkingState, w1: WalkingState, k: K.HexapodKinematics, k1: K.HexapodKinematics,
                                 leg: nat, joy1: Vec2, joy2: Vec2, trig: Trig)
    requires w.Valid() && w1.Valid() && k.Valid() && k1.Valid() && leg < Legs
    requires w1 == w.(legStates := w1.legStates, cycleStartPoints := w1.cycleStartPoints)
    requires w1.legStates == w.legStates[leg := w1.legStates[leg]]
    requires w1.cycleStartPoints == w.cycleStartPoints[leg := w1.cycleStartPoints[leg]]
    requires k1.currentPoints == k.currentPoints[leg := k1.currentPoints[leg]]
    ensures forall l :: leg < l < Legs ==>
      var g, g1 := GaitPoint(w, l, joy1, joy2, k.currentPoints[l], trig), GaitPoint(w1, l, joy1, joy2, k1.currentPoints[l], trig);
      g1.0 == g.0 && g1.1.legStates[l] == g.1.legStates[l] && g1.1.cycleStartPoints[l] == g.1.cycleStartPoints[l]
  {
    forall l | leg < l < Legs
      ensures var g, g1 := GaitPoint(w, l, joy1, joy2, k.currentPoints[l], trig), GaitPoint(w1, l, joy1, joy2, k1.currentPoints[l], trig);
        g1.0 == g.0 && g1.1.legStates[l] == g.1.legStates[l] && g1.1.cycleStartPoints[l] == g.1.cycleStartPoints[l]
    {
      GaitPointReadsOwnLeg(w, w1, l, joy1, joy2, k.currentPoints[l], trig);
    }
  }

  /** Move every leg in order, leg `leg` first: compute its gait point from its
      recorded position and drive it there. A division by zero in the solver
      ends the update (the source raises). Legs before `leg` are left alone;
      without a failure every later leg ends at the gait point computed from
      the state and positions the pass started with. */
  function StepLegs(w: WalkingState, k: K.HexapodKinematics, leg: nat, joy1: Vec2, joy2: Vec2,
                    trig: Trig, ik: K.Ik): (r: (WalkingState, K.HexapodKinematics, bool))
    requires w.Valid() && k.Valid() && leg <= Legs
    ensures r.0.Valid() && r.1.Valid()
    ensures r.0 == w.(legStates := r.0.legStates, cycleStartPoints := r.0.cycleStartPoints)
    ensures forall l :: 0 <= l < leg ==>
      r.1.currentPoints[l] == k.currentPoints[l] && r.0.legStates[l] == w.legStates[l]
      && r.0.cycleStartPoints[l] == w.cycleStartPoints[l]
    ensures !r.2 ==> forall l :: leg <= l < Legs ==>
      var g := GaitPoint(w, l, joy1, joy2, k.currentPoints[l], trig);
      r.1.currentPoints[l] == g.0 && r.0.legStates[l] == g.1.legStates[l]
      && r.0.cycleStartPoints[l] == g.1.cycleStartPoints[l]
    decreases Legs - leg
  {
    if leg == Legs then (w, k, false)
    else
      var (pos, w1) := GaitPoint(w, leg, joy1, joy2, k.currentPoints[leg], trig);
      var (k1, outcome) := K.MoveToPos(k, leg, pos, ik);
      if outcome == K.DivisionByZero then (w1, k1, true)
      else
        LaterGaitPointsUnchanged(w, w1, k, k1, leg, joy1, joy2, trig);
        StepLegs(w1, k1, leg + 1, joy1, joy2, trig, ik)
  }

  /** The state the legs are driven from in a tick: the slider's speed and
      rotation multipliers, the height, every leg's t from its cycle position,
      and this tick's translation magnitude and turn input. */
  function TickState(w: WalkingState, joy1: Vec2, joy2: Vec2, slider1: real, dfg: real, trig: Trig): (r: WalkingState)
    requires w.Valid()
    ensures r.Valid()
    ensures r.globalSpeedMultiplier == (slider1 + 10.0) * 0.01 && r.distanceFromGround == dfg
    ensures forall i :: 0 <= i < Legs ==> r.tArray[i] == w.cycleProgress[i] / Points
    ensures r.forwardAmount == trig.sqrt(NormSq2(joy1)) && r.turnAmount == joy2.x
    ensures r.legStates == w.legStates && r.cycleStartPoints == w.cycleStartPoints
    ensures r.cycleProgress == w.cycleProgress && r.params == w.params && r.currentGait == w.currentGait
  {
    w.(globalSpeedMultiplier := (slider1 + 10.0) * 0.01,
       globalRotationMultiplier := MapFloat(slider1, 0.0, 100.0, 40.0, 130.0) * 0.01,
       distanceFromGround := dfg,
       tArray := seq(Legs, i requires 0 <= i < Legs => w.cycleProgress[i] / Points),
       forwardAmount := trig.sqrt(NormSq2(joy1)), turnAmount := joy2.x)
  }

  /** One walking tick: take the slider, the height and the inputs, compute every
      leg's t, drive all six legs, then advance all cycle positions by the same
      change. `joy1` translates, `joy2.x` turns, `slider1` is the speed slider
      (0..100) and `dfg` the ground distance. Without a solver failure every
      leg ends at its gait point for this tick. */
  function Update(w: WalkingState, k: K.HexapodKinematics, joy1: Vec2, joy2: Vec2, slider1: real, dfg: real,
                  trig: Trig, ik: K.Ik): (r: (WalkingState, K.HexapodKinematics, bool))
    requires w.Valid() && k.Valid()
    ensures r.0.Valid() && r.1.Valid()
    ensures r.0.globalSpeedMultiplier == (slider1 + 10.0) * 0.01
    ensures r.0.params == w.params && r.0.currentGait == w.currentGait
    ensures forall i :: 0 <= i < Legs ==> r.0.tArray[i] == w.cycleProgress[i] / Points
    ensures !r.2 ==> r.0.cycleProgress == Advance(w.cycleProgress, TickChange(w, joy1, joy2, slider1, trig))
    ensures r.2 ==> r.0.cycleProgress == w.cycleProgress
    ensures !r.2 ==> forall l :: 0 <= l < Legs ==>
      var g := GaitPoint(TickState(w, joy1, joy2, slider1, dfg, trig), l, joy1, joy2, k.currentPoints[l], trig);
      r.1.currentPoints[l] == g.0 && r.0.legStates[l] == g.1.legStates[l]
      && r.0.cycleStartPoints[l] == g.1.cycleStartPoints[l]
  {
    var w1 := TickState(w, joy1, joy2, slider1, dfg, trig);
    var (w2, k2, crashed) := StepLegs(w1, k, 0, joy1, joy2, trig, ik);
    assert w2.cycleProgress == w.cycleProgress && w2.tArray == w1.tArray && w2.params == w.params;
    if crashed then (w2, k2, true)
    else
      // The stored forward and turn amounts are this tick's inputs.
      var c := TickChange(w, joy1, joy2, slider1, trig);
      (w2.(cycleProgress := Advance(w2.cycleProgress, c)), k2, false)
  }

  /** With the speed slider at most 100 no gait advances a whole cycle in one
      tick, so cycle positions in [0, POINTS) stay there. */
  lemma UpdateKeepsRange(w: WalkingState, k: K.HexapodKinematics, joy1: Vec2, joy2: Vec2, slider1: real, dfg: real,
                         trig: Trig, ik: K.Ik)
    requires w.Valid() && k.Valid() && slider1 <= 100.0 && 0.0 <= w.params.maxSpeed <= 200.0
    requires forall i :: 0 <= i < Legs ==> 0.0 <= w.cycleProgress[i] < Points
    ensures var r := Update(w, k, joy1, joy2, slider1, dfg, trig, ik);
      forall i :: 0 <= i < Legs ==> 0.0 <= r.0.cycleProgress[i] < Points
  {
    var c := TickChange(w, joy1, joy2, slider1, trig);
    SpeedBound(w.params.maxSpeed, slider1);
    assert 0.0 <= c < Points;
  }

  lemma SpeedBound(maxSpeed: real, slider1: real)
    requires 0.0 <= maxSpeed <= 200.0 && slider1 <= 100.0
    ensures maxSpeed * ((slider1 + 10.0) * 0.01) < Points
  {
    var g := (slider1 + 10.0) * 0.01;
    assert g <= 1.1;
    if g > 0.0 {
      ScaleBetween(maxSpeed, 200.0, g);
      assert maxSpeed * g <= 200.0 * g <= 220.0;
      assert maxSpeed * g < Points;
    } else {
      ScaleBetween(maxSpeed, 200.0, -g);
      assert maxSpeed * -g >= -200.0 * -g;
      assert maxSpeed * g < Points;
    }
  }

  /** The tripod's two leg groups stay in lockstep through any update. */
  lemma UpdateKeepsTripodGroups(w: WalkingState, k: K.HexapodKinematics, joy1: Vec2, joy2: Vec2, slider1: real,
                                dfg: real, trig: Trig, ik: K.Ik)
    requires w.Valid() && k.Valid()
    requires w.cycleProgress[0] == w.cycleProgress[2] == w.cycleProgress[4]
    requires w.cycleProgress[1] == w.cycleProgress[3] == w.cycleProgress[5]
    ensures var p := Update(w, k, joy1, joy2, slider1, dfg, trig, ik).0.cycleProgress;
      p[0] == p[2] == p[4] && p[1] == p[3] == p[5]
  {
    var r := Update(w, k, joy1, joy2, slider1, dfg, trig, ik);
    if !r.2 {
      var c := TickChange(w, joy1, joy2, slider1, trig);
      assert r.0.cycleProgress == Advance(w.cycleProgress, c);
    }
  }

  /** The receiver path sets the gait before every walking tick, and setting a
      gait reloads the phase table, so the progress an update makes is lost by
      the next tick: the phases seen by the next update are the table's, not
      the advanced ones. */
  lemma ProgressLostBetweenTicks(w: WalkingState, k: K.HexapodKinematics, joy1: Vec2, joy2: Vec2, slider1: real,
                                 dfg: real, trig: Trig, ik: K.Ik, gait: int)
    requires w.Valid() && k.Valid() && 0 <= gait < TotalGaits
    ensures var w1 := SetGait(w, gait);
      var w2 := Update(w1, k, joy1, joy2, slider1, dfg, trig, ik).0;
      SetGait(w2, gait).cycleProgress == w1.cycleProgress
  {
    GaitTableShape(gait);
  }

  /** Back to the beginning of a cycle: zero phases and timing, every leg in
      Reset, and every curve start at the leg's recorded position. */
  function ResetState(w: WalkingState, positions: seq<Vec3>): (r: WalkingState)
    requires w.Valid() && |positions| == Legs
    ensures r.Valid()
    ensures forall i :: 0 <= i < Legs ==>
      r.cycleProgress[i] == 0.0 && r.tArray[i] == 0.0 && r.legStates[i] == Reset
      && r.cycleStartPoints[i] == positions[i]
    ensures r.forwardAmount == 0.0 && r.turnAmount == 0.0
    ensures r.params == w.params && r.currentGait == w.currentGait
  {
    w.(tArray := seq(Legs, _ => 0.0), cycleProgress := seq(Legs, _ => 0.0), legStates := seq(Legs, _ => Reset),
       cycleStartPoints := seq(Legs, i requires 0 <= i < Legs => Copy3(positions[i])),
       forwardAmount := 0.0, turnAmount := 0.0)
  }
}

=== FILE: wrappers.dfy ===
/** The optional value used wherever the robot code answers "nothing" (`None`)
    instead of a value. */
module Wrappers {

  datatype Option<+T> = None | Some(value: T) {

    /** The carried value, or `default` when there is none. */
    function GetOr(default: T): (r: T)
      ensures Some? ==> r == value
      ensures None? ==> r == default
    {
      match this
      case Some(v) => v
      case None => default
    }
  }
}
